=== FILE: README.md ===
# Sentry event protocol: a verified normaliser model

This project models the rules of the Sentry v7 event wire format (the event
schema in `docs/schema.ts`). That file is a declarative description of the
JSON document an SDK sends. It names the members of an event, the shapes each
member may take and, in its doc comments, the rules that apply to them. It
contains no executable code. The model is a set of pure functions built from
exactly those rules, in three parts.

- **Types and validity.** These are datatypes for `Event`, `Exception`,
  `Mechanism`, `Thread`, `RawStacktrace`/`Frame`, `Contexts`/`Context`,
  `DebugImage`, `Request`, `LogEntry`, `Breadcrumb` and `Tags`. Every record
  keeps its unknown members in an `extra` map. A *raw* datatype holds each
  member in all the shapes the wire allows: an ordered map as an object or as
  a tuple list, a timestamp as a number or as text, a thread id as a number or
  as a string. A *normalised* datatype holds the single shape that results.
- **Normalisers.** Each one turns a raw record into a normalised record plus a
  list of processing errors. The `Errors` module models these errors. Each
  carries a path, an error kind and the rejected original value, and its
  remediation is one of three: annotate and keep, drop the value, or drop the
  record.
- **Identifier encoders.** These are the native debug identifiers: the PE
  `code_id`, the ELF `debug_id` derived from a `code_id`, and the PE
  `debug_id`. Each is proved against its parser, and each is checked on the
  worked examples in the schema.

Every normaliser has a partner. This is either a wire rendering
(`…ToWire`) with a lemma that normalising the rendering gives the value back,
or a characterising predicate with a lemma that the normaliser establishes it.
The top of the model is `Events.NormalizeEvent`. Its output satisfies
`Events.ValidEvent`. Every valid event is reproduced from its wire rendering,
so normalisation is idempotent.

Modules follow the schema's types:

| Module | Content |
|---|---|
| `Wrappers`, `Seqs`, `Numerals`, `Hex`, `Decimal` | Option, subsequences, positional numerals, hex and decimal text |
| `Json` | JSON values with integer numbers; objects as member sequences in document order |
| `Errors` | processing errors, error kinds and remediations |
| `Text` | prefix truncation |
| `EventIds`, `Levels`, `Timestamps` | `event_id`, `Level`/`EventType`, RFC 3339 and epoch seconds |
| `OrderedMaps`, `Tags`, `Requests` | ordered maps in both wire forms, tags, the request interface |
| `Contexts`, `DebugImages`, `DebugIds` | context resolution, debug images, native identifiers |
| `Stacktraces`, `Threads`, `Exceptions`, `LogEntries`, `Breadcrumbs` | the event's interfaces |
| `Events` | the whole event |

Design decisions where the schema leaves room:

- An absent member and an explicit `null` are the same (`Option.None`). The
  one exception is an exception's `value`: there a present `null` counts as
  "no value", as the type/value rule requires.
- An ordered map in object form follows JSON object meaning. The last
  duplicate key wins, and it keeps the position of its last occurrence. The
  tuple-list form keeps order and duplicates exactly. Null tuples and tuples
  with a null key are skipped.
- A context's explicit string `type` is authoritative whenever it is present:
  an unrecognised name gives the open variant. Only when there is no `type`
  does the alias key decide (`docs/schema.ts:365`).
- Trace ids are 32 and span ids (`span_id` and `parent_span_id`) 16
  lower-case hex digits. The schema only says "hex string as described in the
  W3C trace context spec", and W3C Trace Context requires lower case.
- Thread ids compare by their decimal text, so `0` and `"0"` name the same
  thread.
- Defaults are written into the normalised value: event level `error`,
  breadcrumb level `info`, breadcrumb type `default`, platform `other`, and
  thread `crashed`/`current` `false`.
- A tag of 200 characters or more is cut to 199 characters and annotated.
  `raw_function` is cut to 256 characters. `message`/`formatted` are cut to
  8192 characters.
- Soft rules annotate and keep the data. These are a frame without a
  location, an empty stack trace, a duplicate thread id, a malformed trace,
  span or parent span id, and a debug image without a member the schema marks
  required: `debug_id`, `code_file` and `image_addr` for a native image,
  `image_addr`, `image_size` and `name` for an Apple image.
- Error paths index list members by their position as sent, nulls included.
  Tags are the exception: a tag error indexes the canonical tag list, after
  null tuples and null keys are skipped and repeated keys collapse. An
  oversized key and an oversized value each give their own error, which
  records the string that was cut.
- A timestamp is not required to be in UTC, although the schema says it
  must be (`docs/schema.ts:352-354`). Text at any `±hh:mm` offset is read and
  converted to the UTC epoch second without an error. Text without an offset
  names no instant, so it is unreadable and dropped with `InvalidTimestamp`.
- Contexts in object form keep every entry in sent order. A repeated context key keeps both entries, unlike the last-wins reading of ordered maps (`docs/schema.ts:372-374`).
- The PE debug id writes the age in lower-case hex without padding. The schema's only example has age 1, which reads the same in hex and decimal, so it does not decide the base (`docs/schema.ts:958-964`).
- A lenient string (`JsonLenientString`) passes a JSON string through
  unchanged. Any other JSON value is replaced by its serialisation, which is
  a function parameter `serialize: Json -> string`.
- The event's own `errors` member is kept as sent. The errors the normaliser
  finds are returned beside the event.

## Model

| member | source | states |
|---|---|---|
| EventIds.ParseEventId | docs/schema.ts:50-51 | an id is accepted exactly when it is 32 lower-case hex digits, and the 16 bytes read from it render back to the same text |
| EventIds.ValidIffRendering | docs/schema.ts:50-51 | the valid event ids are exactly the renderings of 16-byte uuids |
| EventIds.ExampleIdValid | docs/schema.ts:58-62 | the documented example id `fc6d8c0c43fc4630ad850ee518f1b9d0` is valid |
| EventIds.DashedOrUpperCaseIdInvalid | docs/schema.ts:50-51 | a dashed uuid, an upper-case uuid and an upper-case undashed id are all invalid |
| EventIds.NormalizeEventId | docs/schema.ts:47-63 | a valid id is kept as sent; an invalid one is dropped with exactly one `InvalidEventId` error that carries the original text |
| Levels.ParseLevel | docs/schema.ts:350 | a string names a level exactly when it is one of the five lower-case names, and the level found spells that string |
| Levels.ParseLevelName | docs/schema.ts:350 | every level is read back from its own name |
| Levels.NormalizeLevel | docs/schema.ts:100-102 | an absent level becomes the default; a known name is read as that level; an unknown one falls back to the default with an `InvalidValue` error carrying the original |
| Levels.ParseEventType | docs/schema.ts:1839-1846 | a string names an event type exactly when it is one of the seven names, and the type found spells that string |
| Levels.ParseEventTypeName | docs/schema.ts:1839-1846 | every event type is read back from its own name |
| Levels.NormalizeEventType | docs/schema.ts:225-227 | a known type name is kept, and an error is reported exactly when a type was sent but is not a known one |
| Timestamps.NextDayCounts | docs/schema.ts:200-204 | the day numbering used for epoch seconds advances by exactly one from each valid calendar date to the next |
| Timestamps.EpochDayIsZero | docs/schema.ts:200-204 | 1970-01-01 is day zero of the epoch |
| Timestamps.ParseDateTime | docs/schema.ts:200-204 | whatever the RFC 3339 reader accepts is an in-range date, time and offset |
| Timestamps.ParseFormatDateTime | docs/schema.ts:200-204 | every valid whole-second date, time and offset is read back from its RFC 3339 text |
| Timestamps.ParseFractionalDateTime | docs/schema.ts:200-207 | RFC 3339 text with a fraction of a second is read as the whole second it falls in, with the same date, time and offset |
| Timestamps.ExampleFractionalTimestamp | docs/schema.ts:258 | the breadcrumb example `2016-04-20T20:55:53.845Z` denotes the epoch second of 2016-04-20 20:55:53 UTC |
| Timestamps.ExampleTimestampsAgree | docs/schema.ts:209-213 | the text `2011-05-02T17:41:36Z` and the number `1304358096` denote the same epoch second |
| Timestamps.OffsetConverted | docs/schema.ts:352-354 | text read at any offset denotes the UTC epoch second of its local time minus the offset |
| Timestamps.MissingOffsetUnreadable | docs/schema.ts:200-204 | a date and time written without an offset is unreadable |
| Timestamps.NormalizeTimestamp | docs/schema.ts:200-213 | a readable timestamp becomes its epoch second; an unreadable one is dropped, and exactly then an error is reported |
| OrderedMaps.LastValue | docs/schema.ts:1697-1700 | an object form assigns a value to a key exactly when some member has that key |
| OrderedMaps.LastWinsKeys | docs/schema.ts:1576-1577 | collapsing duplicate keys keeps every key that occurs and adds none |
| OrderedMaps.LastWinsDistinct | docs/schema.ts:1576-1577 | after collapsing, no key occurs twice |
| OrderedMaps.LastWinsOrdered | docs/schema.ts:1576-1577 | the collapsed object keeps its members in their sent order |
| OrderedMaps.LastWinsMeaning | docs/schema.ts:1697-1700 | collapsing does not change the value any key denotes |
| OrderedMaps.LastWinsIdentity | docs/schema.ts:1576-1577 | an object whose keys are distinct is left exactly as sent |
| OrderedMaps.FromListExact | docs/schema.ts:1700-1701 | a tuple list without null entries or null keys becomes exactly its pairs, in order and with duplicates |
| OrderedMaps.FromListSkipsMalformed | docs/schema.ts:1700-1701 | a null tuple or a tuple with a null key contributes nothing |
| OrderedMaps.FromToList | docs/schema.ts:1586-1597 | every pair sequence is read back from its tuple-list rendering |
| OrderedMaps.FormsAgree | docs/schema.ts:1571-1597 | for distinct keys, the object form and the equivalent tuple list canonicalise to the same pairs |
| OrderedMaps.ExampleRepeatedHeader | docs/schema.ts:1588-1597 | the documented repeated `accept` header list keeps both `accept` entries in order |
| OrderedMaps.CanonicalOrText | docs/schema.ts:1622-1625 | a string-form map is kept unparsed as text, and a structured form is canonicalised |
| Tags.CutTag | docs/schema.ts:180-183 | a cut tag is within the limit, is a prefix of the original in key and value, and equals the original exactly when that already fits |
| Tags.NormalizeTags | docs/schema.ts:180-183 | every tag is cut to the limit in canonical order, and errors are reported exactly when some tag was too long |
| Tags.CutErrors | docs/schema.ts:180-183 | every error is a `ValueTooLong` at a canonical position whose tag exceeds the limit and records as its original the oversized key or value; every oversized key and every oversized value has its own error, and each such position is reported |
| Tags.NormalizeTagsReports | docs/schema.ts:180-183 | a canonical position is reported exactly when normalising cut the tag there |
| Tags.NormalizeFittingTags | docs/schema.ts:180-183 | tags that all fit the limit are kept exactly, without errors |
| Tags.FormsNormalizeAlike | docs/schema.ts:1779-1784 | tags sent as an object or as the equivalent tuple list normalise identically |
| Tags.NormalizeTagsIdempotent | docs/schema.ts:180-183 | normalised tags sent again come back unchanged and without errors |
| Text.Truncate | docs/schema.ts:1538 | the cut text is a prefix of the input no longer than the cap, and is the input itself when that fits |
| Text.TruncateIdempotent | docs/schema.ts:1538 | cutting twice is cutting once |
| LogEntries.CapText | docs/schema.ts:1538 | a text over 8192 characters keeps its first 8192 characters and reports `ValueTooLong`; a fitting one is untouched |
| LogEntries.NormalizeLogEntry | docs/schema.ts:1533-1560 | `formatted` and `message` become prefixes of at most 8192 characters, `params` and unknown members are untouched, and errors occur exactly when something was cut |
| LogEntries.NormalizeLogEntryIdempotent | docs/schema.ts:1538 | a normalised log entry is a fixed point without errors |
| LogEntries.ExampleCutByOne | docs/schema.ts:1548 | a message one character over the cap loses exactly its last character |
| Contexts.ParseKind | docs/schema.ts:379-390 | a name denotes a context kind exactly when it is that kind's name |
| Contexts.Resolve | docs/schema.ts:362-390 | the data is kept unchanged, and the variant is the known kind named by the explicit `type`, or by the alias key when there is no `type`, otherwise the open map |
| Contexts.ExplicitTypeWins | docs/schema.ts:365 | an explicit known `type` decides the variant whatever the alias key is |
| Contexts.AliasSelects | docs/schema.ts:365 | without `type`, an alias key that names a kind selects that kind |
| Contexts.UnknownAliasIsOpen | docs/schema.ts:367-390 | without `type` and with an alias naming no kind, the context is the open map with its pairs unchanged |
| Contexts.ResolveContexts | docs/schema.ts:372-374 | every object entry is resolved under its own key; written back, the resolved contexts are a subsequence of the entries as sent, so sent order is kept; the errors are the shape errors |
| Contexts.ObjectEntries | docs/schema.ts:372-374 | exactly the entries whose value is an object are kept, as a subsequence of the entries in sent order |
| Contexts.ObjectEntriesConcat | docs/schema.ts:372-374 | the selection splits over concatenation, so every object entry is kept, repeated keys included |
| Contexts.ShapeErrors | docs/schema.ts:372-374 | each entry that is neither null nor an object yields `InvalidShape` at its alias carrying its value; every error is of such an entry; none occur exactly when every entry is an object or null |
| Contexts.CheckTraceContext | docs/schema.ts:699-726 | the errors only annotate, each an `InvalidTraceId` at `trace_id` or an `InvalidSpanId` at `span_id`/`parent_span_id`; a trace context is clean exactly when its present trace id is 32 lower-case hex digits and its span id and parent span id 16 each |
| Contexts.TraceIdReports | docs/schema.ts:699-726 | each of `trace_id`, `span_id` and `parent_span_id` is reported exactly when it is present, not null and malformed, and no other member is reported |
| Contexts.TraceEntryErrors | docs/schema.ts:699-726 | one entry's identifier errors are annotations only, and there are none exactly when the entry is not a trace context or its identifiers are acceptable |
| Contexts.TraceErrors | docs/schema.ts:751-753 | trace errors are annotations only, and there are none exactly when no entry has any (`Contexts.TraceEntryErrors`), that is, when every resolved trace context is clean |
| Contexts.TraceErrorsExact | docs/schema.ts:751-753 | an error is raised exactly when it is an identifier error of some resolved trace context, under that entry's alias: none is dropped and none is invented |
| Contexts.TraceErrorsConcat | docs/schema.ts:751-753 | the errors of joined entry lists are the errors of each list joined, so every trace context contributes all of its errors, in entry order |
| Contexts.ResolveContextsToWire | docs/schema.ts:372-374 | resolved contexts written back as objects resolve to themselves without errors |
| DebugImages.ResolveImage | docs/schema.ts:796-855 | an image is of a known kind exactly when its `type` names one, and its members are kept unchanged |
| DebugImages.CheckImage | docs/schema.ts:824-976 | an image is clean exactly when a native image has `debug_id`, `code_file` and `image_addr` and an Apple image has `image_addr`, `image_size` and `name`; unknown and Proguard images are always clean; the errors only annotate |
| DebugImages.CheckImageReports | docs/schema.ts:824-976 | a member is reported exactly when the image's kind marks it required and it is absent or null |
| DebugImages.ResolveImages | docs/schema.ts:786 | every object entry is resolved as an image; written back, the images are a subsequence of the entries as sent, so sent order is kept; the errors are the image errors |
| DebugImages.ObjectMembersInOrder | docs/schema.ts:786 | the selected objects are a subsequence of the entries, in sent order |
| DebugImages.ObjectMembersConcat | docs/schema.ts:786 | the selection splits over concatenation, so every object entry is kept, repeats included |
| DebugImages.ImageErrors | docs/schema.ts:786 | every error points at an image position as sent, and a shape error only at a non-object entry; a position is reported exactly when its entry is a non-object or an image that fails its check, so there are no errors exactly when no entry is flawed |
| DebugImages.ResolveImagesToWire | docs/schema.ts:786 | resolved images written back resolve to themselves |
| DebugImages.ImagesToWireAnnotates | docs/schema.ts:786 | resolved images written back raise annotations only |
| DebugIds.PeCodeId | docs/schema.ts:921-927 | the code id is 9 to 16 hex digits: the first eight are lower case and every later one is upper case, and the ninth is `0` exactly when the size is zero, in which case it is the last, so the size is not padded |
| DebugIds.ParsePeCodeIdRoundTrip | docs/schema.ts:921-927 | `time_date_stamp` and `size_of_image` are read back from the PE code id |
| DebugIds.ExamplePeCodeId | docs/schema.ts:923-926 | `0x5ab38077` and `0x9000` give `5ab380779000` |
| DebugIds.ExampleUpperPeCodeId | docs/schema.ts:921 | a size with hex letters is written in upper case: `0x5ab38077` and `0xA000` give `5ab38077A000` |
| DebugIds.ExampleDbghelpCodeId | docs/schema.ts:875 | the dbghelp example code id `57898e12145000` is the stamp `0x57898e12` with size `0x145000`, both ways |
| DebugIds.SwapUuidFields | docs/schema.ts:948-954 | the first 4-, 2- and 2-byte fields are byte-reversed and the last 8 bytes are unchanged |
| DebugIds.SwapUuidFieldsInvolution | docs/schema.ts:948-954 | swapping twice gives the original bytes |
| DebugIds.ParseFormatUuid | docs/schema.ts:948-954 | every 16 bytes are read back from their dashed lower-case text |
| DebugIds.FormatParseUuid | docs/schema.ts:948-954 | every dashed lower-case uuid text is the rendering of the bytes read from it |
| DebugIds.ElfDebugId | docs/schema.ts:948-954 | a debug id exists exactly when the code id has at least 16 bytes of hex, and it denotes the first 16 bytes with the three leading fields swapped |
| DebugIds.ExampleElfDebugId | docs/schema.ts:951-952 | `f1c3bcc0 2798 65fe 3058 404b2831d9e6 4135386c` gives `c0bcc3f1-9827-fe65-3058-404b2831d9e6` |
| DebugIds.ExampleLibgccDebugId | docs/schema.ts:862-864 | the libgcc example code id gives the documented debug id `e20a2268-5dc6-c165-b6aa-a12fa6765a6e` |
| DebugIds.PeDebugId | docs/schema.ts:958-964 | the PE debug id is a swapped uuid text followed by `-` and the age |
| DebugIds.ParsePeDebugIdRoundTrip | docs/schema.ts:958-964 | signature and age are read back from the PE debug id |
| DebugIds.ElfAndPeAgree | docs/schema.ts:948-964 | the PE debug id of a signature is the ELF debug id of the same bytes plus `-age` |
| DebugIds.ExamplePeDebugId | docs/schema.ts:960-963 | signature `f1c3bcc0 2798 65fe 3058 404b2831d9e6` with age 1 gives `c0bcc3f1-9827-fe65-3058-404b2831d9e6-1` |
| Stacktraces.NormalizeFrame | docs/schema.ts:1365-1468 | only `raw_function` changes, cut to a prefix of at most 256 characters; errors occur exactly when it was cut or the frame has no file, function or instruction address |
| Stacktraces.NormalizeFrameIdempotent | docs/schema.ts:1464-1468 | a normalised frame is a fixed point, and only the location annotation can recur |
| Stacktraces.NormalizeStacktrace | docs/schema.ts:1343-1346 | the non-null frames are normalised in order; a frame position as sent is reported exactly when that frame is not clean; `EmptyStacktrace` occurs exactly when no frame remains; there are no errors exactly when frames remain and all are clean |
| Stacktraces.NormalizeStacktraceToWire | docs/schema.ts:1343-1346 | a normalised stack trace written back normalises to itself |
| Stacktraces.StacktraceToWireAnnotates | docs/schema.ts:1343-1346 | a normalised stack trace written back raises annotations only |
| Threads.NumericIdKeysDistinct | docs/schema.ts:1500 | different numeric ids name different threads |
| Threads.NormalizeThread | docs/schema.ts:1809-1833 | `crashed` and `current` are true exactly when sent as true (default false); id, name and unknown members are kept |
| Threads.UniqueIffNoRepeats | docs/schema.ts:1821 | ids are unique exactly when no id repeats an earlier one |
| Threads.FindDuplicates | docs/schema.ts:1821 | the positions returned are exactly the ones whose id repeats an earlier one, ascending, and exactly the positions `DuplicateErrors` reports; none are returned exactly when the ids are unique |
| Threads.DuplicateErrors | docs/schema.ts:1821 | each repeated id is reported at its position, and nothing else is reported |
| Threads.NormalizeThreads | docs/schema.ts:1821 | the non-null threads are normalised in order; a position as sent is reported exactly when its id repeats an earlier one or its own stack trace reports something; a duplicate-id error occurs exactly when the ids are not unique; there are no errors exactly when the ids are unique and no thread reports |
| Threads.NormalizeThreadsToWire | docs/schema.ts:1809-1833 | normalised threads written back with explicit flags normalise to themselves |
| Threads.NormalizeThreadsToWireAnnotates | docs/schema.ts:1809-1833 | normalised threads written back raise annotations only |
| Threads.ExampleCrashedMainThread | docs/schema.ts:1795-1803 | the documented main thread is crashed, not current, and its empty stack trace is reported |
| Exceptions.NormalizeMechanism | docs/schema.ts:1174-1182 | a mechanism is kept exactly when it has a type, with all other members unchanged; otherwise it is dropped with `MissingMechanismType` |
| Exceptions.LenientString | docs/schema.ts:1502-1504 | a JSON string passes through unchanged |
| Exceptions.Kept | docs/schema.ts:1112-1118 | an exception survives exactly when it was sent and has a type or a non-null value |
| Exceptions.KeptConcat | docs/schema.ts:1112-1118 | filtering works occurrence by occurrence: the survivors of a joined list are the survivors of each part, joined, so repeated exceptions are each kept or dropped on their own |
| Exceptions.KeptIsSubsequence | docs/schema.ts:1070-1090 | the surviving exceptions keep their oldest-to-newest order |
| Exceptions.KeptIdempotent | docs/schema.ts:1112-1118 | filtering a list that all satisfies the rule changes nothing |
| Exceptions.NormalizeException | docs/schema.ts:1092-1122 | type, module, thread id and unknown members are kept; the value is present exactly when a non-null value was sent, as its lenient string; `MissingMechanismType` is reported exactly when a mechanism was sent without a type; there are no errors exactly when the mechanism has a type and the stack trace normalises cleanly, where present |
| Exceptions.NormalizeExceptions | docs/schema.ts:1070-1122 | position by position, the result is the normalised `Kept` list (which `Exceptions.KeptConcat` fixes occurrence by occurrence), and each has a type or a value; `MissingTypeAndValue` occurs exactly when one was dropped; a position as sent is reported exactly when its exception is dropped or reports something itself |
| Exceptions.ExampleDropAndKeep | docs/schema.ts:1112-1118 | `{"type": null, "value": null}` is dropped and `{"value": "boom"}` kept |
| Exceptions.NormalizeExceptionsToWire | docs/schema.ts:1070-1122 | normalised exceptions written back normalise to themselves |
| Exceptions.NormalizeExceptionsToWireAnnotates | docs/schema.ts:1070-1122 | normalised exceptions written back raise annotations only |
| Requests.NormalizeRequest | docs/schema.ts:1621-1695 | headers, cookies and the query string are canonicalised, string forms are kept unparsed, and every other member is kept |
| Requests.NormalizeToWire | docs/schema.ts:1621-1695 | every normalised request is reproduced from its tuple-list rendering |
| Requests.NormalizeRequestIdempotent | docs/schema.ts:1621-1695 | normalising a normalised request written back changes nothing |
| Requests.HeaderFormsAgree | docs/schema.ts:1579-1597 | headers with distinct names sent as an object or as a tuple list give the same request |
| Requests.ExampleCookieString | docs/schema.ts:1622-1625 | a cookie header string is kept as unparsed text |
| Breadcrumbs.NormalizeBreadcrumb | docs/schema.ts:279-346 | level defaults to `info` and type to `default`, the timestamp becomes epoch seconds, and errors occur exactly when the level or timestamp is unreadable |
| Breadcrumbs.NormalizeToWire | docs/schema.ts:279-346 | a breadcrumb written back with its defaults spelled out normalises to itself without errors |
| Breadcrumbs.BreadcrumbErrors | docs/schema.ts:297-323 | every error sits at a position as sent; a position is reported exactly when a breadcrumb is present there and draws an error of its own; the list is clean exactly when each sent breadcrumb is |
| Breadcrumbs.NormalizeBreadcrumbs | docs/schema.ts:243-245 | the non-null breadcrumbs are normalised in order, oldest first; the errors are unreadable levels and timestamps only; a position as sent is reported exactly when its breadcrumb draws an error, and there are none exactly when every present breadcrumb is clean |
| Breadcrumbs.ExampleDefaults | docs/schema.ts:299-326 | a breadcrumb without level and type gets `info` and `default` |
| Breadcrumbs.NormalizeBreadcrumbsToWire | docs/schema.ts:243 | normalised breadcrumbs written back normalise to themselves, in order and without errors |
| Events.NormalizeEvent | docs/schema.ts:4-278 | level defaults to `error`; a known level is read as sent, and an unknown one falls back to `error` with an `InvalidValue` error carrying the text; platform defaults to `other`; members without rules are kept as sent; the event draws no error exactly when every member present passes its own rule |
| Events.NormalizeEventValid | docs/schema.ts:4-278 | every normalised event satisfies all the member rules at once |
| Events.NormalizeEventScalars | docs/schema.ts:47-213 | the event id is kept exactly when valid, the event type exactly when it is a known name, and `timestamp`/`received` are the epoch seconds of what was sent |
| Events.NormalizeEventExceptions | docs/schema.ts:1070-1122 | position by position, the event's exceptions are the surviving ones of `Exceptions.Kept`, each normalised |
| Events.NormalizeEventToWire | docs/schema.ts:4-278 | every valid event is reproduced from its wire rendering |
| Events.NormalizeEventIdempotent | docs/schema.ts:4-278 | normalising a normalised event written back gives the same event and raises annotations only |
| Events.ExampleMinimalEvent | docs/schema.ts:100-140 | an event sent with nothing but an id gets level `error` and platform `other` |

## Left out

- Floating-point timestamps and sub-second precision (`docs/schema.ts:205-207`, `352`) are left out. Numeric timestamps are integer seconds. RFC 3339 text may carry a fraction of a second, which is read and then dropped. `time_spent` is an optional integer.
- The fatal-to-debug order of levels (`docs/schema.ts:299-301`) is not modelled, because it only steers emphasis in the UI and no rule depends on it.
- The ELF `debug_id` fallback that XORs the first 4096 bytes of `.text` (`docs/schema.ts:956`) is left out, because it needs the binary.
- Relative addresses from `image_vmaddr` are left out. The worked example at `docs/schema.ts:990` is not consistent arithmetic, so no property is derived from it. `image_addr` and `image_size` are kept as JSON values.
- String-form `cookies` and `query_string` are not parsed (`docs/schema.ts:1625`, `1670`), because the delimiters are not specified. They are kept as text. Moving a query string out of `url` (`docs/schema.ts:1672-1673`) is not modelled either.
- Header merging under RFC 9110 section 5.3 and case-insensitive header names (`docs/schema.ts:1655-1656`) are left out. Headers keep their sent spelling and their repetitions.
- JSON serialisation for a lenient string is the parameter `serialize`. The model does not define it.
- Exceptions.LenientString: only the string pass-through is stated, because the text of any other value is whatever `serialize` gives.
- JSON numbers are integers, because floats are left out as above.
- Server-side backfilling of `event_id`, grouping and fingerprinting, symbolication and PII scrubbing are left out, and so are transport and I/O. The schema describes them but does not define them.
- The Perl SDK that produces events is not part of this model.
- The members of the context kinds (device, os, runtime, app, browser, gpu, monitor) other than the trace ids are kept as JSON without per-member checks. So are `sdk`, `user`, `modules`, the mechanism's `meta`, a frame's `vars` and the request's `data` and `env`. The schema gives them types but no rules.
- The Apple and ProGuard image kinds come from the type list at `docs/schema.ts:796-803`. Their type names `apple` and `proguard` are not spelled out in the schema's text. Neither are the context type names `device`, `os`, `runtime`, `app`, `browser`, `trace` and `monitor` (`docs/schema.ts:379-390`); only `gpu` appears, in the example at `docs/schema.ts:642`. The model uses the lower-cased type names.
- DebugImages.CheckImage: a native image without `image_size` is not annotated, although the schema marks it required, because the schema says what happens when it is missing: the image is taken to span up to the next image (`docs/schema.ts:976-978`).
- Timestamps.ParseDateTime: a leap second (`:60`) is rejected, because epoch seconds cannot represent it.

=== FILE: breadcrumbs.dfy ===
/**
 * Breadcrumbs: the application events recorded before an event, from the
 * oldest to the newest. A breadcrumb's level defaults to `info` and its type
 * to `default`; its timestamp is read like every timestamp of the protocol.
 */
module Breadcrumbs {
  import opened Wrappers
  import opened Json
  import opened Errors
  import opened Seqs
  import opened Levels
  import opened Timestamps

  const DefaultBreadcrumbType := "default"

  datatype Breadcrumb = Breadcrumb(
    category: Option<string>,
    data: Option<Extra>,
    level: Level,
    message: Option<string>,
    timestamp: Option<int>,
    typeName: string,
    extra: Extra)

  datatype RawBreadcrumb = RawBreadcrumb(
    category: Option<string>,
    data: Option<Extra>,
    level: Option<string>,
    message: Option<string>,
    timestamp: Option<Timestamp>,
    typeName: Option<string>,
    extra: Extra)

  /** Fills in the defaults and reads the timestamp; everything else is kept. */
  function NormalizeBreadcrumb(raw: RawBreadcrumb): (r: (Breadcrumb, seq<ProcessingError>))
    ensures raw.level.None? ==> r.0.level == Info
    ensures raw.level.Some? && ParseLevel(raw.level.value).Some? ==> LevelName(r.0.level) == raw.level.value
    ensures raw.typeName.None? ==> r.0.typeName == "default"
    ensures raw.typeName.Some? ==> r.0.typeName == raw.typeName.value
    ensures raw.timestamp.None? ==> r.0.timestamp.None?
    ensures raw.timestamp.Some? ==> r.0.timestamp == ToEpochSeconds(raw.timestamp.value)
    ensures r.0.category == raw.category && r.0.data == raw.data
    ensures r.0.message == raw.message && r.0.extra == raw.extra
    ensures r.1 == [] <==>
      (raw.level.None? || ParseLevel(raw.level.value).Some?) &&
      (raw.timestamp.None? || ToEpochSeconds(raw.timestamp.value).Some?)
    ensures forall e :: e in r.1 ==> (e.kind == InvalidValue || e.kind == InvalidTimestamp)
  {
    var level := NormalizeLevel(raw.level, BreadcrumbLevelDefault);
    var ts := NormalizeTimestamp("timestamp", raw.timestamp);
    (Breadcrumb(raw.category, raw.data, level.0, raw.message, ts.0, raw.typeName.GetOr(DefaultBreadcrumbType), raw.extra),
     level.1 + ts.1)
  }

  /** A normalised breadcrumb written back with every default spelled out. */
  function ToWire(b: Breadcrumb): RawBreadcrumb {
    RawBreadcrumb(b.category, b.data, Some(LevelName(b.level)), b.message,
      match b.timestamp case Some(n) => Some(Seconds(n)) case None => None,
      Some(b.typeName), b.extra)
  }

  /** Spelling out the defaults changes nothing: a normalised breadcrumb is a fixed point. */
  lemma NormalizeToWire(b: Breadcrumb)
    ensures NormalizeBreadcrumb(ToWire(b)) == (b, [])
  {
    ParseLevelName(b.level);
  }

  /** The breadcrumbs present in the list, normalised, in their order. */
  function NormalizeBreadcrumbs(values: seq<Option<RawBreadcrumb>>): (r: (seq<Breadcrumb>, seq<ProcessingError>))
    ensures |r.0| == |Somes(values)|
    ensures forall i :: 0 <= i < |r.0| ==> r.0[i] == NormalizeBreadcrumb(Somes(values)[i]).0
    ensures forall e :: e in r.1 ==> (e.kind == InvalidValue || e.kind == InvalidTimestamp)
    ensures r.1 == [] <==> forall i :: 0 <= i < |values| && values[i].Some? ==> NormalizeBreadcrumb(values[i].value).1 == []
    ensures forall i :: 0 <= i < |values| ==>
      (ReportedUnder(r.1, [Index(i)]) <==> values[i].Some? && NormalizeBreadcrumb(values[i].value).1 != [])
  {
    var present := Somes(values);
    (seq(|present|, i requires 0 <= i < |present| => NormalizeBreadcrumb(present[i]).0),
     BreadcrumbErrors(values, 0))
  }

  /** The errors of one list entry: none for a null entry, else its breadcrumb's own. */
  function EntryErrors(entry: Option<RawBreadcrumb>): (r: seq<ProcessingError>)
    ensures forall e :: e in r ==> e.kind == InvalidValue || e.kind == InvalidTimestamp
    ensures r != [] <==> entry.Some? && NormalizeBreadcrumb(entry.value).1 != []
  {
    match entry
    case None => []
    case Some(b) => NormalizeBreadcrumb(b).1
  }

  /**
   * Errors of the breadcrumbs from index `from` on, at their index as sent:
   * an index is reported exactly when a breadcrumb is present there and
   * draws an error of its own.
   */
  function BreadcrumbErrors(values: seq<Option<RawBreadcrumb>>, from: nat): (r: seq<ProcessingError>)
    requires from <= |values|
    ensures forall e :: e in r ==> (e.kind == InvalidValue || e.kind == InvalidTimestamp)
    ensures forall e :: e in r ==> |e.path| >= 1 && e.path[0].Index? && from <= e.path[0].i < |values|
    ensures forall i :: from <= i < |values| ==>
      (ReportedUnder(r, [Index(i)]) <==> values[i].Some? && NormalizeBreadcrumb(values[i].value).1 != [])
    ensures r == [] <==> forall i :: from <= i < |values| && values[i].Some? ==> NormalizeBreadcrumb(values[i].value).1 == []
    decreases |values| - from
  {
    if from == |values| then []
    else
      var rest := BreadcrumbErrors(values, from + 1);
      var own := EntryErrors(values[from]);
      var u := Under(Index(from), own);
      assert forall e :: e in u ==> (e.kind == InvalidValue || e.kind == InvalidTimestamp) && |e.path| >= 1 && e.path[0] == Index(from) by {
        forall e | e in u
          ensures (e.kind == InvalidValue || e.kind == InvalidTimestamp) && |e.path| >= 1 && e.path[0] == Index(from)
        {
          var k :| 0 <= k < |u| && u[k] == e;
          assert own[k] in own;
        }
      }
      ReportedAtCons(from, own, rest);
      var r := u + rest;
      EmptyIffNoneReported(r, from, |values|);
      r
  }

  /** A bare breadcrumb reads as an informational breadcrumb of type `default`. */
  lemma ExampleDefaults()
    ensures
      var b := NormalizeBreadcrumb(RawBreadcrumb(None, None, None, Some("Something happened"), None, None, map[])).0;
      b.level == Info && b.typeName == "default"
  {
  }

  function BreadcrumbsToWire(bs: seq<Breadcrumb>): (r: seq<Option<RawBreadcrumb>>)
    ensures |r| == |bs| && forall i :: 0 <= i < |bs| ==> r[i] == Some(ToWire(bs[i]))
  {
    seq(|bs|, i requires 0 <= i < |bs| => Some(ToWire(bs[i])))
  }

  /** Normalised breadcrumbs are reproduced from their wire rendering, in order and without error. */
  lemma NormalizeBreadcrumbsToWire(bs: seq<Breadcrumb>)
    ensures NormalizeBreadcrumbs(BreadcrumbsToWire(bs)).0 == bs
    ensures NormalizeBreadcrumbs(BreadcrumbsToWire(bs)).1 == []
  {
    SomesAllPresent(BreadcrumbsToWire(bs));
    forall i | 0 <= i < |bs| {
      NormalizeToWire(bs[i]);
    }
  }
}

=== FILE: contexts.dfy ===
/**
 * Contexts: an object whose keys are freely chosen aliases and whose values
 * are context objects. Each entry resolves to one of the known context kinds
 * or to the open variant; its members are always kept as given.
 */
module Contexts {
  import opened Wrappers
  import opened Json
  import opened Errors
  import opened Hex
  import opened Seqs

  datatype ContextKind = Device | Os | Runtime | App | Browser | Gpu | Trace | Monitor

  /** The `type` value (and conventional alias) of each context kind. */
  function KindName(k: ContextKind): string {
    match k
    case Device => "device"
    case Os => "os"
    case Runtime => "runtime"
    case App => "app"
    case Browser => "browser"
    case Gpu => "gpu"
    case Trace => "trace"
    case Monitor => "monitor"
  }

  /** The kind a name denotes; names are case-sensitive. */
  function ParseKind(s: string): (r: Option<ContextKind>)
    ensures r.Some? ==> KindName(r.value) == s
    ensures r.None? ==> forall k :: KindName(k) != s
  {
    if s == "device" then Some(Device)
    else if s == "os" then Some(Os)
    else if s == "runtime" then Some(Runtime)
    else if s == "app" then Some(App)
    else if s == "browser" then Some(Browser)
    else if s == "gpu" then Some(Gpu)
    else if s == "trace" then Some(Trace)
    else if s == "monitor" then Some(Monitor)
    else None
  }

  lemma ParseKindName(k: ContextKind)
    ensures ParseKind(KindName(k)) == Some(k)
  {
  }

  /** A resolved context: a known kind or the open key/value variant, with its members. */
  datatype Context =
    | Known(kind: ContextKind, data: seq<Member>)
    | Open(data: seq<Member>)

  /** The name that selects the variant: an explicit string `type`, else the alias. */
  function Selector(alias: string, data: seq<Member>): string {
    match StringMember(data, "type")
    case Some(t) => t
    case None => alias
  }

  /**
   * Resolves one context. An explicit string `type` member decides the
   * variant; only without one does the alias key decide; a name that is no
   * known kind yields the open variant.
   */
  function Resolve(alias: string, data: seq<Member>): (r: Context)
    ensures r.data == data
    ensures r.Known? <==> ParseKind(Selector(alias, data)).Some?
    ensures r.Known? ==> KindName(r.kind) == Selector(alias, data)
  {
    match ParseKind(Selector(alias, data))
    case Some(k) => Known(k, data)
    case None => Open(data)
  }

  /** An explicit type is authoritative, whatever the alias. */
  lemma ExplicitTypeWins(alias: string, data: seq<Member>, k: ContextKind)
    requires Lookup(data, "type") == Some(String(KindName(k)))
    ensures Resolve(alias, data) == Known(k, data)
  {
    ParseKindName(k);
  }

  /** Without a `type`, an alias that names a kind selects it. */
  lemma AliasSelects(data: seq<Member>, k: ContextKind)
    requires Lookup(data, "type").None?
    ensures Resolve(KindName(k), data) == Known(k, data)
  {
    ParseKindName(k);
  }

  /** Without a `type`, an alias that names no kind gives the open variant. */
  lemma UnknownAliasIsOpen(alias: string, data: seq<Member>)
    requires Lookup(data, "type").None?
    requires forall k :: KindName(k) != alias
    ensures Resolve(alias, data) == Open(data)
  {
  }

  /**
   * Resolves every entry of `contexts`. A null entry is absent; an entry
   * that is not an object cannot be a context and is dropped with an
   * `InvalidShape` error at its alias. Every object entry is kept, in order.
   */
  function ResolveContexts(entries: seq<Member>): (r: (seq<(string, Context)>, seq<ProcessingError>))
    ensures |r.0| == |ObjectEntries(entries)|
    ensures forall i :: 0 <= i < |r.0| ==>
      var m := ObjectEntries(entries)[i];
      r.0[i] == (m.key, Resolve(m.key, m.value.members))
    ensures r.1 == ShapeErrors(entries)
    ensures IsSubsequence(ContextsToWire(r.0), entries)
  {
    var kept := ObjectEntries(entries);
    var cs := seq(|kept|, i requires 0 <= i < |kept| => (kept[i].key, Resolve(kept[i].key, kept[i].value.members)));
    assert ContextsToWire(cs) == kept;
    (cs, ShapeErrors(entries))
  }

  /** The entries whose value is an object, in their original order. */
  function ObjectEntries(entries: seq<Member>): (r: seq<Member>)
    ensures |r| <= |entries|
    ensures forall m :: m in r <==> m in entries && m.value.Object?
    ensures IsSubsequence(r, entries)
  {
    if |entries| == 0 then []
    else
      var rest := ObjectEntries(entries[1..]);
      assert forall m :: m in entries <==> m == entries[0] || m in entries[1..];
      assert [entries[0]] + entries[1..] == entries;
      if entries[0].value.Object? then
        SubsequenceKeep(rest, entries[0], entries[1..]);
        [entries[0]] + rest
      else
        SubsequenceSkip(rest, entries[0], entries[1..]);
        rest
  }

  /** Selecting the objects splits over concatenation: every object entry is kept, repeats included. */
  lemma {:induction false} ObjectEntriesConcat(a: seq<Member>, b: seq<Member>)
    ensures ObjectEntries(a + b) == ObjectEntries(a) + ObjectEntries(b)
  {
    if |a| == 0 {
      assert a + b == b;
    } else {
      assert (a + b)[1..] == a[1..] + b;
      ObjectEntriesConcat(a[1..], b);
    }
  }

  /** An entry that cannot be a context: its value is neither null nor an object. */
  predicate Misshapen(m: Member) {
    !m.value.Null? && !m.value.Object?
  }

  /**
   * One `InvalidShape` error per entry that is neither null nor an object,
   * at its alias and carrying its value; no other error.
   */
  function ShapeErrors(entries: seq<Member>): (r: seq<ProcessingError>)
    ensures |r| <= |entries|
    ensures forall e :: e in r ==> e.kind == InvalidShape && RemediationOf(e.kind) == DropRecord
    ensures forall i :: 0 <= i < |entries| && Misshapen(entries[i]) ==>
      At(entries[i].key, InvalidShape, Some(entries[i].value)) in r
    ensures forall e :: e in r ==>
      |e.path| == 1 && e.path[0].Field? && e.original.Some? &&
      Member(e.path[0].name, e.original.value) in entries && Misshapen(Member(e.path[0].name, e.original.value))
    ensures r == [] <==> forall i :: 0 <= i < |entries| ==> entries[i].value.Null? || entries[i].value.Object?
  {
    if |entries| == 0 then []
    else
      var rest := ShapeErrors(entries[1..]);
      assert forall i :: 1 <= i < |entries| ==> entries[1..][i - 1] == entries[i];
      assert forall m :: m in entries[1..] ==> m in entries;
      if !Misshapen(entries[0]) then rest
      else [At(entries[0].key, InvalidShape, Some(entries[0].value))] + rest
  }

  /** An entry whose every value is an object loses nothing and raises no error. */
  lemma {:induction false} ObjectsAllKept(entries: seq<Member>)
    requires forall i :: 0 <= i < |entries| ==> entries[i].value.Object?
    ensures ObjectEntries(entries) == entries
    ensures ShapeErrors(entries) == []
  {
    if |entries| > 0 {
      ObjectsAllKept(entries[1..]);
    }
  }

  /** The open context under an unknown alias keeps its members verbatim. */
  lemma ExampleUnknownWidget()
    ensures
      var data := [Member("foo", String("bar"))];
      ResolveContexts([Member("unknown_widget", Object(data))]).0 == [("unknown_widget", Open(data))]
  {
    var data := [Member("foo", String("bar"))];
    assert Lookup(data, "type").None? by {
      assert data[0].key != "type";
    }
    assert ParseKind("unknown_widget").None?;
    assert [Member("unknown_widget", Object(data))][1..] == [];
  }

  /** `trace_id` has 32 and a span id 16 lower-case hex digits (W3C Trace Context). */
  const TraceIdDigits: nat := 32
  const SpanIdDigits: nat := 16

  /** An identifier member that is absent, null, or a string of `digits` lower-case hex digits. */
  predicate AcceptableId(value: Option<Json>, digits: nat) {
    match value
    case None => true
    case Some(Null) => true
    case Some(String(t)) => |t| == digits && IsLowerHex(t)
    case Some(_) => false
  }

  /**
   * The identifier checks of a trace context: `trace_id`, `span_id` and
   * `parent_span_id`. A malformed present id is annotated at its member;
   * the context is kept as given.
   */
  function CheckTraceContext(data: seq<Member>): (errors: seq<ProcessingError>)
    ensures OnlyAnnotations(errors)
    ensures forall e :: e in errors ==>
      (e.kind == InvalidTraceId && e.path == [Field("trace_id")]) ||
      (e.kind == InvalidSpanId && (e.path == [Field("span_id")] || e.path == [Field("parent_span_id")]))
    ensures errors == [] <==>
      AcceptableId(Lookup(data, "trace_id"), TraceIdDigits) &&
      AcceptableId(Lookup(data, "span_id"), SpanIdDigits) &&
      AcceptableId(Lookup(data, "parent_span_id"), SpanIdDigits)
  {
    var t := IdError("trace_id", InvalidTraceId, Lookup(data, "trace_id"), TraceIdDigits);
    var s := IdError("span_id", InvalidSpanId, Lookup(data, "span_id"), SpanIdDigits);
    var p := IdError("parent_span_id", InvalidSpanId, Lookup(data, "parent_span_id"), SpanIdDigits);
    t + s + p
  }

  /** Each identifier member is reported exactly when it is malformed, and no other member is. */
  lemma TraceIdReports(data: seq<Member>)
    ensures forall key :: ReportedUnder(CheckTraceContext(data), [Field(key)]) <==>
      (key == "trace_id" && !AcceptableId(Lookup(data, "trace_id"), TraceIdDigits)) ||
      (key == "span_id" && !AcceptableId(Lookup(data, "span_id"), SpanIdDigits)) ||
      (key == "parent_span_id" && !AcceptableId(Lookup(data, "parent_span_id"), SpanIdDigits))
  {
    var t := IdError("trace_id", InvalidTraceId, Lookup(data, "trace_id"), TraceIdDigits);
    var s := IdError("span_id", InvalidSpanId, Lookup(data, "span_id"), SpanIdDigits);
    var p := IdError("parent_span_id", InvalidSpanId, Lookup(data, "parent_span_id"), SpanIdDigits);
    assert CheckTraceContext(data) == t + s + p;
    ReportedAmongThree("trace_id", "span_id", "parent_span_id", t, s, p);
  }

  /** The error for one identifier member: none when absent, null or well formed. */
  function IdError(name: string, kind: ErrorKind, value: Option<Json>, digits: nat): (errors: seq<ProcessingError>)
    ensures |errors| <= 1
    ensures forall e :: e in errors ==> e.kind == kind && e.path == [Field(name)]
    ensures errors == [] <==> AcceptableId(value, digits)
    ensures ReportedUnder(errors, [Field(name)]) <==> errors != []
  {
    var errors :=
      match value
      case None => []
      case Some(Null) => []
      case Some(String(t)) => if |t| == digits && IsLowerHex(t) then [] else [At(name, kind, value)]
      case Some(v) => [At(name, kind, value)];
    errors
  }

  /** The identifier errors of one resolved entry, under its alias; only trace contexts have any. */
  function TraceEntryErrors(entry: (string, Context)): (errors: seq<ProcessingError>)
    ensures OnlyAnnotations(errors)
    ensures errors == [] <==> entry.1 != Known(Trace, entry.1.data) || CheckTraceContext(entry.1.data) == []
  {
    var (alias, c) := entry;
    if c == Known(Trace, c.data) then
      var own := Under(Field(alias), CheckTraceContext(c.data));
      assert OnlyAnnotations(own) by {
        forall k | 0 <= k < |own|
          ensures RemediationOf(own[k].kind) == Annotate
        {
          assert own[k].kind == CheckTraceContext(c.data)[k].kind;
        }
      }
      own
    else []
  }

  /**
   * The identifier checks of every resolved trace context, each under the
   * alias of its entry. Other kinds and the open variant raise nothing.
   */
  function TraceErrors(resolved: seq<(string, Context)>): (errors: seq<ProcessingError>)
    ensures OnlyAnnotations(errors)
    ensures errors == [] <==> forall i :: 0 <= i < |resolved| ==> TraceEntryErrors(resolved[i]) == []
  {
    if |resolved| == 0 then []
    else
      var rest := TraceErrors(resolved[1..]);
      assert forall i :: 1 <= i < |resolved| ==> resolved[1..][i - 1] == resolved[i];
      TraceEntryErrors(resolved[0]) + rest
  }

  /** `e` is one of the identifier errors of a trace context `entry`, re-rooted at its alias. */
  predicate TraceReport(entry: (string, Context), e: ProcessingError) {
    entry.1 == Known(Trace, entry.1.data) && e in Under(Field(entry.0), CheckTraceContext(entry.1.data))
  }

  /**
   * An error is raised for the resolved contexts exactly when it is an
   * identifier error of one of their trace contexts: none is dropped and
   * none is invented.
   */
  lemma {:induction false} TraceErrorsExact(resolved: seq<(string, Context)>)
    ensures forall e :: e in TraceErrors(resolved) <==>
      exists i :: 0 <= i < |resolved| && TraceReport(resolved[i], e)
  {
    if |resolved| > 0 {
      var tail := resolved[1..];
      TraceErrorsExact(tail);
      assert TraceErrors(resolved) == TraceEntryErrors(resolved[0]) + TraceErrors(tail);
      assert forall i :: 0 < i < |resolved| ==> tail[i - 1] == resolved[i];
      assert forall e :: e in TraceEntryErrors(resolved[0]) <==> TraceReport(resolved[0], e);
    }
  }

  /**
   * The errors of joined entry lists are the errors of each list, joined:
   * every trace context contributes all of its errors, in entry order.
   */
  lemma {:induction false} TraceErrorsConcat(a: seq<(string, Context)>, b: seq<(string, Context)>)
    ensures TraceErrors(a + b) == TraceErrors(a) + TraceErrors(b)
  {
    if |a| == 0 {
      assert a + b == b;
    } else {
      var x, tail := a[0], a[1..];
      assert a == [x] + tail;
      assert a + b == [x] + (tail + b);
      TraceErrorsCons(x, tail);
      TraceErrorsCons(x, tail + b);
      TraceErrorsConcat(tail, b);
      var p, q, r := TraceEntryErrors(x), TraceErrors(tail), TraceErrors(b);
      assert TraceErrors(a + b) == p + (q + r);
      assert TraceErrors(a) + TraceErrors(b) == (p + q) + r;
      ConcatAssoc(p, q, r);
    }
  }

  lemma TraceErrorsCons(x: (string, Context), rest: seq<(string, Context)>)
    ensures TraceErrors([x] + rest) == TraceEntryErrors(x) + TraceErrors(rest)
  {
    assert ([x] + rest)[1..] == rest;
  }

  /** Every context is what its alias and members resolve to. */
  predicate ResolvedContexts(cs: seq<(string, Context)>) {
    forall i :: 0 <= i < |cs| ==> cs[i].1 == Resolve(cs[i].0, cs[i].1.data)
  }

  lemma ResolveContextsResolved(entries: seq<Member>)
    ensures ResolvedContexts(ResolveContexts(entries).0)
  {
  }

  /** Resolved contexts written back as an object of alias/member pairs. */
  function ContextsToWire(cs: seq<(string, Context)>): (entries: seq<Member>)
    ensures |entries| == |cs|
    ensures forall i :: 0 <= i < |cs| ==> entries[i] == Member(cs[i].0, Object(cs[i].1.data))
  {
    seq(|cs|, i requires 0 <= i < |cs| => Member(cs[i].0, Object(cs[i].1.data)))
  }

  /** Resolved contexts are reproduced from their wire rendering, without errors. */
  lemma ResolveContextsToWire(cs: seq<(string, Context)>)
    requires ResolvedContexts(cs)
    ensures ResolveContexts(ContextsToWire(cs)).0 == cs
    ensures ShapeErrors(ContextsToWire(cs)) == []
  {
    ObjectsAllKept(ContextsToWire(cs));
  }
}

=== FILE: debug_ids.dfy ===
/**
 * Identifiers of native debug images: the PE code identifier built from
 * two COFF header fields, and the debug identifiers of ELF and PE images,
 * which render sixteen bytes as a little-endian UUID.
 */
module DebugIds {
  import opened Wrappers
  import opened Numerals
  import opened Hex

  /** Unsigned 32-bit header fields. */
  const U32Bound: nat := 0x1_0000_0000

  /**
   * The PE code identifier: `time_date_stamp` as eight zero-padded
   * lower-case digits, then `size_of_image` as upper-case digits without
   * padding (the `%08x%X` format).
   */
  function PeCodeId(timeDateStamp: nat, sizeOfImage: nat): (r: string)
    requires timeDateStamp < U32Bound && sizeOfImage < U32Bound
    ensures 9 <= |r| <= 16
    ensures IsHex(r)
    ensures IsLowerHex(r[..8])
    ensures forall i :: 8 <= i < |r| ==> IsUpperHexDigit(r[i])
    ensures r[8] == '0' <==> sizeOfImage == 0
    ensures sizeOfImage == 0 ==> |r| == 9
  {
    assert Pow(16, 8) == U32Bound;
    FormatUpperUnpadded(sizeOfImage);
    FormatUpperShort(sizeOfImage);
    var r := FormatPadded(timeDateStamp, 8) + FormatUpper(sizeOfImage);
    assert forall i :: 8 <= i < |r| ==> r[i] == FormatUpper(sizeOfImage)[i - 8];
    r
  }

  lemma FormatUpperShort(n: nat)
    requires n < U32Bound
    ensures |FormatUpper(n)| <= 8
    ensures IsHex(FormatUpper(n))
  {
    var ds := MinimalDigits(n, 16);
    if |ds| > 8 {
      FromDigitsAtLeastLeadPow(ds);
      assert false;
    }
  }

  /** A minimal numeral longer than eight digits denotes at least 16^8. */
  lemma FromDigitsAtLeastLeadPow(ds: seq<nat>)
    requires 9 <= |ds| && AllBelow(ds, 16) && ds[0] != 0
    ensures FromDigits(ds, 16) >= U32Bound
  {
    var lead := ds[..9];
    assert ds == lead + ds[9..];
    FromDigitsAppend(lead, ds[9..]);
    FromDigitsAtLeastLead(lead, 16);
    assert FromDigits(lead, 16) >= Pow(16, 8) by {
      FromDigitsLeadWeight(lead);
    }
    assert Pow(16, 8) == U32Bound;
  }

  lemma {:induction false} FromDigitsAppend(a: seq<nat>, b: seq<nat>)
    ensures FromDigits(a + b, 16) >= FromDigits(a, 16)
    decreases |b|
  {
    if |b| > 0 {
      var init := b[..|b| - 1];
      assert (a + b)[..|a + b| - 1] == a + init;
      FromDigitsAppend(a, init);
    } else {
      assert a + b == a;
    }
  }

  lemma FromDigitsLeadWeight(lead: seq<nat>)
    requires |lead| == 9 && AllBelow(lead, 16) && lead[0] != 0
    ensures FromDigits(lead, 16) >= Pow(16, 8)
  {
    var ds := lead;
    assert ds[..1] == [ds[0]];
    assert FromDigits(ds[..1], 16) == ds[0] by {
      assert [ds[0]][..0] == [];
    }
    assert ds[..9][..8] == ds[..8];
    assert ds[..8][..7] == ds[..7];
    assert ds[..7][..6] == ds[..6];
    assert ds[..6][..5] == ds[..5];
    assert ds[..5][..4] == ds[..4];
    assert ds[..4][..3] == ds[..3];
    assert ds[..3][..2] == ds[..2];
    assert ds[..2][..1] == ds[..1];
    assert FromDigits(ds[..2], 16) >= 16;
    assert FromDigits(ds[..3], 16) >= 256;
    assert FromDigits(ds[..4], 16) >= 4096;
    assert FromDigits(ds[..5], 16) >= 65536;
    assert FromDigits(ds[..6], 16) >= 1048576;
    assert FromDigits(ds[..7], 16) >= 16777216;
    assert FromDigits(ds[..8], 16) >= 268435456;
    assert ds[..9] == ds;
  }

  /**
   * Reads a PE code identifier back: the first eight digits are the time
   * stamp, the rest the image size.
   */
  function ParsePeCodeId(s: string): (r: Option<(nat, nat)>)
    ensures r.Some? ==> r.value.0 < U32Bound
    ensures r.Some? <==> 9 <= |s| && IsHex(s)
  {
    if 9 <= |s| && IsHex(s) then
      assert IsHex(s[..8]) && IsHex(s[8..]) by {
        assert forall i :: 0 <= i < 8 ==> s[..8][i] == s[i];
        assert forall i :: 0 <= i < |s| - 8 ==> s[8..][i] == s[i + 8];
      }
      assert Pow(16, 8) == U32Bound;
      Some((ParseNumber(s[..8]).value, ParseNumber(s[8..]).value))
    else None
  }

  /** The code identifier determines both header fields. */
  lemma ParsePeCodeIdRoundTrip(timeDateStamp: nat, sizeOfImage: nat)
    requires timeDateStamp < U32Bound && sizeOfImage < U32Bound
    ensures ParsePeCodeId(PeCodeId(timeDateStamp, sizeOfImage)) == Some((timeDateStamp, sizeOfImage))
  {
    var s := PeCodeId(timeDateStamp, sizeOfImage);
    assert Pow(16, 8) == U32Bound;
    assert s[..8] == FormatPadded(timeDateStamp, 8);
    assert s[8..] == FormatUpper(sizeOfImage);
    ParseFormatPadded(timeDateStamp, 8);
    ParseFormatUpper(sizeOfImage);
  }

  /**
   * The byte order change of a little-endian UUID: the 4-, 2- and 2-byte
   * leading fields are each reversed, the trailing 8 bytes stay as they are.
   */
  function SwapUuidFields(b: seq<Byte>): (r: seq<Byte>)
    requires |b| == 16
    ensures |r| == 16
    ensures r[..4] == [b[3], b[2], b[1], b[0]]
    ensures r[4..6] == [b[5], b[4]] && r[6..8] == [b[7], b[6]]
    ensures r[8..] == b[8..]
  {
    [b[3], b[2], b[1], b[0], b[5], b[4], b[7], b[6]] + b[8..]
  }

  /** Swapping is its own inverse, so the little-endian form loses nothing. */
  lemma SwapUuidFieldsInvolution(b: seq<Byte>)
    requires |b| == 16
    ensures SwapUuidFields(SwapUuidFields(b)) == b
  {
    var r := SwapUuidFields(SwapUuidFields(b));
    assert forall i :: 0 <= i < 16 ==> r[i] == b[i];
  }

  /** 32 digits grouped 8-4-4-4-12 with dashes between the groups. */
  function InsertDashes(d: string): (r: string)
    requires |d| == 32
    ensures DashPositions(r)
  {
    d[..8] + "-" + d[8..12] + "-" + d[12..16] + "-" + d[16..20] + "-" + d[20..]
  }

  predicate DashPositions(s: string) {
    |s| == 36 && s[8] == '-' && s[13] == '-' && s[18] == '-' && s[23] == '-'
  }

  /** The 32 digits of a UUID text without its dashes. */
  function UuidDigits(s: string): (r: string)
    requires DashPositions(s)
    ensures |r| == 32
  {
    s[..8] + s[9..13] + s[14..18] + s[19..23] + s[24..]
  }

  lemma DigitsOfDashed(d: string)
    requires |d| == 32
    ensures UuidDigits(InsertDashes(d)) == d
  {
    var s := InsertDashes(d);
    assert s[..8] == d[..8];
    assert s[9..13] == d[8..12];
    assert s[14..18] == d[12..16];
    assert s[19..23] == d[16..20];
    assert s[24..] == d[20..];
    assert d == d[..8] + d[8..12] + d[12..16] + d[16..20] + d[20..];
  }

  lemma DashedOfDigits(s: string)
    requires DashPositions(s)
    ensures InsertDashes(UuidDigits(s)) == s
  {
    var d := UuidDigits(s);
    assert d[..8] == s[..8];
    assert d[8..12] == s[9..13];
    assert d[12..16] == s[14..18];
    assert d[16..20] == s[19..23];
    assert d[20..] == s[24..];
    assert s == s[..8] + [s[8]] + s[9..13] + [s[13]] + s[14..18] + [s[18]] + s[19..23] + [s[23]] + s[24..];
  }

  /** Sixteen bytes in the 8-4-4-4-12 UUID text form, lower case. */
  function FormatUuid(b: seq<Byte>): (r: string)
    requires |b| == 16
    ensures |r| == 36
  {
    InsertDashes(FormatBytes(b))
  }

  /** A lower-case UUID text: dashes at the four group boundaries, hex digits elsewhere. */
  predicate IsUuidText(s: string) {
    DashPositions(s) && IsLowerHex(UuidDigits(s))
  }

  /** The sixteen bytes of a UUID text of either case. */
  function ParseUuid(s: string): (r: Option<seq<Byte>>)
    ensures r.Some? ==> |r.value| == 16
    ensures IsUuidText(s) ==> r.Some?
  {
    if DashPositions(s) then ParseBytes(UuidDigits(s)) else None
  }

  lemma ParseFormatUuid(b: seq<Byte>)
    requires |b| == 16
    ensures IsUuidText(FormatUuid(b))
    ensures ParseUuid(FormatUuid(b)) == Some(b)
  {
    DigitsOfDashed(FormatBytes(b));
    ParseFormatBytes(b);
  }

  lemma FormatParseUuid(s: string)
    requires IsUuidText(s)
    ensures FormatUuid(ParseUuid(s).value) == s
  {
    FormatParseBytes(UuidDigits(s));
    DashedOfDigits(s);
  }

  /**
   * The ELF debug identifier derived from a code identifier: the first 16
   * bytes of the code identifier as a little-endian UUID. A code identifier
   * that is not hex or holds fewer than 16 bytes gives none.
   */
  function ElfDebugId(codeId: string): (r: Option<string>)
    ensures r.Some? <==> |codeId| >= 32 && |codeId| % 2 == 0 && IsHex(codeId)
    ensures r.Some? ==>
      (IsUuidText(r.value) && ParseUuid(r.value) == Some(SwapUuidFields(ParseBytes(codeId).value[..16])))
  {
    match ParseBytes(codeId)
    case None => None
    case Some(bytes) =>
      if |bytes| < 16 then None
      else
        ParseFormatUuid(SwapUuidFields(bytes[..16]));
        Some(FormatUuid(SwapUuidFields(bytes[..16])))
  }

  /** The PE debug identifier: the swapped PDB signature, a dash, and the age in hex. */
  function PeDebugId(signature: seq<Byte>, age: nat): (r: string)
    requires |signature| == 16
    ensures |r| >= 38 && r[36] == '-'
    ensures IsUuidText(r[..36])
  {
    var uuid := FormatUuid(SwapUuidFields(signature));
    ParseFormatUuid(SwapUuidFields(signature));
    ParseFormatLower(age);
    assert (uuid + "-" + FormatLower(age))[..36] == uuid;
    uuid + "-" + FormatLower(age)
  }

  /** Reads the signature and age back out of a PE debug identifier. */
  function ParsePeDebugId(s: string): (r: Option<(seq<Byte>, nat)>)
    ensures r.Some? ==> |r.value.0| == 16
  {
    if |s| < 38 || s[36] != '-' then None
    else
      var swapped :- ParseUuid(s[..36]);
      var age :- ParseNumber(s[37..]);
      Some((SwapUuidFields(swapped), age))
  }

  lemma ParsePeDebugIdRoundTrip(signature: seq<Byte>, age: nat)
    requires |signature| == 16
    ensures ParsePeDebugId(PeDebugId(signature, age)) == Some((signature, age))
  {
    var s := PeDebugId(signature, age);
    var u := FormatUuid(SwapUuidFields(signature));
    assert s[..36] == u;
    assert s[37..] == FormatLower(age);
    ParseFormatUuid(SwapUuidFields(signature));
    ParseFormatLower(age);
    SwapUuidFieldsInvolution(signature);
  }

  /** An ELF image and a PE image with the same 16 leading bytes share the UUID part. */
  lemma ElfAndPeAgree(codeId: string, age: nat)
    requires |codeId| >= 32 && |codeId| % 2 == 0 && IsHex(codeId)
    ensures PeDebugId(ParseBytes(codeId).value[..16], age) == ElfDebugId(codeId).value + "-" + FormatLower(age)
  {
  }

  /** Dashes inserted into five digit groups of the UUID widths. */
  lemma InsertDashesGroups(a: string, b: string, c: string, d: string, e: string)
    requires |a| == 8 && |b| == 4 && |c| == 4 && |d| == 4 && |e| == 12
    ensures InsertDashes(a + b + c + d + e) == a + "-" + b + "-" + c + "-" + d + "-" + e
  {
    var s := a + b + c + d + e;
    assert s[..8] == a;
    assert s[8..12] == b;
    assert s[12..16] == c;
    assert s[16..20] == d;
    assert s[20..] == e;
  }

  /** The UUID text is the 4-2-2-2-6 byte groups, each in hex, joined by dashes. */
  lemma FormatUuidGroups(b: seq<Byte>)
    requires |b| == 16
    ensures FormatUuid(b) ==
      FormatBytes(b[..4]) + "-" + FormatBytes(b[4..6]) + "-" + FormatBytes(b[6..8]) + "-" +
      FormatBytes(b[8..10]) + "-" + FormatBytes(b[10..])
  {
    FormatBytesConcat(b[..4], b[4..6]);
    FormatBytesConcat(b[..4] + b[4..6], b[6..8]);
    FormatBytesConcat(b[..4] + b[4..6] + b[6..8], b[8..10]);
    FormatBytesConcat(b[..4] + b[4..6] + b[6..8] + b[8..10], b[10..]);
    assert b[..4] + b[4..6] + b[6..8] + b[8..10] + b[10..] == b;
    InsertDashesGroups(FormatBytes(b[..4]), FormatBytes(b[4..6]), FormatBytes(b[6..8]),
                       FormatBytes(b[8..10]), FormatBytes(b[10..]));
  }

  lemma FormatSixGroups(g1: seq<Byte>, g2: seq<Byte>, g3: seq<Byte>, g4: seq<Byte>, g5: seq<Byte>, g6: seq<Byte>)
    ensures FormatBytes(g1 + g2 + g3 + g4 + g5 + g6) ==
      FormatBytes(g1) + FormatBytes(g2) + FormatBytes(g3) + FormatBytes(g4) + FormatBytes(g5) + FormatBytes(g6)
  {
    FormatBytesConcat(g1, g2);
    FormatBytesConcat(g1 + g2, g3);
    FormatBytesConcat(g1 + g2 + g3, g4);
    FormatBytesConcat(g1 + g2 + g3 + g4, g5);
    FormatBytesConcat(g1 + g2 + g3 + g4 + g5, g6);
  }

  // The worked examples of the schema. Literal strings are written in the
  // groups the schema's own examples use for readability.

  lemma ExampleStampDigits()
    ensures ToDigits(0x5ab38077, 16, 8) == [5, 10, 11, 3, 8, 0, 7, 7]
  {
  }

  lemma ExampleStampText()
    ensures EncodeLower([5, 10, 11, 3, 8, 0, 7, 7]) == "5ab38077"
  {
  }

  lemma ExampleSizeDigits()
    ensures MinimalDigits(0x9000, 16) == [9, 0, 0, 0]
  {
    MinimalDigitsUnique([9, 0, 0, 0], 16);
  }

  lemma ExampleSizeText()
    ensures EncodeUpper([9, 0, 0, 0]) == "9000"
  {
  }

  lemma ExamplePeCodeIdDigits()
    ensures FormatPadded(0x5ab38077, 8) == "5ab38077"
    ensures FormatUpper(0x9000) == "9000"
  {
    ExampleStampDigits();
    ExampleStampText();
    ExampleSizeDigits();
    ExampleSizeText();
  }

  /** `%08x%X` of 0x5ab38077 and 0x9000. */
  lemma ExamplePeCodeId()
    ensures PeCodeId(0x5ab38077, 0x9000) == "5ab38077" + "9000"
  {
    ExamplePeCodeIdDigits();
  }

  lemma ExampleUpperSizeDigits()
    ensures MinimalDigits(0xA000, 16) == [10, 0, 0, 0]
  {
    MinimalDigitsUnique([10, 0, 0, 0], 16);
  }

  /** A size with a hex letter keeps it upper case: `%08x%X` of 0x5ab38077 and 0xA000. */
  lemma ExampleUpperPeCodeId()
    ensures PeCodeId(0x5ab38077, 0xA000) == "5ab38077" + "A000"
  {
    ExampleStampDigits();
    ExampleStampText();
    ExampleUpperSizeDigits();
    assert EncodeUpper([10, 0, 0, 0]) == "A000";
  }

  lemma ExampleDbghelpStampDigits()
    ensures ToDigits(0x57898e12, 16, 8) == [5, 7, 8, 9, 8, 14, 1, 2]
  {
  }

  lemma ExampleDbghelpStampText()
    ensures EncodeLower([5, 7, 8, 9, 8, 14, 1, 2]) == "57898e12"
  {
  }

  lemma ExampleDbghelpSizeDigits()
    ensures MinimalDigits(0x145000, 16) == [1, 4, 5, 0, 0, 0]
  {
    MinimalDigitsUnique([1, 4, 5, 0, 0, 0], 16);
  }

  lemma ExampleDbghelpSizeText()
    ensures EncodeUpper([1, 4, 5, 0, 0, 0]) == "145000"
  {
  }

  lemma ExampleDbghelpCodeIdDigits()
    ensures FormatPadded(0x57898e12, 8) == "57898e12"
    ensures FormatUpper(0x145000) == "145000"
  {
    ExampleDbghelpStampDigits();
    ExampleDbghelpStampText();
    ExampleDbghelpSizeDigits();
    ExampleDbghelpSizeText();
  }

  /** The `code_id` of the PE image example, and its reading back. */
  lemma ExampleDbghelpCodeId()
    ensures PeCodeId(0x57898e12, 0x145000) == "57898e12" + "145000"
    ensures ParsePeCodeId("57898e12" + "145000") == Some((0x57898e12, 0x145000))
  {
    ExampleDbghelpCodeIdDigits();
    ParsePeCodeIdRoundTrip(0x57898e12, 0x145000);
  }

  lemma ExampleCodeIdGroups()
    ensures FormatBytes([0xf1, 0xc3, 0xbc, 0xc0]) == "f1c3bcc0"
    ensures FormatBytes([0x27, 0x98]) == "2798"
    ensures FormatBytes([0x65, 0xfe]) == "65fe"
    ensures FormatBytes([0x30, 0x58]) == "3058"
    ensures FormatBytes([0x40, 0x4b, 0x28, 0x31, 0xd9, 0xe6]) == "404b2831d9e6"
    ensures FormatBytes([0x41, 0x35, 0x38, 0x6c]) == "4135386c"
  {
    ExampleCodeIdGroupsLead();
    ExampleCodeIdGroupsTail();
  }

  lemma ExampleCodeIdGroupsLead()
    ensures FormatBytes([0xf1, 0xc3, 0xbc, 0xc0]) == "f1c3bcc0"
    ensures FormatBytes([0x27, 0x98]) == "2798"
    ensures FormatBytes([0x65, 0xfe]) == "65fe"
  {
    FormatBytesDigitwise([0xf1, 0xc3, 0xbc, 0xc0], "f1c3bcc0");
    FormatBytesDigitwise([0x27, 0x98], "2798");
    FormatBytesDigitwise([0x65, 0xfe], "65fe");
  }

  lemma ExampleCodeIdGroupsTail()
    ensures FormatBytes([0x30, 0x58]) == "3058"
    ensures FormatBytes([0x40, 0x4b, 0x28, 0x31, 0xd9, 0xe6]) == "404b2831d9e6"
    ensures FormatBytes([0x41, 0x35, 0x38, 0x6c]) == "4135386c"
  {
    FormatBytesDigitwise([0x30, 0x58], "3058");
    FormatBytesDigitwise([0x40, 0x4b, 0x28, 0x31, 0xd9, 0xe6], "404b2831d9e6");
    FormatBytesDigitwise([0x41, 0x35, 0x38, 0x6c], "4135386c");
  }

  lemma ExampleCodeIdBytes()
    ensures ParseBytes("f1c3bcc0" + "2798" + "65fe" + "3058" + "404b2831d9e6" + "4135386c") ==
      Some([0xf1, 0xc3, 0xbc, 0xc0] + [0x27, 0x98] + [0x65, 0xfe] + [0x30, 0x58] +
           [0x40, 0x4b, 0x28, 0x31, 0xd9, 0xe6] + [0x41, 0x35, 0x38, 0x6c])
  {
    ExampleCodeIdGroups();
    FormatSixGroups([0xf1, 0xc3, 0xbc, 0xc0], [0x27, 0x98], [0x65, 0xfe], [0x30, 0x58],
                    [0x40, 0x4b, 0x28, 0x31, 0xd9, 0xe6], [0x41, 0x35, 0x38, 0x6c]);
    ParseFormatBytes([0xf1, 0xc3, 0xbc, 0xc0] + [0x27, 0x98] + [0x65, 0xfe] + [0x30, 0x58] +
                     [0x40, 0x4b, 0x28, 0x31, 0xd9, 0xe6] + [0x41, 0x35, 0x38, 0x6c]);
  }

  lemma ExampleSwappedGroups()
    ensures FormatBytes([0xc0, 0xbc, 0xc3, 0xf1]) == "c0bcc3f1"
    ensures FormatBytes([0x98, 0x27]) == "9827"
    ensures FormatBytes([0xfe, 0x65]) == "fe65"
  {
    FormatBytesDigitwise([0xc0, 0xbc, 0xc3, 0xf1], "c0bcc3f1");
    FormatBytesDigitwise([0x98, 0x27], "9827");
    FormatBytesDigitwise([0xfe, 0x65], "fe65");
  }

  lemma ExampleSwappedText()
    ensures FormatUuid([0xc0, 0xbc, 0xc3, 0xf1, 0x98, 0x27, 0xfe, 0x65, 0x30, 0x58, 0x40, 0x4b, 0x28, 0x31, 0xd9, 0xe6]) ==
      "c0bcc3f1" + "-" + "9827" + "-" + "fe65" + "-" + "3058" + "-" + "404b2831d9e6"
  {
    var b: seq<Byte> := [0xc0, 0xbc, 0xc3, 0xf1, 0x98, 0x27, 0xfe, 0x65, 0x30, 0x58, 0x40, 0x4b, 0x28, 0x31, 0xd9, 0xe6];
    FormatUuidGroups(b);
    assert b[..4] == [0xc0, 0xbc, 0xc3, 0xf1];
    assert b[4..6] == [0x98, 0x27];
    assert b[6..8] == [0xfe, 0x65];
    assert b[8..10] == [0x30, 0x58];
    assert b[10..] == [0x40, 0x4b, 0x28, 0x31, 0xd9, 0xe6];
    ExampleSwappedGroups();
    ExampleCodeIdGroups();
  }

  lemma ExampleSwap()
    ensures SwapUuidFields(([0xf1, 0xc3, 0xbc, 0xc0] + [0x27, 0x98] + [0x65, 0xfe] + [0x30, 0x58] +
      [0x40, 0x4b, 0x28, 0x31, 0xd9, 0xe6] + [0x41, 0x35, 0x38, 0x6c])[..16]) ==
      [0xc0, 0xbc, 0xc3, 0xf1, 0x98, 0x27, 0xfe, 0x65, 0x30, 0x58, 0x40, 0x4b, 0x28, 0x31, 0xd9, 0xe6]
  {
  }

  /**
   * The ELF example: code id `f1c3bcc0 2798 65fe 3058 404b2831d9e6 4135386c`
   * gives debug id `c0bcc3f1-9827-fe65-3058-404b2831d9e6`.
   */
  lemma ExampleElfDebugId()
    ensures ElfDebugId("f1c3bcc0" + "2798" + "65fe" + "3058" + "404b2831d9e6" + "4135386c") ==
      Some("c0bcc3f1" + "-" + "9827" + "-" + "fe65" + "-" + "3058" + "-" + "404b2831d9e6")
  {
    ExampleCodeIdBytes();
    ExampleSwap();
    ExampleSwappedText();
  }

  /**
   * The PE example: signature `f1c3bcc0 2798 65fe 3058 404b2831d9e6` with
   * age 1 gives debug id `c0bcc3f1-9827-fe65-3058-404b2831d9e6-1`.
   */
  lemma ExamplePeDebugId()
    ensures PeDebugId([0xf1, 0xc3, 0xbc, 0xc0, 0x27, 0x98, 0x65, 0xfe, 0x30, 0x58, 0x40, 0x4b, 0x28, 0x31, 0xd9, 0xe6], 1) ==
      "c0bcc3f1" + "-" + "9827" + "-" + "fe65" + "-" + "3058" + "-" + "404b2831d9e6" + "-" + "1"
  {
    var sig: seq<Byte> := [0xf1, 0xc3, 0xbc, 0xc0, 0x27, 0x98, 0x65, 0xfe, 0x30, 0x58, 0x40, 0x4b, 0x28, 0x31, 0xd9, 0xe6];
    assert SwapUuidFields(sig) ==
      [0xc0, 0xbc, 0xc3, 0xf1, 0x98, 0x27, 0xfe, 0x65, 0x30, 0x58, 0x40, 0x4b, 0x28, 0x31, 0xd9, 0xe6];
    ExampleSwappedText();
    assert MinimalDigits(1, 16) == [1];
  }

  lemma ExampleLibgccCodeIdGroups()
    ensures FormatBytes([0x68, 0x22, 0x0a, 0xe2]) == "68220ae2"
    ensures FormatBytes([0xc6, 0x5d]) == "c65d"
    ensures FormatBytes([0x65, 0xc1]) == "65c1"
    ensures FormatBytes([0xb6, 0xaa]) == "b6aa"
    ensures FormatBytes([0xa1, 0x2f, 0xa6, 0x76, 0x5a, 0x6e]) == "a12fa6765a6e"
    ensures FormatBytes([0xc2, 0xf5, 0xf4, 0x34]) == "c2f5f434"
  {
    ExampleLibgccCodeIdGroupsLead();
    ExampleLibgccCodeIdGroupsTail();
  }

  lemma ExampleLibgccCodeIdGroupsLead()
    ensures FormatBytes([0x68, 0x22, 0x0a, 0xe2]) == "68220ae2"
    ensures FormatBytes([0xc6, 0x5d]) == "c65d"
    ensures FormatBytes([0x65, 0xc1]) == "65c1"
  {
    FormatBytesDigitwise([0x68, 0x22, 0x0a, 0xe2], "68220ae2");
    FormatBytesDigitwise([0xc6, 0x5d], "c65d");
    FormatBytesDigitwise([0x65, 0xc1], "65c1");
  }

  lemma ExampleLibgccCodeIdGroupsTail()
    ensures FormatBytes([0xb6, 0xaa]) == "b6aa"
    ensures FormatBytes([0xa1, 0x2f, 0xa6, 0x76, 0x5a, 0x6e]) == "a12fa6765a6e"
    ensures FormatBytes([0xc2, 0xf5, 0xf4, 0x34]) == "c2f5f434"
  {
    FormatBytesDigitwise([0xb6, 0xaa], "b6aa");
    FormatBytesDigitwise([0xa1, 0x2f, 0xa6, 0x76, 0x5a, 0x6e], "a12fa6765a6e");
    FormatBytesDigitwise([0xc2, 0xf5, 0xf4, 0x34], "c2f5f434");
  }

  lemma ExampleLibgccCodeIdBytes()
    ensures ParseBytes("68220ae2" + "c65d" + "65c1" + "b6aa" + "a12fa6765a6e" + "c2f5f434") ==
      Some([0x68, 0x22, 0x0a, 0xe2] + [0xc6, 0x5d] + [0x65, 0xc1] + [0xb6, 0xaa] +
           [0xa1, 0x2f, 0xa6, 0x76, 0x5a, 0x6e] + [0xc2, 0xf5, 0xf4, 0x34])
  {
    ExampleLibgccCodeIdGroups();
    FormatSixGroups([0x68, 0x22, 0x0a, 0xe2], [0xc6, 0x5d], [0x65, 0xc1], [0xb6, 0xaa],
                    [0xa1, 0x2f, 0xa6, 0x76, 0x5a, 0x6e], [0xc2, 0xf5, 0xf4, 0x34]);
    ParseFormatBytes([0x68, 0x22, 0x0a, 0xe2] + [0xc6, 0x5d] + [0x65, 0xc1] + [0xb6, 0xaa] +
                     [0xa1, 0x2f, 0xa6, 0x76, 0x5a, 0x6e] + [0xc2, 0xf5, 0xf4, 0x34]);
  }

  lemma ExampleLibgccSwap()
    ensures SwapUuidFields(([0x68, 0x22, 0x0a, 0xe2] + [0xc6, 0x5d] + [0x65, 0xc1] + [0xb6, 0xaa] +
      [0xa1, 0x2f, 0xa6, 0x76, 0x5a, 0x6e] + [0xc2, 0xf5, 0xf4, 0x34])[..16]) ==
      [0xe2, 0x0a, 0x22, 0x68, 0x5d, 0xc6, 0xc1, 0x65, 0xb6, 0xaa, 0xa1, 0x2f, 0xa6, 0x76, 0x5a, 0x6e]
  {
  }

  lemma ExampleLibgccSwappedGroups()
    ensures FormatBytes([0xe2, 0x0a, 0x22, 0x68]) == "e20a2268"
    ensures FormatBytes([0x5d, 0xc6]) == "5dc6"
    ensures FormatBytes([0xc1, 0x65]) == "c165"
  {
    FormatBytesDigitwise([0xe2, 0x0a, 0x22, 0x68], "e20a2268");
    FormatBytesDigitwise([0x5d, 0xc6], "5dc6");
    FormatBytesDigitwise([0xc1, 0x65], "c165");
  }

  lemma ExampleLibgccSwappedText()
    ensures FormatUuid([0xe2, 0x0a, 0x22, 0x68, 0x5d, 0xc6, 0xc1, 0x65, 0xb6, 0xaa, 0xa1, 0x2f, 0xa6, 0x76, 0x5a, 0x6e]) ==
      "e20a2268" + "-" + "5dc6" + "-" + "c165" + "-" + "b6aa" + "-" + "a12fa6765a6e"
  {
    var b: seq<Byte> := [0xe2, 0x0a, 0x22, 0x68, 0x5d, 0xc6, 0xc1, 0x65, 0xb6, 0xaa, 0xa1, 0x2f, 0xa6, 0x76, 0x5a, 0x6e];
    FormatUuidGroups(b);
    assert b[..4] == [0xe2, 0x0a, 0x22, 0x68];
    assert b[4..6] == [0x5d, 0xc6];
    assert b[6..8] == [0xc1, 0x65];
    assert b[8..10] == [0xb6, 0xaa];
    assert b[10..] == [0xa1, 0x2f, 0xa6, 0x76, 0x5a, 0x6e];
    ExampleLibgccSwappedGroups();
    ExampleLibgccCodeIdGroups();
  }

  /**
   * The ELF image example of the schema: its `code_id` and `debug_id`
   * agree with the derivation rule.
   */
  lemma ExampleLibgccDebugId()
    ensures ElfDebugId("68220ae2" + "c65d" + "65c1" + "b6aa" + "a12fa6765a6e" + "c2f5f434") ==
      Some("e20a2268" + "-" + "5dc6" + "-" + "c165" + "-" + "b6aa" + "-" + "a12fa6765a6e")
  {
    ExampleLibgccCodeIdBytes();
    ExampleLibgccSwap();
    ExampleLibgccSwappedText();
  }
}

=== FILE: debug_images.dfy ===
/**
 * Debug images: the entries of `debug_meta.images`. The `type` member
 * selects the Apple, native (ELF, PE, Mach-O) or Proguard variant; an image
 * without a recognised `type` is kept as an unknown key/value map.
 */
module DebugImages {
  import opened Wrappers
  import opened Json
  import opened Errors
  import opened Seqs

  datatype NativeFormat = Elf | Pe | MachO

  datatype ImageKind = AppleKind | NativeKind(format: NativeFormat) | ProguardKind

  function ImageKindName(k: ImageKind): string {
    match k
    case AppleKind => "apple"
    case NativeKind(Elf) => "elf"
    case NativeKind(Pe) => "pe"
    case NativeKind(MachO) => "macho"
    case ProguardKind => "proguard"
  }

  function ParseImageKind(s: string): (r: Option<ImageKind>)
    ensures r.Some? ==> ImageKindName(r.value) == s
    ensures r.None? ==> forall k :: ImageKindName(k) != s
  {
    if s == "apple" then Some(AppleKind)
    else if s == "elf" then Some(NativeKind(Elf))
    else if s == "pe" then Some(NativeKind(Pe))
    else if s == "macho" then Some(NativeKind(MachO))
    else if s == "proguard" then Some(ProguardKind)
    else None
  }

  /** A debug image: its variant, or none for the unknown map, and all its members. */
  datatype DebugImage = DebugImage(kind: Option<ImageKind>, data: seq<Member>)

  /** Selects the variant from the `type` member; the members are kept as given. */
  function ResolveImage(data: seq<Member>): (r: DebugImage)
    ensures r.data == data
    ensures r.kind.Some? <==> exists k :: Lookup(data, "type") == Some(String(ImageKindName(k)))
    ensures r.kind.Some? ==> Lookup(data, "type") == Some(String(ImageKindName(r.kind.value)))
  {
    match StringMember(data, "type")
    case Some(t) =>
      var k := ParseImageKind(t);
      assert k.None? ==> forall k :: Lookup(data, "type") != Some(String(ImageKindName(k)));
      DebugImage(k, data)
    case None => DebugImage(None, data)
  }

  /** A member counts as missing when it is absent or null. */
  predicate Missing(data: seq<Member>, key: string) {
    Lookup(data, key).None? || Lookup(data, key) == Some(Null)
  }

  /**
   * The members marked required for each kind: a native image needs
   * `debug_id`, `code_file` and `image_addr`; an Apple image `image_addr`,
   * `image_size` and `name`. A Proguard image has none. A native
   * `image_size` is left out, since a missing one has a defined fallback.
   */
  predicate Required(k: ImageKind, key: string) {
    match k
    case NativeKind(_) => key == "debug_id" || key == "code_file" || key == "image_addr"
    case AppleKind => key == "image_addr" || key == "image_size" || key == "name"
    case ProguardKind => false
  }

  /** The error that a missing required member draws. */
  function MissingKind(key: string): ErrorKind {
    if key == "debug_id" then MissingDebugId
    else if key == "image_addr" || key == "image_size" then MissingImageAddress
    else MissingImageName
  }

  /** The annotation for one required member: one error when it is missing, none otherwise. */
  function Require(data: seq<Member>, key: string): (errors: seq<ProcessingError>)
    ensures errors == [] <==> !Missing(data, key)
    ensures forall e :: e in errors ==> e == At(key, MissingKind(key), None)
    ensures OnlyAnnotations(errors)
  {
    if Missing(data, key) then [At(key, MissingKind(key), None)] else []
  }

  /**
   * The required-member checks. A missing member is only annotated, since
   * the schema types every one of them as nullable.
   */
  function CheckImage(image: DebugImage): (errors: seq<ProcessingError>)
    ensures OnlyAnnotations(errors)
    ensures errors == [] <==>
      (image.kind.Some? && image.kind.value.NativeKind? ==>
        !Missing(image.data, "debug_id") && !Missing(image.data, "code_file") && !Missing(image.data, "image_addr")) &&
      (image.kind == Some(AppleKind) ==>
        !Missing(image.data, "image_addr") && !Missing(image.data, "image_size") && !Missing(image.data, "name"))
    ensures image.kind.None? || image.kind == Some(ProguardKind) ==> errors == []
    ensures forall e :: e in errors ==> e.kind == MissingDebugId || e.kind == MissingImageAddress || e.kind == MissingImageName
  {
    match image.kind
    case Some(NativeKind(_)) => RequireThree(image.data, "debug_id", "code_file", "image_addr")
    case Some(AppleKind) => RequireThree(image.data, "image_addr", "image_size", "name")
    case _ => []
  }

  /** The annotations for three required members, in order. */
  function RequireThree(data: seq<Member>, k1: string, k2: string, k3: string): (errors: seq<ProcessingError>)
    ensures OnlyAnnotations(errors)
    ensures errors == [] <==> !Missing(data, k1) && !Missing(data, k2) && !Missing(data, k3)
    ensures forall e :: e in errors ==> e.kind == MissingKind(k1) || e.kind == MissingKind(k2) || e.kind == MissingKind(k3)
  {
    var a, b, c := Require(data, k1), Require(data, k2), Require(data, k3);
    OnlyAnnotationsConcat(a, b);
    OnlyAnnotationsConcat(a + b, c);
    a + b + c
  }

  /** A member is reported exactly when the image's kind requires it and it is missing. */
  lemma CheckImageReports(image: DebugImage)
    ensures forall key :: ReportedUnder(CheckImage(image), [Field(key)]) <==>
      image.kind.Some? && Required(image.kind.value, key) && Missing(image.data, key)
  {
    var data := image.data;
    match image.kind
    case Some(NativeKind(_)) =>
      assert CheckImage(image) == Require(data, "debug_id") + Require(data, "code_file") + Require(data, "image_addr");
      ReportedAmongThree("debug_id", "code_file", "image_addr",
        Require(data, "debug_id"), Require(data, "code_file"), Require(data, "image_addr"));
    case Some(AppleKind) =>
      assert CheckImage(image) == Require(data, "image_addr") + Require(data, "image_size") + Require(data, "name");
      ReportedAmongThree("image_addr", "image_size", "name",
        Require(data, "image_addr"), Require(data, "image_size"), Require(data, "name"));
    case _ =>
  }

  /**
   * Resolves `debug_meta.images`: null entries are absent, entries that are
   * not objects are dropped with an `InvalidShape` error, every object is
   * kept as an image, in order, and checked.
   */
  function ResolveImages(images: seq<Json>): (r: (seq<DebugImage>, seq<ProcessingError>))
    ensures |r.0| == |ObjectMembers(images)|
    ensures forall i :: 0 <= i < |r.0| ==> r.0[i] == ResolveImage(ObjectMembers(images)[i])
    ensures r.1 == ImageErrors(images, 0)
    ensures IsSubsequence(ImagesToWire(r.0), images)
  {
    var kept := ObjectMembers(images);
    var resolved := seq(|kept|, i requires 0 <= i < |kept| => ResolveImage(kept[i]));
    assert ImagesToWire(resolved) == Objects(kept);
    ObjectMembersInOrder(images);
    (resolved, ImageErrors(images, 0))
  }

  /** Member lists as JSON objects. */
  function Objects(mss: seq<seq<Member>>): (r: seq<Json>)
    ensures |r| == |mss|
    ensures forall i :: 0 <= i < |mss| ==> r[i] == Object(mss[i])
  {
    seq(|mss|, i requires 0 <= i < |mss| => Object(mss[i]))
  }

  /** The members of the entries that are objects, in their original order. */
  function ObjectMembers(values: seq<Json>): (r: seq<seq<Member>>)
    ensures |r| <= |values|
    ensures forall ms :: ms in r <==> Object(ms) in values
  {
    if |values| == 0 then []
    else
      var rest := ObjectMembers(values[1..]);
      assert forall v :: v in values <==> v == values[0] || v in values[1..];
      match values[0]
      case Object(ms) => [ms] + rest
      case _ => rest
  }

  /** The selected objects keep their relative order. */
  lemma {:induction false} ObjectMembersInOrder(values: seq<Json>)
    ensures IsSubsequence(Objects(ObjectMembers(values)), values)
  {
    if |values| > 0 {
      var rest := ObjectMembers(values[1..]);
      ObjectMembersInOrder(values[1..]);
      assert [values[0]] + values[1..] == values;
      if values[0].Object? {
        assert ObjectMembers(values) == [values[0].members] + rest;
        assert Objects([values[0].members] + rest) == [values[0]] + Objects(rest);
        SubsequenceKeep(Objects(rest), values[0], values[1..]);
      } else {
        assert ObjectMembers(values) == rest;
        SubsequenceSkip(Objects(rest), values[0], values[1..]);
      }
    }
  }

  /** Selecting the objects splits over concatenation: every object entry is kept, repeats included. */
  lemma {:induction false} ObjectMembersConcat(a: seq<Json>, b: seq<Json>)
    ensures ObjectMembers(a + b) == ObjectMembers(a) + ObjectMembers(b)
  {
    if |a| == 0 {
      assert a + b == b;
    } else {
      assert (a + b)[1..] == a[1..] + b;
      ObjectMembersConcat(a[1..], b);
    }
  }

  /** An entry of `debug_meta.images` that draws an error: neither null nor a clean image object. */
  predicate Flawed(entry: Json) {
    !entry.Null? && (!entry.Object? || CheckImage(ResolveImage(entry.members)) != [])
  }

  /** The errors of one entry, before they are placed under its index. */
  function EntryErrors(entry: Json): (r: seq<ProcessingError>)
    ensures r != [] <==> Flawed(entry)
    ensures forall e :: e in r ==>
      (e.kind == InvalidShape || e.kind == MissingDebugId || e.kind == MissingImageAddress || e.kind == MissingImageName) &&
      (e.kind == InvalidShape ==> !entry.Object?)
  {
    match entry
    case Null => []
    case Object(ms) => CheckImage(ResolveImage(ms))
    case _ => [ProcessingError([], InvalidShape, Some(entry))]
  }

  /** The errors of the entries from index `from` on, each under its entry's index. */
  function ImageErrors(images: seq<Json>, from: nat): (r: seq<ProcessingError>)
    requires from <= |images|
    ensures forall e :: e in r ==>
      (e.kind == InvalidShape || e.kind == MissingDebugId || e.kind == MissingImageAddress || e.kind == MissingImageName) &&
      |e.path| >= 1 && e.path[0].Index? && from <= e.path[0].i < |images|
    ensures forall e :: e in r && e.kind == InvalidShape ==> !images[e.path[0].i].Object?
    ensures forall i :: from <= i < |images| ==> (ReportedUnder(r, [Index(i)]) <==> Flawed(images[i]))
    ensures r == [] <==> forall i :: from <= i < |images| ==> !Flawed(images[i])
    decreases |images| - from
  {
    if from == |images| then []
    else
      var rest := ImageErrors(images, from + 1);
      var own := EntryErrors(images[from]);
      EntryErrorsUnder(images[from], from);
      ReportedAtCons(from, own, rest);
      var r := Under(Index(from), own) + rest;
      EmptyIffNoneReported(r, from, |images|);
      r
  }

  lemma EntryErrorsUnder(entry: Json, from: nat)
    ensures forall e :: e in Under(Index(from), EntryErrors(entry)) ==>
      (e.kind == InvalidShape || e.kind == MissingDebugId || e.kind == MissingImageAddress || e.kind == MissingImageName) &&
      |e.path| >= 1 && e.path[0] == Index(from) && (e.kind == InvalidShape ==> !entry.Object?)
  {
    var own := EntryErrors(entry);
    var u := Under(Index(from), own);
    forall e | e in u
      ensures (e.kind == InvalidShape || e.kind == MissingDebugId || e.kind == MissingImageAddress || e.kind == MissingImageName) &&
        |e.path| >= 1 && e.path[0] == Index(from) && (e.kind == InvalidShape ==> !entry.Object?)
    {
      var k :| 0 <= k < |u| && u[k] == e;
      assert own[k] in own;
    }
  }

  /** Every image is what its members resolve to. */
  predicate ResolvedImages(images: seq<DebugImage>) {
    forall i :: 0 <= i < |images| ==> images[i] == ResolveImage(images[i].data)
  }

  lemma ResolveImagesResolved(values: seq<Json>)
    ensures ResolvedImages(ResolveImages(values).0)
  {
  }

  /** Resolved images written back as JSON objects. */
  function ImagesToWire(images: seq<DebugImage>): (values: seq<Json>)
    ensures |values| == |images|
    ensures forall i :: 0 <= i < |images| ==> values[i] == Object(images[i].data)
  {
    seq(|images|, i requires 0 <= i < |images| => Object(images[i].data))
  }

  lemma {:induction false} ObjectMembersOfObjects(images: seq<DebugImage>)
    ensures |ObjectMembers(ImagesToWire(images))| == |images|
    ensures forall i :: 0 <= i < |images| ==> ObjectMembers(ImagesToWire(images))[i] == images[i].data
  {
    if |images| > 0 {
      var w := ImagesToWire(images);
      ObjectMembersOfObjects(images[1..]);
      assert w[1..] == ImagesToWire(images[1..]);
      assert ObjectMembers(w) == [images[0].data] + ObjectMembers(w[1..]);
    }
  }

  /** Written-back images are all objects, so re-resolving them raises annotations only. */
  lemma ImagesToWireAnnotates(images: seq<DebugImage>)
    ensures OnlyAnnotations(ImageErrors(ImagesToWire(images), 0))
  {
    var values := ImagesToWire(images);
    forall i | 0 <= i < |values|
      ensures OnlyAnnotations(EntryErrors(values[i]))
    {
      assert values[i] == Object(images[i].data);
    }
    ImageErrorsAnnotate(values, 0);
  }

  lemma {:induction false} ImageErrorsAnnotate(values: seq<Json>, from: nat)
    requires from <= |values|
    requires forall i :: from <= i < |values| ==> OnlyAnnotations(EntryErrors(values[i]))
    ensures OnlyAnnotations(ImageErrors(values, from))
    decreases |values| - from
  {
    if from < |values| {
      ImageErrorsAnnotate(values, from + 1);
      var own := EntryErrors(values[from]);
      var rest := ImageErrors(values, from + 1);
      assert ImageErrors(values, from) == Under(Index(from), own) + rest;
      OnlyAnnotationsUnder(Index(from), own);
      OnlyAnnotationsConcat(Under(Index(from), own), rest);
    }
  }

  /** Resolved images are reproduced from their wire rendering. */
  lemma ResolveImagesToWire(images: seq<DebugImage>)
    requires ResolvedImages(images)
    ensures ResolveImages(ImagesToWire(images)).0 == images
  {
    ObjectMembersOfObjects(images);
  }
}

=== FILE: decimal.dfy ===
/**
  Decimal numerals: the fixed-width fields of an RFC 3339 timestamp and the
  string form of numeric identifiers (a `ThreadId` given as a JSON number).
 */
module Decimal {
  import opened Wrappers
  import opened Numerals

  predicate IsDigit(c: char) {
    '0' <= c <= '9'
  }

  predicate IsDigits(s: string) {
    forall i :: 0 <= i < |s| ==> IsDigit(s[i])
  }

  function Digit(d: nat): (c: char)
    requires d < 10
    ensures IsDigit(c)
  {
    (48 + d) as char
  }

  function DigitValue(c: char): (d: nat)
    requires IsDigit(c)
    ensures d < 10 && Digit(d) == c
  {
    c as nat - 48
  }

  function Encode(ds: seq<nat>): (s: string)
    requires AllBelow(ds, 10)
    ensures |s| == |ds| && IsDigits(s)
  {
    seq(|ds|, i requires 0 <= i < |ds| => Digit(ds[i]))
  }

  function Decode(s: string): (ds: seq<nat>)
    requires IsDigits(s)
    ensures |ds| == |s| && AllBelow(ds, 10)
  {
    seq(|s|, i requires 0 <= i < |s| => DigitValue(s[i]))
  }

  lemma DecodeEncode(ds: seq<nat>)
    requires AllBelow(ds, 10)
    ensures Decode(Encode(ds)) == ds
  {
  }

  lemma EncodeDecode(s: string)
    requires IsDigits(s)
    ensures Encode(Decode(s)) == s
  {
  }

  /** `n` as exactly `width` digits, zero-padded. */
  function FormatPadded(n: nat, width: nat): string {
    Encode(ToDigits(n, 10, width))
  }

  /** `n` in its shortest decimal form. */
  function FormatNat(n: nat): string {
    Encode(MinimalDigits(n, 10))
  }

  /** An integer as JSON renders it: a minus sign for negative values, no padding. */
  function FormatInt(i: int): string {
    if i < 0 then "-" + FormatNat(-i) else FormatNat(i)
  }

  /** The value of a non-empty run of decimal digits (leading zeros allowed). */
  function ParseNat(s: string): (r: Option<nat>)
    ensures r.Some? <==> 0 < |s| && IsDigits(s)
    ensures r.Some? ==> r.value < Pow(10, |s|)
  {
    if 0 < |s| && IsDigits(s) then
      FromDigitsBound(Decode(s), 10);
      Some(FromDigits(Decode(s), 10))
    else None
  }

  /** An optionally negative decimal integer. */
  function ParseInt(s: string): Option<int> {
    if 0 < |s| && s[0] == '-' then
      match ParseNat(s[1..])
      case Some(n) => Some(-(n as int))
      case None => None
    else
      match ParseNat(s)
      case Some(n) => Some(n as int)
      case None => None
  }

  lemma {:induction false} ParseFormatPadded(n: nat, width: nat)
    requires 0 < width && n < Pow(10, width)
    ensures ParseNat(FormatPadded(n, width)) == Some(n)
  {
    DecodeEncode(ToDigits(n, 10, width));
    FromToDigits(n, 10, width);
  }

  /** Fixed-width parsing and formatting are inverse on digit strings. */
  lemma {:induction false} FormatParsePadded(s: string)
    requires 0 < |s| && IsDigits(s)
    ensures FormatPadded(ParseNat(s).value, |s|) == s
  {
    ToFromDigits(Decode(s), 10);
  }

  lemma {:induction false} ParseFormatInt(i: int)
    ensures ParseInt(FormatInt(i)) == Some(i)
  {
    var n := if i < 0 then -i else i;
    var t := FormatNat(n);
    DecodeEncode(MinimalDigits(n, 10));
    assert ParseNat(t) == Some(n);
    if i < 0 {
      assert FormatInt(i)[1..] == t;
    } else {
      assert t[0] != '-';
    }
  }

  /** Distinct integers have distinct renderings, so comparing numeric identifiers by
      their string form is faithful. */
  lemma FormatIntInjective(i: int, j: int)
    requires FormatInt(i) == FormatInt(j)
    ensures i == j
  {
    ParseFormatInt(i);
    ParseFormatInt(j);
  }
}

=== FILE: errors.dfy ===
/**
  The error accumulator: recoverable violations found while normalising one
  event are returned as a list of structured processing errors next to the
  normalised value, never raised. Each kind of violation has one fixed
  remediation.
 */
module Errors {
  import opened Wrappers
  import opened Json

  /** One step of the path to the offending value: a member name or a list index. */
  datatype Segment = Field(name: string) | Index(i: nat)

  type Path = seq<Segment>

  datatype ErrorKind =
    | InvalidEventId         // `event_id` is not 32 lower-case hex digits
    | InvalidValue           // a value outside its enumeration (`level`, `type`)
    | InvalidTimestamp       // neither an integer nor an RFC 3339 date-time string
    | ValueTooLong           // a length cap was exceeded
    | MissingTypeAndValue    // an exception with neither `type` nor `value`
    | MissingMechanismType   // a mechanism without its required `type`
    | MissingLocation        // a frame with none of filename, function, instruction_addr
    | EmptyStacktrace        // a stack trace without frames
    | DuplicateThreadId      // a thread id used by an earlier thread
    | InvalidShape           // a context entry that is not an object
    | MissingDebugId         // a native debug image without `debug_id`
    | MissingImageAddress    // a debug image without its required `image_addr` or `image_size`
    | MissingImageName       // a debug image without its required path: `name` or `code_file`
    | InvalidTraceId         // a trace context `trace_id` that is not 32 hex digits
    | InvalidSpanId          // a trace context `span_id` that is not 16 hex digits

  /** What the normaliser does about a violation. */
  datatype Remediation =
    | DropField    // the offending field is removed (or replaced by its default)
    | DropRecord   // the record holding it is removed from its list
    | Truncate     // the value is cut to its cap
    | Annotate     // the value is kept unchanged; the error is only recorded

  /** The remediation table: one fixed policy per kind of violation. */
  function RemediationOf(kind: ErrorKind): Remediation {
    match kind
    case InvalidEventId => DropField
    case InvalidValue => DropField
    case InvalidTimestamp => DropField
    case ValueTooLong => Truncate
    case MissingTypeAndValue => DropRecord
    case MissingMechanismType => DropField
    case MissingLocation => Annotate
    case EmptyStacktrace => Annotate
    case DuplicateThreadId => Annotate
    case InvalidShape => DropRecord
    case MissingDebugId => Annotate
    case MissingImageAddress => Annotate
    case MissingImageName => Annotate
    case InvalidTraceId => Annotate
    case InvalidSpanId => Annotate
  }

  /** A recorded violation: where it is, what it is, and the offending value when it is a scalar. */
  datatype ProcessingError = ProcessingError(path: Path, kind: ErrorKind, original: Option<Json>)

  /** Errors found inside a member or list element, re-rooted at the enclosing record. */
  function Under(segment: Segment, errors: seq<ProcessingError>): (r: seq<ProcessingError>)
    ensures |r| == |errors|
    ensures forall i :: 0 <= i < |r| ==> r[i].kind == errors[i].kind && r[i].path == [segment] + errors[i].path
  {
    seq(|errors|, i requires 0 <= i < |errors| => errors[i].(path := [segment] + errors[i].path))
  }

  /** The error for a violation found at the field itself. */
  function At(name: string, kind: ErrorKind, original: Option<Json>): ProcessingError {
    ProcessingError([Field(name)], kind, original)
  }

  /** True when every error in the list only annotates. */
  predicate OnlyAnnotations(errors: seq<ProcessingError>) {
    forall i :: 0 <= i < |errors| ==> RemediationOf(errors[i].kind) == Annotate
  }

  lemma OnlyAnnotationsConcat(a: seq<ProcessingError>, b: seq<ProcessingError>)
    ensures OnlyAnnotations(a + b) <==> OnlyAnnotations(a) && OnlyAnnotations(b)
  {
    if OnlyAnnotations(a + b) {
      assert forall i :: 0 <= i < |a| ==> (a + b)[i] == a[i];
      assert forall i :: 0 <= i < |b| ==> (a + b)[|a| + i] == b[i];
    }
    if OnlyAnnotations(a) && OnlyAnnotations(b) {
      forall i | 0 <= i < |a + b|
        ensures RemediationOf((a + b)[i].kind) == Annotate
      {
        if i >= |a| {
          assert (a + b)[i] == b[i - |a|];
        }
      }
    }
  }

  /** Membership form: every error present is an annotation. */
  lemma AnnotatingKinds(errors: seq<ProcessingError>)
    requires forall e :: e in errors ==> RemediationOf(e.kind) == Annotate
    ensures OnlyAnnotations(errors)
  {
    forall k | 0 <= k < |errors|
      ensures RemediationOf(errors[k].kind) == Annotate
    {
      assert errors[k] in errors;
    }
  }

  lemma OnlyAnnotationsUnder(segment: Segment, errors: seq<ProcessingError>)
    ensures OnlyAnnotations(Under(segment, errors)) <==> OnlyAnnotations(errors)
  {
  }

  /** Re-rooting keeps every error's kind and puts it under the segment. */
  lemma UnderKeeps(segment: Segment, errors: seq<ProcessingError>, kind: ErrorKind)
    requires forall e :: e in errors ==> e.kind != kind
    ensures forall e :: e in Under(segment, errors) ==> e.kind != kind && |e.path| >= 1 && e.path[0] == segment
  {
    var u := Under(segment, errors);
    forall e | e in u
      ensures e.kind != kind && |e.path| >= 1 && e.path[0] == segment
    {
      var k :| 0 <= k < |u| && u[k] == e;
      assert errors[k] in errors;
    }
  }

  /** Re-rooting keeps which kinds occur. */
  lemma UnderKinds(segment: Segment, errors: seq<ProcessingError>, kind: ErrorKind)
    ensures (exists e :: e in Under(segment, errors) && e.kind == kind) <==> (exists e :: e in errors && e.kind == kind)
    ensures forall e :: e in Under(segment, errors) ==> |e.path| >= 1 && e.path[0] == segment
  {
    var u := Under(segment, errors);
    if exists e :: e in u && e.kind == kind {
      var e :| e in u && e.kind == kind;
      var k :| 0 <= k < |u| && u[k] == e;
      assert errors[k] in errors;
    }
    if exists e :: e in errors && e.kind == kind {
      var e :| e in errors && e.kind == kind;
      var k :| 0 <= k < |errors| && errors[k] == e;
      assert u[k] in u;
    }
  }

  /** Some error lies at `path` or below it. */
  predicate ReportedUnder(errors: seq<ProcessingError>, path: Path) {
    exists e :: e in errors && path <= e.path
  }

  lemma ReportedUnderConcat(a: seq<ProcessingError>, b: seq<ProcessingError>, path: Path)
    ensures ReportedUnder(a + b, path) <==> ReportedUnder(a, path) || ReportedUnder(b, path)
  {
    if ReportedUnder(a + b, path) {
      var e :| e in a + b && path <= e.path;
      assert e in a || e in b;
    }
    if ReportedUnder(a, path) {
      var e :| e in a && path <= e.path;
      assert e in a + b;
    }
    if ReportedUnder(b, path) {
      var e :| e in b && path <= e.path;
      assert e in a + b;
    }
  }

  /** Re-rooting keeps every report, one segment deeper. */
  lemma ReportedUnderUnder(segment: Segment, errors: seq<ProcessingError>, path: Path)
    ensures ReportedUnder(Under(segment, errors), [segment] + path) <==> ReportedUnder(errors, path)
  {
    var u := Under(segment, errors);
    if ReportedUnder(u, [segment] + path) {
      var e :| e in u && [segment] + path <= e.path;
      var k :| 0 <= k < |u| && u[k] == e;
      assert errors[k] in errors;
      assert e.path == [segment] + errors[k].path;
      assert path <= errors[k].path by {
        forall j | 0 <= j < |path|
          ensures path[j] == errors[k].path[j]
        {
          assert ([segment] + path)[j + 1] == e.path[j + 1];
        }
      }
    }
    if ReportedUnder(errors, path) {
      var e :| e in errors && path <= e.path;
      var k :| 0 <= k < |errors| && errors[k] == e;
      assert u[k] in u;
      assert [segment] + path <= u[k].path;
    }
  }

  /** Re-rooted errors lie under their segment and nowhere else. */
  lemma ReportedUnderOther(segment: Segment, errors: seq<ProcessingError>, path: Path)
    requires |path| > 0 && path[0] != segment
    ensures !ReportedUnder(Under(segment, errors), path)
  {
  }

  lemma ReportedUnderThree(a: seq<ProcessingError>, b: seq<ProcessingError>, c: seq<ProcessingError>, path: Path)
    ensures ReportedUnder(a + b + c, path) <==> ReportedUnder(a, path) || ReportedUnder(b, path) || ReportedUnder(c, path)
  {
    ReportedUnderConcat(a, b, path);
    ReportedUnderConcat(a + b, c, path);
  }

  /**
   * The errors of three distinct members, each list at its own member: a
   * member is reported exactly when it is one of the three and its list is
   * not empty.
   */
  lemma ReportedAmongThree(n1: string, n2: string, n3: string, a: seq<ProcessingError>, b: seq<ProcessingError>, c: seq<ProcessingError>)
    requires n1 != n2 && n1 != n3 && n2 != n3
    requires forall e :: e in a ==> e.path == [Field(n1)]
    requires forall e :: e in b ==> e.path == [Field(n2)]
    requires forall e :: e in c ==> e.path == [Field(n3)]
    ensures forall key :: ReportedUnder(a + b + c, [Field(key)]) <==>
      (key == n1 && a != []) || (key == n2 && b != []) || (key == n3 && c != [])
  {
    forall x, y | x != y
      ensures !([Field(x)] <= [Field(y)])
    {
      assert [Field(x)][0] != [Field(y)][0];
    }
    forall key
      ensures ReportedUnder(a + b + c, [Field(key)]) <==>
        (key == n1 && a != []) || (key == n2 && b != []) || (key == n3 && c != [])
    {
      ReportedUnderThree(a, b, c, [Field(key)]);
      if a != [] { assert a[0] in a; }
      if b != [] { assert b[0] in b; }
      if c != [] { assert c[0] in c; }
    }
  }

  /** A list is empty exactly when nothing lies below the empty path. */
  lemma ReportedUnderRoot(errors: seq<ProcessingError>)
    ensures ReportedUnder(errors, []) <==> errors != []
  {
    if errors != [] {
      assert errors[0] in errors;
    }
  }

  /**
   * The errors of list element `from` re-rooted at its index, then those of
   * the later elements: element `i` is reported exactly when it is `from`
   * with errors of its own, or a later element the rest reports.
   */
  lemma ReportedAtCons(from: nat, inner: seq<ProcessingError>, rest: seq<ProcessingError>)
    requires forall e :: e in rest ==> |e.path| >= 1 && e.path[0].Index? && from < e.path[0].i
    ensures forall i: nat :: ReportedUnder(Under(Index(from), inner) + rest, [Index(i)]) <==>
      if i == from then inner != [] else ReportedUnder(rest, [Index(i)])
  {
    forall i: nat
      ensures ReportedUnder(Under(Index(from), inner) + rest, [Index(i)]) <==>
        if i == from then inner != [] else ReportedUnder(rest, [Index(i)])
    {
      ReportedUnderConcat(Under(Index(from), inner), rest, [Index(i)]);
      if i == from {
        ReportedUnderUnder(Index(from), inner, []);
        ReportedUnderRoot(inner);
        assert [Index(from)] + [] == [Index(i)];
      } else {
        ReportedUnderOther(Index(from), inner, [Index(i)]);
      }
    }
  }

  /** When every error sits at an index in `from..n`, there are none exactly when no index is reported. */
  lemma EmptyIffNoneReported(errors: seq<ProcessingError>, from: nat, n: nat)
    requires forall e :: e in errors ==> |e.path| >= 1 && e.path[0].Index? && from <= e.path[0].i < n
    ensures errors == [] <==> forall i :: from <= i < n ==> !ReportedUnder(errors, [Index(i)])
  {
    if errors != [] {
      var e := errors[0];
      assert e in errors;
      assert [e.path[0]] <= e.path;
      assert ReportedUnder(errors, [Index(e.path[0].i)]);
    }
  }
}

=== FILE: event_ids.dfy ===
/**
  Event identifiers: a uuid4 value rendered as exactly 32 lower-case hex
  digits without dashes (docs/schema.ts, `Event.event_id`).
 */
module EventIds {
  import opened Wrappers
  import opened Hex
  import opened Json
  import opened Errors

  predicate IsValidEventId(s: string) {
    |s| == 32 && IsLowerHex(s)
  }

  /** Renders the 16 bytes of a uuid as an event id. */
  function FormatEventId(uuid: seq<Byte>): (id: string)
    requires |uuid| == 16
    ensures IsValidEventId(id)
    ensures ParseBytes(id) == Some(uuid)
  {
    ParseFormatBytes(uuid);
    FormatBytes(uuid)
  }

  /** The 16 bytes an event id denotes; `None` for anything that is not a valid id. */
  function ParseEventId(id: string): (r: Option<seq<Byte>>)
    ensures r.Some? <==> IsValidEventId(id)
    ensures r.Some? ==> |r.value| == 16 && FormatEventId(r.value) == id
  {
    if IsValidEventId(id) then
      FormatParseBytes(id);
      ParseBytes(id)
    else None
  }

  /** The valid ids are exactly the renderings of 16-byte values. */
  lemma ValidIffRendering(id: string)
    ensures IsValidEventId(id) <==> exists uuid: seq<Byte> :: |uuid| == 16 && FormatEventId(uuid) == id
  {
    if IsValidEventId(id) {
      var uuid := ParseEventId(id).value;
      assert |uuid| == 16 && FormatEventId(uuid) == id;
    }
  }

  /** The id of the schema's example is valid. */
  lemma ExampleIdValid()
    ensures IsValidEventId("fc6d8c0c43fc4630ad850ee518f1b9d0")
  {
  }

  /** The same uuid with dashes, or in upper case, is not a valid event id. */
  lemma DashedOrUpperCaseIdInvalid()
    ensures !IsValidEventId("fc6d8c0c-43fc-4630-ad85-0ee518f1b9d0")
    ensures !IsValidEventId("FC6D8C0C-43FC-4630-AD85-0EE518F1B9D0")
    ensures !IsValidEventId("FC6D8C0C43FC4630AD850EE518F1B9D0")
  {
    assert !IsLowerHexDigit("FC6D8C0C43FC4630AD850EE518F1B9D0"[0]);
  }

  /** Keeps a valid id; drops an invalid one and records it (the server backfills a fresh id). */
  function NormalizeEventId(raw: Option<string>): (r: (Option<string>, seq<ProcessingError>))
    ensures r.0.Some? ==> IsValidEventId(r.0.value)
    ensures r.0.Some? <==> raw.Some? && IsValidEventId(raw.value)
    ensures r.0.Some? ==> r.0 == raw
    ensures |r.1| == (if raw.Some? && !IsValidEventId(raw.value) then 1 else 0)
    ensures forall e :: e in r.1 ==> e.kind == InvalidEventId && e.original == Some(String(raw.value))
  {
    match raw
    case None => (None, [])
    case Some(id) =>
      if IsValidEventId(id) then (Some(id), [])
      else (None, [At("event_id", InvalidEventId, Some(String(id)))])
  }
}

=== FILE: events.dfy ===
/**
 * The event: the top-level record of the protocol. Normalising an event
 * normalises each member with the rule of its own interface, fills in the
 * stated defaults (`level` error, `platform` "other") and collects every
 * recoverable violation as a processing error under the member's name.
 */
module Events {
  import opened Wrappers
  import opened Json
  import opened Errors
  import opened OrderedMaps
  import opened Levels
  import opened Timestamps
  import EventIds
  import Tags
  import Contexts
  import DebugImages
  import Stacktraces
  import Threads
  import Exceptions
  import LogEntries
  import Requests
  import Breadcrumbs

  const DefaultPlatform := "other"

  /** The `{ values: [...], ... }` wrapper of the exception, thread and breadcrumb lists. */
  datatype Values<T> = Values(values: seq<T>, extra: Extra)

  datatype RawValues<T> = RawValues(values: seq<Option<T>>, extra: Extra)

  datatype DebugMeta = DebugMeta(images: Option<seq<DebugImages.DebugImage>>, sdkInfo: Option<Json>, extra: Extra)

  datatype RawDebugMeta = RawDebugMeta(images: Option<seq<Json>>, sdkInfo: Option<Json>, extra: Extra)

  /**
   * A normalised event. `userExtra` is the event's own `extra` member;
   * `extra` holds the members outside the schema, as in every record.
   */
  datatype Event = Event(
    breadcrumbs: Option<Values<Breadcrumbs.Breadcrumb>>,
    contexts: Option<seq<(string, Contexts.Context)>>,
    culprit: Option<string>,
    debugMeta: Option<DebugMeta>,
    dist: Option<string>,
    environment: Option<string>,
    errors: Option<Json>,
    eventId: Option<string>,
    exception: Option<Values<Exceptions.Exception>>,
    userExtra: Option<Extra>,
    fingerprint: Option<seq<string>>,
    level: Level,
    logentry: Option<LogEntries.LogEntry>,
    logger: Option<string>,
    modules: Option<map<string, Option<string>>>,
    platform: string,
    received: Option<int>,
    release: Option<string>,
    request: Option<Requests.Request>,
    sdk: Option<Json>,
    serverName: Option<string>,
    stacktrace: Option<Stacktraces.Stacktrace>,
    tags: Option<seq<Pair>>,
    threads: Option<Values<Threads.Thread>>,
    timeSpent: Option<int>,
    timestamp: Option<int>,
    transaction: Option<string>,
    eventType: Option<EventType>,
    user: Option<Json>,
    version: Option<string>,
    extra: Extra)

  /** An event as sent. */
  datatype RawEvent = RawEvent(
    breadcrumbs: Option<RawValues<Breadcrumbs.RawBreadcrumb>>,
    contexts: Option<seq<Member>>,
    culprit: Option<string>,
    debugMeta: Option<RawDebugMeta>,
    dist: Option<string>,
    environment: Option<string>,
    errors: Option<Json>,
    eventId: Option<string>,
    exception: Option<RawValues<Exceptions.RawException>>,
    userExtra: Option<Extra>,
    fingerprint: Option<seq<string>>,
    level: Option<string>,
    logentry: Option<LogEntries.LogEntry>,
    logger: Option<string>,
    modules: Option<map<string, Option<string>>>,
    platform: Option<string>,
    received: Option<Timestamp>,
    release: Option<string>,
    request: Option<Requests.RawRequest>,
    sdk: Option<Json>,
    serverName: Option<string>,
    stacktrace: Option<Stacktraces.RawStacktrace>,
    tags: Option<RawPairs>,
    threads: Option<RawValues<Threads.RawThread>>,
    timeSpent: Option<int>,
    timestamp: Option<Timestamp>,
    transaction: Option<string>,
    eventType: Option<string>,
    user: Option<Json>,
    version: Option<string>,
    extra: Extra)

  /** The invariants every normalised event satisfies. */
  predicate ValidEvent(e: Event) {
    (e.eventId.Some? ==> EventIds.IsValidEventId(e.eventId.value)) &&
    (e.tags.Some? ==> Tags.AllTagsWithinLimit(e.tags.value)) &&
    (e.logentry.Some? ==> LogEntries.WithinCaps(e.logentry.value)) &&
    (e.exception.Some? ==>
      forall i :: 0 <= i < |e.exception.value.values| ==>
        Exceptions.NormalizedException(e.exception.value.values[i])) &&
    (e.threads.Some? ==> Threads.AllNormalized(e.threads.value.values)) &&
    (e.stacktrace.Some? ==> Stacktraces.NormalizedStacktrace(e.stacktrace.value)) &&
    (e.contexts.Some? ==> Contexts.ResolvedContexts(e.contexts.value)) &&
    (e.debugMeta.Some? && e.debugMeta.value.images.Some? ==>
      DebugImages.ResolvedImages(e.debugMeta.value.images.value))
  }

  function NormalizeDebugMeta(raw: RawDebugMeta): (r: (DebugMeta, seq<ProcessingError>))
    ensures r.0.images.Some? <==> raw.images.Some?
    ensures r.0.images.Some? ==> DebugImages.ResolvedImages(r.0.images.value)
    ensures r.0.sdkInfo == raw.sdkInfo && r.0.extra == raw.extra
  {
    match raw.images
    case Some(values) =>
      var n := DebugImages.ResolveImages(values);
      DebugImages.ResolveImagesResolved(values);
      (DebugMeta(Some(n.0), raw.sdkInfo, raw.extra), Under(Field("images"), n.1))
    case None => (DebugMeta(None, raw.sdkInfo, raw.extra), [])
  }

  function NormalizeContexts(entries: seq<Member>): (r: (seq<(string, Contexts.Context)>, seq<ProcessingError>))
    ensures Contexts.ResolvedContexts(r.0)
    ensures r.0 == Contexts.ResolveContexts(entries).0
  {
    var n := Contexts.ResolveContexts(entries);
    Contexts.ResolveContextsResolved(entries);
    (n.0, n.1 + Contexts.TraceErrors(n.0))
  }

  function NormalizeExceptionValues(raw: RawValues<Exceptions.RawException>, serialize: Json -> string):
    (r: (Values<Exceptions.Exception>, seq<ProcessingError>))
    ensures r.0.values == Exceptions.NormalizeExceptions(raw.values, serialize).0
    ensures forall i :: 0 <= i < |r.0.values| ==> Exceptions.NormalizedException(r.0.values[i])
    ensures r.0.extra == raw.extra
  {
    var n := Exceptions.NormalizeExceptions(raw.values, serialize);
    Exceptions.NormalizeExceptionsNormalized(raw.values, serialize);
    (Values(n.0, raw.extra), Under(Field("values"), n.1))
  }

  function NormalizeThreadValues(raw: RawValues<Threads.RawThread>): (r: (Values<Threads.Thread>, seq<ProcessingError>))
    ensures r.0.values == Threads.NormalizeThreads(raw.values).0
    ensures Threads.AllNormalized(r.0.values)
    ensures r.0.extra == raw.extra
  {
    var n := Threads.NormalizeThreads(raw.values);
    Threads.NormalizeThreadsNormalized(raw.values);
    (Values(n.0, raw.extra), Under(Field("values"), n.1))
  }

  function NormalizeBreadcrumbValues(raw: RawValues<Breadcrumbs.RawBreadcrumb>): (r: (Values<Breadcrumbs.Breadcrumb>, seq<ProcessingError>))
    ensures r.0.values == Breadcrumbs.NormalizeBreadcrumbs(raw.values).0
    ensures r.0.extra == raw.extra
  {
    var n := Breadcrumbs.NormalizeBreadcrumbs(raw.values);
    (Values(n.0, raw.extra), Under(Field("values"), n.1))
  }

  function NormalizeStacktraceMember(raw: Stacktraces.RawStacktrace): (r: (Stacktraces.Stacktrace, seq<ProcessingError>))
    ensures Stacktraces.NormalizedStacktrace(r.0)
    ensures r.0 == Stacktraces.NormalizeStacktrace(raw).0
  {
    Stacktraces.NormalizeStacktraceNormalized(raw);
    Stacktraces.NormalizeStacktrace(raw)
  }

  /** The members below are each normalised by their own rule, errors re-rooted under the member's name. */
  function BreadcrumbsMember(raw: Option<RawValues<Breadcrumbs.RawBreadcrumb>>): (r: (Option<Values<Breadcrumbs.Breadcrumb>>, seq<ProcessingError>))
    ensures r.0.Some? <==> raw.Some?
  {
    match raw
    case Some(b) => var n := NormalizeBreadcrumbValues(b); (Some(n.0), Under(Field("breadcrumbs"), n.1))
    case None => (None, [])
  }

  /** Contexts that draw no error: every entry an object or null, every trace context clean. */
  predicate ContextsClean(entries: seq<Member>) {
    Contexts.ShapeErrors(entries) == [] && Contexts.TraceErrors(Contexts.ResolveContexts(entries).0) == []
  }

  function ContextsMember(raw: Option<seq<Member>>): (r: (Option<seq<(string, Contexts.Context)>>, seq<ProcessingError>))
    ensures r.0.Some? <==> raw.Some?
    ensures r.0.Some? ==> Contexts.ResolvedContexts(r.0.value)
  {
    match raw
    case Some(c) => var n := NormalizeContexts(c); (Some(n.0), Under(Field("contexts"), n.1))
    case None => (None, [])
  }

  function DebugMetaMember(raw: Option<RawDebugMeta>): (r: (Option<DebugMeta>, seq<ProcessingError>))
    ensures r.0.Some? <==> raw.Some?
    ensures r.0.Some? && r.0.value.images.Some? ==> DebugImages.ResolvedImages(r.0.value.images.value)
  {
    match raw
    case Some(m) => var n := NormalizeDebugMeta(m); (Some(n.0), Under(Field("debug_meta"), n.1))
    case None => (None, [])
  }

  function ExceptionMember(raw: Option<RawValues<Exceptions.RawException>>, serialize: Json -> string):
    (r: (Option<Values<Exceptions.Exception>>, seq<ProcessingError>))
    ensures r.0.Some? <==> raw.Some?
    ensures r.0.Some? ==> forall i :: 0 <= i < |r.0.value.values| ==> Exceptions.NormalizedException(r.0.value.values[i])
  {
    match raw
    case Some(x) => var n := NormalizeExceptionValues(x, serialize); (Some(n.0), Under(Field("exception"), n.1))
    case None => (None, [])
  }

  function LogEntryMember(raw: Option<LogEntries.LogEntry>): (r: (Option<LogEntries.LogEntry>, seq<ProcessingError>))
    ensures r.0.Some? <==> raw.Some?
    ensures r.0.Some? ==> LogEntries.WithinCaps(r.0.value)
  {
    match raw
    case Some(l) => var n := LogEntries.NormalizeLogEntry(l); (Some(n.0), Under(Field("logentry"), n.1))
    case None => (None, [])
  }

  function StacktraceMember(raw: Option<Stacktraces.RawStacktrace>): (r: (Option<Stacktraces.Stacktrace>, seq<ProcessingError>))
    ensures r.0.Some? <==> raw.Some?
    ensures r.0.Some? ==> Stacktraces.NormalizedStacktrace(r.0.value)
  {
    match raw
    case Some(st) => var n := NormalizeStacktraceMember(st); (Some(n.0), Under(Field("stacktrace"), n.1))
    case None => (None, [])
  }

  function TagsMember(raw: Option<RawPairs>): (r: (Option<seq<Pair>>, seq<ProcessingError>))
    ensures r.0.Some? <==> raw.Some?
    ensures r.0.Some? ==> Tags.AllTagsWithinLimit(r.0.value)
  {
    match raw
    case Some(t) => var n := Tags.NormalizeTags(t); (Some(n.0), Under(Field("tags"), n.1))
    case None => (None, [])
  }

  function ThreadsMember(raw: Option<RawValues<Threads.RawThread>>): (r: (Option<Values<Threads.Thread>>, seq<ProcessingError>))
    ensures r.0.Some? <==> raw.Some?
    ensures r.0.Some? ==> Threads.AllNormalized(r.0.value.values)
  {
    match raw
    case Some(t) => var n := NormalizeThreadValues(t); (Some(n.0), Under(Field("threads"), n.1))
    case None => (None, [])
  }

  function RequestMember(raw: Option<Requests.RawRequest>): (r: Option<Requests.Request>)
    ensures r.Some? <==> raw.Some?
  {
    match raw
    case Some(q) => Some(Requests.NormalizeRequest(q))
    case None => None
  }

  /**
   * Normalises an event. `serialize` is the compact JSON rendering used for
   * a non-string exception `value`.
   */
  function NormalizeEvent(raw: RawEvent, serialize: Json -> string): (r: (Event, seq<ProcessingError>))
    ensures raw.level.None? ==> r.0.level == Error
    ensures raw.level.Some? && ParseLevel(raw.level.value).Some? ==> LevelName(r.0.level) == raw.level.value
    ensures raw.level.Some? && ParseLevel(raw.level.value).None? ==>
      r.0.level == Error && At("level", InvalidValue, Some(String(raw.level.value))) in r.1
    ensures r.1 == [] <==> CleanEvent(raw, serialize)
    ensures raw.platform.None? ==> r.0.platform == "other"
    ensures raw.platform.Some? ==> r.0.platform == raw.platform.value
    ensures r.0.culprit == raw.culprit && r.0.dist == raw.dist && r.0.environment == raw.environment
    ensures r.0.errors == raw.errors && r.0.userExtra == raw.userExtra && r.0.fingerprint == raw.fingerprint
    ensures r.0.logger == raw.logger && r.0.modules == raw.modules && r.0.release == raw.release
    ensures r.0.sdk == raw.sdk && r.0.serverName == raw.serverName && r.0.timeSpent == raw.timeSpent
    ensures r.0.transaction == raw.transaction && r.0.user == raw.user && r.0.version == raw.version
    ensures r.0.extra == raw.extra
  {
    EventErrorsEmpty(raw, serialize);
    LevelReported(raw, serialize);
    (EventOf(raw, serialize), EventErrors(raw, serialize))
  }

  /**
   * An event that draws no processing error: every member present passes
   * its own rule.
   */
  predicate CleanEvent(raw: RawEvent, serialize: Json -> string) {
    CleanStructured(raw, serialize) && CleanScalars(raw)
  }

  /** The structured members present pass their own rules. */
  predicate CleanStructured(raw: RawEvent, serialize: Json -> string) {
    CleanCollections(raw, serialize) && CleanRecords(raw)
  }

  /** The breadcrumbs, contexts, images and exceptions present pass their own rules. */
  predicate CleanCollections(raw: RawEvent, serialize: Json -> string) {
    (raw.breadcrumbs.Some? ==> Breadcrumbs.NormalizeBreadcrumbs(raw.breadcrumbs.value.values).1 == []) &&
    (raw.contexts.Some? ==> ContextsClean(raw.contexts.value)) &&
    (raw.debugMeta.Some? && raw.debugMeta.value.images.Some? ==>
      DebugImages.ImageErrors(raw.debugMeta.value.images.value, 0) == []) &&
    (raw.exception.Some? ==> Exceptions.NormalizeExceptions(raw.exception.value.values, serialize).1 == [])
  }

  /** The log entry, stack trace, tags and threads present pass their own rules. */
  predicate CleanRecords(raw: RawEvent) {
    (raw.logentry.Some? ==> LogEntries.WithinCaps(raw.logentry.value)) &&
    (raw.stacktrace.Some? ==> Stacktraces.NormalizeStacktrace(raw.stacktrace.value).1 == []) &&
    (raw.tags.Some? ==> Tags.AllTagsWithinLimit(Canonical(raw.tags.value))) &&
    (raw.threads.Some? ==> Threads.NormalizeThreads(raw.threads.value.values).1 == [])
  }

  /** The scalar members present are well formed. */
  predicate CleanScalars(raw: RawEvent) {
    (raw.eventId.Some? ==> EventIds.IsValidEventId(raw.eventId.value)) &&
    (raw.level.Some? ==> ParseLevel(raw.level.value).Some?) &&
    (raw.received.Some? ==> ToEpochSeconds(raw.received.value).Some?) &&
    (raw.timestamp.Some? ==> ToEpochSeconds(raw.timestamp.value).Some?) &&
    (raw.eventType.Some? ==> ParseEventType(raw.eventType.value).Some?)
  }

  /** The event's errors are empty exactly when each member's are. */
  lemma EventErrorsEmpty(raw: RawEvent, serialize: Json -> string)
    ensures EventErrors(raw, serialize) == [] <==> CleanEvent(raw, serialize)
  {
    EventErrorsParts(raw, serialize);
    StructuredErrorsEmpty(raw, serialize);
    ScalarErrorsEmpty(raw);
  }

  /** The event's errors are empty exactly when every member's part is. */
  lemma EventErrorsParts(raw: RawEvent, serialize: Json -> string)
    ensures EventErrors(raw, serialize) == [] <==>
      StructuredErrorsNone(raw, serialize) && ScalarErrorsNone(raw)
  {
  }

  /** No structured member draws an error. */
  predicate StructuredErrorsNone(raw: RawEvent, serialize: Json -> string) {
    BreadcrumbsMember(raw.breadcrumbs).1 == [] && ContextsMember(raw.contexts).1 == [] &&
    DebugMetaMember(raw.debugMeta).1 == [] && ExceptionMember(raw.exception, serialize).1 == [] &&
    RecordErrorsNone(raw)
  }

  /** Neither the log entry, the stack trace, the tags nor the threads draw an error. */
  predicate RecordErrorsNone(raw: RawEvent) {
    LogEntryMember(raw.logentry).1 == [] && StacktraceMember(raw.stacktrace).1 == [] &&
    TagsMember(raw.tags).1 == [] && ThreadsMember(raw.threads).1 == []
  }

  /** No scalar member draws an error. */
  predicate ScalarErrorsNone(raw: RawEvent) {
    EventIds.NormalizeEventId(raw.eventId).1 == [] && NormalizeLevel(raw.level, EventLevelDefault).1 == [] &&
    NormalizeTimestamp("received", raw.received).1 == [] &&
    NormalizeTimestamp("timestamp", raw.timestamp).1 == [] && NormalizeEventType(raw.eventType).1 == []
  }

  lemma StructuredErrorsEmpty(raw: RawEvent, serialize: Json -> string)
    ensures StructuredErrorsNone(raw, serialize) <==> CleanCollections(raw, serialize) && CleanRecords(raw)
  {
    BreadcrumbsErrorsEmpty(raw.breadcrumbs);
    ContextsErrorsEmpty(raw.contexts);
    DebugMetaErrorsEmpty(raw.debugMeta);
    ExceptionErrorsEmpty(raw.exception, serialize);
    RecordErrorsEmpty(raw);
  }

  lemma RecordErrorsEmpty(raw: RawEvent)
    ensures RecordErrorsNone(raw) <==> CleanRecords(raw)
  {
    LogEntryErrorsEmpty(raw.logentry);
    StacktraceErrorsEmpty(raw.stacktrace);
    TagsErrorsEmpty(raw.tags);
    ThreadsErrorsEmpty(raw.threads);
  }

  lemma ScalarErrorsEmpty(raw: RawEvent)
    ensures ScalarErrorsNone(raw) <==> CleanScalars(raw)
  {
  }

  // Each member draws no error exactly when its own rule reports none.

  lemma BreadcrumbsErrorsEmpty(raw: Option<RawValues<Breadcrumbs.RawBreadcrumb>>)
    ensures BreadcrumbsMember(raw).1 == [] <==> raw.None? || Breadcrumbs.NormalizeBreadcrumbs(raw.value.values).1 == []
  {
  }

  lemma ContextsErrorsEmpty(raw: Option<seq<Member>>)
    ensures ContextsMember(raw).1 == [] <==> raw.None? || ContextsClean(raw.value)
  {
  }

  lemma DebugMetaErrorsEmpty(raw: Option<RawDebugMeta>)
    ensures DebugMetaMember(raw).1 == [] <==>
      raw.None? || raw.value.images.None? || DebugImages.ImageErrors(raw.value.images.value, 0) == []
  {
  }

  lemma ExceptionErrorsEmpty(raw: Option<RawValues<Exceptions.RawException>>, serialize: Json -> string)
    ensures ExceptionMember(raw, serialize).1 == [] <==>
      raw.None? || Exceptions.NormalizeExceptions(raw.value.values, serialize).1 == []
  {
  }

  lemma LogEntryErrorsEmpty(raw: Option<LogEntries.LogEntry>)
    ensures LogEntryMember(raw).1 == [] <==> raw.None? || LogEntries.WithinCaps(raw.value)
  {
  }

  lemma StacktraceErrorsEmpty(raw: Option<Stacktraces.RawStacktrace>)
    ensures StacktraceMember(raw).1 == [] <==> raw.None? || Stacktraces.NormalizeStacktrace(raw.value).1 == []
  {
  }

  lemma TagsErrorsEmpty(raw: Option<RawPairs>)
    ensures TagsMember(raw).1 == [] <==> raw.None? || Tags.AllTagsWithinLimit(Canonical(raw.value))
  {
  }

  lemma ThreadsErrorsEmpty(raw: Option<RawValues<Threads.RawThread>>)
    ensures ThreadsMember(raw).1 == [] <==> raw.None? || Threads.NormalizeThreads(raw.value.values).1 == []
  {
  }

  /** An unknown level is recorded with the text sent. */
  lemma LevelReported(raw: RawEvent, serialize: Json -> string)
    ensures raw.level.Some? && ParseLevel(raw.level.value).None? ==>
      At("level", InvalidValue, Some(String(raw.level.value))) in EventErrors(raw, serialize)
  {
  }

  /** The normalised members of an event, each by its own rule. */
  function EventOf(raw: RawEvent, serialize: Json -> string): Event {
    Event(
      BreadcrumbsMember(raw.breadcrumbs).0, ContextsMember(raw.contexts).0, raw.culprit,
      DebugMetaMember(raw.debugMeta).0, raw.dist, raw.environment, raw.errors,
      EventIds.NormalizeEventId(raw.eventId).0, ExceptionMember(raw.exception, serialize).0,
      raw.userExtra, raw.fingerprint, NormalizeLevel(raw.level, EventLevelDefault).0,
      LogEntryMember(raw.logentry).0, raw.logger, raw.modules, raw.platform.GetOr(DefaultPlatform),
      NormalizeTimestamp("received", raw.received).0, raw.release, RequestMember(raw.request),
      raw.sdk, raw.serverName, StacktraceMember(raw.stacktrace).0, TagsMember(raw.tags).0,
      ThreadsMember(raw.threads).0, raw.timeSpent, NormalizeTimestamp("timestamp", raw.timestamp).0,
      raw.transaction, NormalizeEventType(raw.eventType).0, raw.user, raw.version, raw.extra)
  }

  /** The processing errors of all members, each under the member's name. */
  function EventErrors(raw: RawEvent, serialize: Json -> string): seq<ProcessingError> {
    BreadcrumbsMember(raw.breadcrumbs).1 + ContextsMember(raw.contexts).1 +
    DebugMetaMember(raw.debugMeta).1 + EventIds.NormalizeEventId(raw.eventId).1 +
    ExceptionMember(raw.exception, serialize).1 + NormalizeLevel(raw.level, EventLevelDefault).1 +
    LogEntryMember(raw.logentry).1 + NormalizeTimestamp("received", raw.received).1 +
    StacktraceMember(raw.stacktrace).1 + TagsMember(raw.tags).1 + ThreadsMember(raw.threads).1 +
    NormalizeTimestamp("timestamp", raw.timestamp).1 + NormalizeEventType(raw.eventType).1
  }

  /** Every normalised event satisfies the event invariants. */
  lemma NormalizeEventValid(raw: RawEvent, serialize: Json -> string)
    ensures ValidEvent(NormalizeEvent(raw, serialize).0)
  {
  }

  /** The identifier, type and timestamps are read by their own rules. */
  lemma NormalizeEventScalars(raw: RawEvent, serialize: Json -> string)
    ensures var e := NormalizeEvent(raw, serialize).0;
      (e.eventId.Some? <==> raw.eventId.Some? && EventIds.IsValidEventId(raw.eventId.value)) &&
      (e.eventId.Some? ==> e.eventId == raw.eventId) &&
      (e.eventType.Some? <==> raw.eventType.Some? && ParseEventType(raw.eventType.value).Some?) &&
      (e.eventType.Some? ==> EventTypeName(e.eventType.value) == raw.eventType.value) &&
      (raw.timestamp.Some? ==> e.timestamp == ToEpochSeconds(raw.timestamp.value)) &&
      (raw.received.Some? ==> e.received == ToEpochSeconds(raw.received.value))
  {
  }

  /** The exception chain keeps exactly the exceptions with a `type` or a `value`. */
  lemma NormalizeEventExceptions(raw: RawEvent, serialize: Json -> string)
    requires raw.exception.Some?
    ensures var e := NormalizeEvent(raw, serialize).0;
      e.exception.Some? &&
      |e.exception.value.values| == |Exceptions.Kept(raw.exception.value.values)| &&
      forall i :: 0 <= i < |e.exception.value.values| ==>
        e.exception.value.values[i] == Exceptions.NormalizeException(Exceptions.Kept(raw.exception.value.values)[i], serialize).0
  {
  }

  // Writing a normalised event back to the wire, each member in the form
  // normalisation reproduces.

  function BreadcrumbsWire(v: Option<Values<Breadcrumbs.Breadcrumb>>): Option<RawValues<Breadcrumbs.RawBreadcrumb>> {
    match v
    case Some(b) => Some(RawValues(Breadcrumbs.BreadcrumbsToWire(b.values), b.extra))
    case None => None
  }

  function ContextsWire(v: Option<seq<(string, Contexts.Context)>>): Option<seq<Member>> {
    match v
    case Some(cs) => Some(Contexts.ContextsToWire(cs))
    case None => None
  }

  function DebugMetaWire(v: Option<DebugMeta>): Option<RawDebugMeta> {
    match v
    case Some(m) =>
      Some(RawDebugMeta(match m.images case Some(imgs) => Some(DebugImages.ImagesToWire(imgs)) case None => None,
        m.sdkInfo, m.extra))
    case None => None
  }

  function ExceptionWire(v: Option<Values<Exceptions.Exception>>): Option<RawValues<Exceptions.RawException>> {
    match v
    case Some(x) => Some(RawValues(Exceptions.Wrap(Exceptions.ExceptionsToWire(x.values)), x.extra))
    case None => None
  }

  function StacktraceWire(v: Option<Stacktraces.Stacktrace>): Option<Stacktraces.RawStacktrace> {
    match v
    case Some(st) => Some(Stacktraces.StacktraceToWire(st))
    case None => None
  }

  function TagsWire(v: Option<seq<Pair>>): Option<RawPairs> {
    match v
    case Some(ps) => Some(ListForm(ToList(ps)))
    case None => None
  }

  function ThreadsWire(v: Option<Values<Threads.Thread>>): Option<RawValues<Threads.RawThread>> {
    match v
    case Some(t) => Some(RawValues(Threads.ThreadsToWire(t.values), t.extra))
    case None => None
  }

  function SecondsWire(v: Option<int>): Option<Timestamp> {
    match v
    case Some(n) => Some(Seconds(n))
    case None => None
  }

  function EventTypeWire(v: Option<EventType>): Option<string> {
    match v
    case Some(t) => Some(EventTypeName(t))
    case None => None
  }

  function RequestWire(v: Option<Requests.Request>): Option<Requests.RawRequest> {
    match v
    case Some(q) => Some(Requests.ToWire(q))
    case None => None
  }

  /** A normalised event written back with every default and every member spelled out. */
  function ToWire(e: Event): RawEvent {
    RawEvent(
      BreadcrumbsWire(e.breadcrumbs), ContextsWire(e.contexts), e.culprit, DebugMetaWire(e.debugMeta),
      e.dist, e.environment, e.errors, e.eventId, ExceptionWire(e.exception), e.userExtra,
      e.fingerprint, Some(LevelName(e.level)), e.logentry, e.logger, e.modules, Some(e.platform),
      SecondsWire(e.received),
      e.release, RequestWire(e.request), e.sdk, e.serverName, StacktraceWire(e.stacktrace),
      TagsWire(e.tags), ThreadsWire(e.threads), e.timeSpent,
      SecondsWire(e.timestamp),
      e.transaction,
      EventTypeWire(e.eventType),
      e.user, e.version, e.extra)
  }

  // Each member of a valid event reads back from the wire rendering.

  lemma BreadcrumbsRoundTrip(e: Event, serialize: Json -> string)
    ensures EventOf(ToWire(e), serialize).breadcrumbs == e.breadcrumbs
  {
    if e.breadcrumbs.Some? { Breadcrumbs.NormalizeBreadcrumbsToWire(e.breadcrumbs.value.values); }
  }

  lemma ContextsRoundTrip(e: Event, serialize: Json -> string)
    requires e.contexts.Some? ==> Contexts.ResolvedContexts(e.contexts.value)
    ensures EventOf(ToWire(e), serialize).contexts == e.contexts
  {
    if e.contexts.Some? { Contexts.ResolveContextsToWire(e.contexts.value); }
  }

  lemma DebugMetaRoundTrip(e: Event, serialize: Json -> string)
    requires e.debugMeta.Some? && e.debugMeta.value.images.Some? ==>
      DebugImages.ResolvedImages(e.debugMeta.value.images.value)
    ensures EventOf(ToWire(e), serialize).debugMeta == e.debugMeta
  {
    if e.debugMeta.Some? && e.debugMeta.value.images.Some? {
      DebugImages.ResolveImagesToWire(e.debugMeta.value.images.value);
    }
  }

  lemma ExceptionRoundTrip(e: Event, serialize: Json -> string)
    requires e.exception.Some? ==>
      forall i :: 0 <= i < |e.exception.value.values| ==> Exceptions.NormalizedException(e.exception.value.values[i])
    ensures EventOf(ToWire(e), serialize).exception == e.exception
  {
    if e.exception.Some? { Exceptions.NormalizeExceptionsToWire(e.exception.value.values, serialize); }
  }

  lemma StacktraceRoundTrip(e: Event, serialize: Json -> string)
    requires e.stacktrace.Some? ==> Stacktraces.NormalizedStacktrace(e.stacktrace.value)
    ensures EventOf(ToWire(e), serialize).stacktrace == e.stacktrace
  {
    if e.stacktrace.Some? { Stacktraces.NormalizeStacktraceToWire(e.stacktrace.value); }
  }

  lemma TagsRoundTrip(e: Event, serialize: Json -> string)
    requires e.tags.Some? ==> Tags.AllTagsWithinLimit(e.tags.value)
    ensures EventOf(ToWire(e), serialize).tags == e.tags
  {
    if e.tags.Some? {
      var ps := e.tags.value;
      FromToList(ps);
      var again := Tags.NormalizeTags(ListForm(ToList(ps))).0;
      assert forall i :: 0 <= i < |ps| ==> again[i] == Tags.CutTag(ps[i]) == ps[i];
      assert again == ps;
    }
  }

  lemma ThreadsRoundTrip(e: Event, serialize: Json -> string)
    requires e.threads.Some? ==> Threads.AllNormalized(e.threads.value.values)
    ensures EventOf(ToWire(e), serialize).threads == e.threads
  {
    if e.threads.Some? { ThreadsMemberToWire(e.threads.value); }
  }

  lemma ThreadsMemberToWire(t: Values<Threads.Thread>)
    requires Threads.AllNormalized(t.values)
    ensures ThreadsMember(ThreadsWire(Some(t))).0 == Some(t)
  {
    var raw := RawValues(Threads.ThreadsToWire(t.values), t.extra);
    Threads.NormalizeThreadsToWire(t.values);
    var n := NormalizeThreadValues(raw);
    assert n.0 == Values(t.values, t.extra);
    assert ThreadsWire(Some(t)) == Some(raw);
  }

  lemma RequestRoundTrip(e: Event, serialize: Json -> string)
    ensures EventOf(ToWire(e), serialize).request == e.request
  {
    if e.request.Some? { Requests.NormalizeToWire(e.request.value); }
  }

  lemma ScalarsRoundTrip(e: Event, serialize: Json -> string)
    requires e.eventId.Some? ==> EventIds.IsValidEventId(e.eventId.value)
    requires e.logentry.Some? ==> LogEntries.WithinCaps(e.logentry.value)
    ensures var again := EventOf(ToWire(e), serialize);
      again.eventId == e.eventId && again.logentry == e.logentry && again.platform == e.platform &&
      again.timestamp == e.timestamp && again.received == e.received &&
      again.culprit == e.culprit && again.dist == e.dist && again.environment == e.environment &&
      again.errors == e.errors && again.userExtra == e.userExtra && again.fingerprint == e.fingerprint &&
      again.logger == e.logger && again.modules == e.modules && again.release == e.release &&
      again.sdk == e.sdk && again.serverName == e.serverName && again.timeSpent == e.timeSpent &&
      again.transaction == e.transaction && again.user == e.user && again.version == e.version &&
      again.extra == e.extra
  {
  }

  lemma LevelAndTypeRoundTrip(e: Event, serialize: Json -> string)
    ensures EventOf(ToWire(e), serialize).level == e.level
    ensures EventOf(ToWire(e), serialize).eventType == e.eventType
  {
    ParseLevelName(e.level);
    if e.eventType.Some? { ParseEventTypeName(e.eventType.value); }
  }

  /**
   * Every valid event is reproduced from its wire rendering: normalisation
   * loses nothing it keeps, and defaults, once spelled out, read back alike.
   */
  lemma NormalizeEventToWire(e: Event, serialize: Json -> string)
    requires ValidEvent(e)
    ensures NormalizeEvent(ToWire(e), serialize).0 == e
  {
    EventOfToWire(e, serialize);
  }

  lemma EventOfToWire(e: Event, serialize: Json -> string)
    requires ValidEvent(e)
    ensures EventOf(ToWire(e), serialize) == e
  {
    StructuredRoundTrip(e, serialize);
    RequestRoundTrip(e, serialize);
    LevelAndTypeRoundTrip(e, serialize);
    ScalarsRoundTrip(e, serialize);
    SameMembers(EventOf(ToWire(e), serialize), e);
  }

  /** The structured members of a valid event read back from its wire rendering. */
  lemma StructuredRoundTrip(e: Event, serialize: Json -> string)
    requires ValidEvent(e)
    ensures var again := EventOf(ToWire(e), serialize);
      again.breadcrumbs == e.breadcrumbs && again.contexts == e.contexts && again.debugMeta == e.debugMeta &&
      again.exception == e.exception && again.stacktrace == e.stacktrace && again.tags == e.tags &&
      again.threads == e.threads
  {
    BreadcrumbsRoundTrip(e, serialize);
    ContextsRoundTrip(e, serialize);
    DebugMetaRoundTrip(e, serialize);
    ExceptionRoundTrip(e, serialize);
    StacktraceRoundTrip(e, serialize);
    TagsRoundTrip(e, serialize);
    ThreadsRoundTrip(e, serialize);
  }

  /** Two events with the same members are the same event. */
  lemma SameMembers(a: Event, b: Event)
    requires a.breadcrumbs == b.breadcrumbs && a.contexts == b.contexts && a.debugMeta == b.debugMeta
    requires a.exception == b.exception && a.stacktrace == b.stacktrace && a.tags == b.tags
    requires a.threads == b.threads && a.request == b.request && a.logentry == b.logentry
    requires a.level == b.level && a.eventType == b.eventType && a.platform == b.platform
    requires a.eventId == b.eventId && a.timestamp == b.timestamp && a.received == b.received
    requires a.culprit == b.culprit && a.dist == b.dist && a.environment == b.environment
    requires a.errors == b.errors && a.userExtra == b.userExtra && a.fingerprint == b.fingerprint
    requires a.logger == b.logger && a.modules == b.modules && a.release == b.release
    requires a.sdk == b.sdk && a.serverName == b.serverName && a.timeSpent == b.timeSpent
    requires a.transaction == b.transaction && a.user == b.user && a.version == b.version
    requires a.extra == b.extra
    ensures a == b
  {
  }

  /**
   * Normalisation is idempotent: normalising the wire rendering of its result
   * changes nothing and raises no new error beyond annotations.
   */
  lemma NormalizeEventIdempotent(raw: RawEvent, serialize: Json -> string)
    ensures var once := NormalizeEvent(raw, serialize).0;
      NormalizeEvent(ToWire(once), serialize).0 == once
    ensures var once := NormalizeEvent(raw, serialize).0;
      OnlyAnnotations(NormalizeEvent(ToWire(once), serialize).1)
  {
    NormalizeEventValid(raw, serialize);
    NormalizeEventToWire(NormalizeEvent(raw, serialize).0, serialize);
    EventErrorsAnnotate(NormalizeEvent(raw, serialize).0, serialize);
  }

  // The wire rendering of a valid event raises annotations only, member by member.

  /** A valid event read back from its wire rendering raises annotations only. */
  lemma EventErrorsAnnotate(e: Event, serialize: Json -> string)
    requires ValidEvent(e)
    ensures OnlyAnnotations(EventErrors(ToWire(e), serialize))
  {
    var w := ToWire(e);
    WireMembers(e);
    StructuredMembersAnnotate(e, serialize);
    ScalarMembersClean(e, serialize);
    MembersAnnotate(w, serialize);
  }

  /** Each member of the wire rendering is the rendering of the event's member. */
  lemma WireMembers(e: Event)
    ensures var w := ToWire(e);
      w.breadcrumbs == BreadcrumbsWire(e.breadcrumbs) && w.contexts == ContextsWire(e.contexts) &&
      w.debugMeta == DebugMetaWire(e.debugMeta) && w.exception == ExceptionWire(e.exception) &&
      w.stacktrace == StacktraceWire(e.stacktrace) && w.threads == ThreadsWire(e.threads) &&
      w.eventId == e.eventId && w.level == Some(LevelName(e.level)) && w.logentry == e.logentry &&
      w.received == SecondsWire(e.received) && w.timestamp == SecondsWire(e.timestamp) &&
      w.tags == TagsWire(e.tags) && w.eventType == EventTypeWire(e.eventType)
  {
  }

  /** The structured members of a valid event, written back, raise annotations only. */
  lemma StructuredMembersAnnotate(e: Event, serialize: Json -> string)
    requires ValidEvent(e)
    ensures OnlyAnnotations(BreadcrumbsMember(BreadcrumbsWire(e.breadcrumbs)).1)
    ensures OnlyAnnotations(ContextsMember(ContextsWire(e.contexts)).1)
    ensures OnlyAnnotations(DebugMetaMember(DebugMetaWire(e.debugMeta)).1)
    ensures OnlyAnnotations(ExceptionMember(ExceptionWire(e.exception), serialize).1)
    ensures OnlyAnnotations(StacktraceMember(StacktraceWire(e.stacktrace)).1)
    ensures OnlyAnnotations(ThreadsMember(ThreadsWire(e.threads)).1)
  {
    BreadcrumbsClean(e.breadcrumbs);
    ContextsAnnotate(e.contexts);
    DebugMetaAnnotate(e.debugMeta);
    ExceptionAnnotate(e.exception, serialize);
    StacktraceAnnotate(e.stacktrace);
    ThreadsAnnotate(e.threads);
  }

  /** The event's errors are annotations when each member's are. */
  lemma MembersAnnotate(raw: RawEvent, serialize: Json -> string)
    requires OnlyAnnotations(BreadcrumbsMember(raw.breadcrumbs).1) && OnlyAnnotations(ContextsMember(raw.contexts).1)
    requires OnlyAnnotations(DebugMetaMember(raw.debugMeta).1) && OnlyAnnotations(EventIds.NormalizeEventId(raw.eventId).1)
    requires OnlyAnnotations(ExceptionMember(raw.exception, serialize).1)
    requires OnlyAnnotations(NormalizeLevel(raw.level, EventLevelDefault).1)
    requires OnlyAnnotations(LogEntryMember(raw.logentry).1)
    requires OnlyAnnotations(NormalizeTimestamp("received", raw.received).1)
    requires OnlyAnnotations(StacktraceMember(raw.stacktrace).1) && OnlyAnnotations(TagsMember(raw.tags).1)
    requires OnlyAnnotations(ThreadsMember(raw.threads).1)
    requires OnlyAnnotations(NormalizeTimestamp("timestamp", raw.timestamp).1)
    requires OnlyAnnotations(NormalizeEventType(raw.eventType).1)
    ensures OnlyAnnotations(EventErrors(raw, serialize))
  {
    var p1 := BreadcrumbsMember(raw.breadcrumbs).1 + ContextsMember(raw.contexts).1;
    OnlyAnnotationsConcat(BreadcrumbsMember(raw.breadcrumbs).1, ContextsMember(raw.contexts).1);
    var p2 := p1 + DebugMetaMember(raw.debugMeta).1;
    OnlyAnnotationsConcat(p1, DebugMetaMember(raw.debugMeta).1);
    var p3 := p2 + EventIds.NormalizeEventId(raw.eventId).1;
    OnlyAnnotationsConcat(p2, EventIds.NormalizeEventId(raw.eventId).1);
    var p4 := p3 + ExceptionMember(raw.exception, serialize).1;
    OnlyAnnotationsConcat(p3, ExceptionMember(raw.exception, serialize).1);
    var p5 := p4 + NormalizeLevel(raw.level, EventLevelDefault).1;
    OnlyAnnotationsConcat(p4, NormalizeLevel(raw.level, EventLevelDefault).1);
    var p6 := p5 + LogEntryMember(raw.logentry).1;
    OnlyAnnotationsConcat(p5, LogEntryMember(raw.logentry).1);
    var p7 := p6 + NormalizeTimestamp("received", raw.received).1;
    OnlyAnnotationsConcat(p6, NormalizeTimestamp("received", raw.received).1);
    var p8 := p7 + StacktraceMember(raw.stacktrace).1;
    OnlyAnnotationsConcat(p7, StacktraceMember(raw.stacktrace).1);
    var p9 := p8 + TagsMember(raw.tags).1;
    OnlyAnnotationsConcat(p8, TagsMember(raw.tags).1);
    var p10 := p9 + ThreadsMember(raw.threads).1;
    OnlyAnnotationsConcat(p9, ThreadsMember(raw.threads).1);
    var p11 := p10 + NormalizeTimestamp("timestamp", raw.timestamp).1;
    OnlyAnnotationsConcat(p10, NormalizeTimestamp("timestamp", raw.timestamp).1);
    OnlyAnnotationsConcat(p11, NormalizeEventType(raw.eventType).1);
  }

  // The members with nested records raise annotations only: trace ids, images, frames and thread ids.

  lemma BreadcrumbsClean(v: Option<Values<Breadcrumbs.Breadcrumb>>)
    ensures BreadcrumbsMember(BreadcrumbsWire(v)).1 == []
  {
    if v.Some? { Breadcrumbs.NormalizeBreadcrumbsToWire(v.value.values); }
  }

  lemma ContextsAnnotate(v: Option<seq<(string, Contexts.Context)>>)
    requires v.Some? ==> Contexts.ResolvedContexts(v.value)
    ensures OnlyAnnotations(ContextsMember(ContextsWire(v)).1)
  {
    if v.Some? {
      var entries := Contexts.ContextsToWire(v.value);
      Contexts.ResolveContextsToWire(v.value);
      var n := NormalizeContexts(entries);
      assert n.1 == Contexts.TraceErrors(v.value);
      OnlyAnnotationsUnder(Field("contexts"), n.1);
    }
  }

  lemma DebugMetaAnnotate(v: Option<DebugMeta>)
    ensures OnlyAnnotations(DebugMetaMember(DebugMetaWire(v)).1)
  {
    if v.Some? && v.value.images.Some? {
      var errors := DebugImages.ImageErrors(DebugImages.ImagesToWire(v.value.images.value), 0);
      DebugImages.ImagesToWireAnnotates(v.value.images.value);
      OnlyAnnotationsUnder(Field("images"), errors);
      OnlyAnnotationsUnder(Field("debug_meta"), Under(Field("images"), errors));
    }
  }

  lemma ExceptionAnnotate(v: Option<Values<Exceptions.Exception>>, serialize: Json -> string)
    requires v.Some? ==> forall i :: 0 <= i < |v.value.values| ==> Exceptions.NormalizedException(v.value.values[i])
    ensures OnlyAnnotations(ExceptionMember(ExceptionWire(v), serialize).1)
  {
    if v.Some? {
      var raw := RawValues(Exceptions.Wrap(Exceptions.ExceptionsToWire(v.value.values)), v.value.extra);
      Exceptions.NormalizeExceptionsToWireAnnotates(v.value.values, serialize);
      ExceptionValuesAnnotate(raw, serialize);
    }
  }

  lemma ExceptionValuesAnnotate(raw: RawValues<Exceptions.RawException>, serialize: Json -> string)
    requires OnlyAnnotations(Exceptions.NormalizeExceptions(raw.values, serialize).1)
    ensures OnlyAnnotations(ExceptionMember(Some(raw), serialize).1)
  {
    var n := NormalizeExceptionValues(raw, serialize);
    OnlyAnnotationsUnder(Field("values"), Exceptions.NormalizeExceptions(raw.values, serialize).1);
    OnlyAnnotationsUnder(Field("exception"), n.1);
  }

  lemma StacktraceAnnotate(v: Option<Stacktraces.Stacktrace>)
    requires v.Some? ==> Stacktraces.NormalizedStacktrace(v.value)
    ensures OnlyAnnotations(StacktraceMember(StacktraceWire(v)).1)
  {
    if v.Some? {
      Stacktraces.StacktraceToWireAnnotates(v.value);
      OnlyAnnotationsUnder(Field("stacktrace"), Stacktraces.NormalizeStacktrace(Stacktraces.StacktraceToWire(v.value)).1);
    }
  }

  lemma ThreadsAnnotate(v: Option<Values<Threads.Thread>>)
    requires v.Some? ==> Threads.AllNormalized(v.value.values)
    ensures OnlyAnnotations(ThreadsMember(ThreadsWire(v)).1)
  {
    if v.Some? {
      Threads.NormalizeThreadsToWireAnnotates(v.value.values);
      ThreadValuesAnnotate(RawValues(Threads.ThreadsToWire(v.value.values), v.value.extra));
    }
  }

  lemma ThreadValuesAnnotate(raw: RawValues<Threads.RawThread>)
    requires OnlyAnnotations(Threads.NormalizeThreads(raw.values).1)
    ensures OnlyAnnotations(ThreadsMember(Some(raw)).1)
  {
    ThreadsMemberErrors(raw);
    ValuesAnnotate("threads", Threads.NormalizeThreads(raw.values).1);
  }

  /** The threads member reports the list's errors under `threads.values`. */
  lemma ThreadsMemberErrors(raw: RawValues<Threads.RawThread>)
    ensures ThreadsMember(Some(raw)).1 == Under(Field("threads"), Under(Field("values"), Threads.NormalizeThreads(raw.values).1))
  {
    var n := NormalizeThreadValues(raw);
    assert ThreadsMember(Some(raw)) == (Some(n.0), Under(Field("threads"), n.1));
  }

  /** Annotations of a list stay annotations under its member's `values`. */
  lemma ValuesAnnotate(member: string, errors: seq<ProcessingError>)
    requires OnlyAnnotations(errors)
    ensures OnlyAnnotations(Under(Field(member), Under(Field("values"), errors)))
  {
    OnlyAnnotationsUnder(Field("values"), errors);
    OnlyAnnotationsUnder(Field(member), Under(Field("values"), errors));
  }

  /** The members read by a single rule raise nothing at all once written back. */
  lemma ScalarMembersClean(e: Event, serialize: Json -> string)
    requires e.eventId.Some? ==> EventIds.IsValidEventId(e.eventId.value)
    requires e.tags.Some? ==> Tags.AllTagsWithinLimit(e.tags.value)
    requires e.logentry.Some? ==> LogEntries.WithinCaps(e.logentry.value)
    ensures EventIds.NormalizeEventId(e.eventId).1 == []
    ensures NormalizeLevel(Some(LevelName(e.level)), EventLevelDefault).1 == []
    ensures LogEntryMember(e.logentry).1 == []
    ensures NormalizeTimestamp("received", SecondsWire(e.received)).1 == []
    ensures TagsMember(TagsWire(e.tags)).1 == []
    ensures NormalizeTimestamp("timestamp", SecondsWire(e.timestamp)).1 == []
    ensures NormalizeEventType(EventTypeWire(e.eventType)).1 == []
  {
    ParseLevelName(e.level);
    if e.eventType.Some? { ParseEventTypeName(e.eventType.value); }
    if e.tags.Some? {
      FromToList(e.tags.value);
      Tags.NormalizeFittingTags(ListForm(ToList(e.tags.value)));
    }
  }

  /** An event that sends no member at all. */
  function EmptyRawEvent(): RawEvent {
    RawEvent(None, None, None, None, None, None, None, None, None, None, None, None, None, None, None,
      None, None, None, None, None, None, None, None, None, None, None, None, None, None, None, map[])
  }

  /** An event with only the schema's example id is an `error` from platform `other`. */
  lemma ExampleMinimalEvent(serialize: Json -> string)
    ensures
      var e := NormalizeEvent(EmptyRawEvent().(eventId := Some("fc6d8c0c43fc4630ad850ee518f1b9d0")), serialize).0;
      e.level == Error && e.platform == "other" && e.eventId == Some("fc6d8c0c43fc4630ad850ee518f1b9d0")
  {
    EventIds.ExampleIdValid();
  }
}

=== FILE: exceptions.dfy ===
/**
 * Exceptions of an event, listed from the oldest to the newest in a chain.
 * An exception needs a `type` or a `value`; one with neither is discarded.
 * A mechanism needs its `type`; one without is discarded, keeping its
 * exception.
 */
module Exceptions {
  import opened Wrappers
  import opened Json
  import opened Errors
  import opened Seqs
  import opened Stacktraces
  import opened Threads

  datatype Mechanism = Mechanism(
    data: Option<Extra>,
    description: Option<string>,
    handled: Option<bool>,
    helpLink: Option<string>,
    meta: Option<Extra>,
    synthetic: Option<bool>,
    typeName: string,
    extra: Extra)

  datatype RawMechanism = RawMechanism(
    data: Option<Extra>,
    description: Option<string>,
    handled: Option<bool>,
    helpLink: Option<string>,
    meta: Option<Extra>,
    synthetic: Option<bool>,
    typeName: Option<string>,
    extra: Extra)

  /** A mechanism keeps all its members once its required `type` is present. */
  function NormalizeMechanism(raw: RawMechanism): (r: (Option<Mechanism>, seq<ProcessingError>))
    ensures r.0.Some? <==> raw.typeName.Some?
    ensures r.0.Some? ==>
      r.0.value.typeName == raw.typeName.value && r.0.value.data == raw.data &&
      r.0.value.description == raw.description && r.0.value.handled == raw.handled &&
      r.0.value.helpLink == raw.helpLink && r.0.value.meta == raw.meta &&
      r.0.value.synthetic == raw.synthetic && r.0.value.extra == raw.extra
    ensures r.1 == [] <==> raw.typeName.Some?
    ensures forall e :: e in r.1 ==> e.kind == MissingMechanismType
  {
    match raw.typeName
    case Some(t) =>
      (Some(Mechanism(raw.data, raw.description, raw.handled, raw.helpLink, raw.meta, raw.synthetic, t, raw.extra)), [])
    case None => (None, [At("type", MissingMechanismType, None)])
  }

  datatype Exception = Exception(
    mechanism: Option<Mechanism>,
    moduleName: Option<string>,
    stacktrace: Option<Stacktrace>,
    threadId: Option<ThreadId>,
    typeName: Option<string>,
    value: Option<string>,
    extra: Extra)

  /** An exception as sent: `value` may be any JSON value. */
  datatype RawException = RawException(
    mechanism: Option<RawMechanism>,
    moduleName: Option<string>,
    stacktrace: Option<RawStacktrace>,
    threadId: Option<ThreadId>,
    typeName: Option<string>,
    value: Option<Json>,
    extra: Extra)

  /** A `value` counts only when it is present and not JSON null. */
  predicate HasValue(e: RawException) {
    e.value.Some? && !e.value.value.Null?
  }

  /** The schema's rule: at least one of `type` and `value`. */
  predicate Keep(e: RawException) {
    e.typeName.Some? || HasValue(e)
  }

  /**
   * A lenient string: a string passes through, any other value is replaced
   * by its compact JSON text, which `serialize` supplies.
   */
  function LenientString(v: Json, serialize: Json -> string): (r: string)
    ensures v.String? ==> r == v.s
  {
    match v
    case String(s) => s
    case _ => serialize(v)
  }

  /** The exceptions that are present and keep `type` or `value`, in their order. */
  function Kept(values: seq<Option<RawException>>): (r: seq<RawException>)
    ensures |r| <= |values|
    ensures forall e :: e in r <==> Some(e) in values && Keep(e)
  {
    if |values| == 0 then []
    else
      var rest := Kept(values[1..]);
      assert forall o :: o in values <==> o == values[0] || o in values[1..];
      if values[0].Some? && Keep(values[0].value) then [values[0].value] + rest else rest
  }

  /** Filtering keeps the surviving exceptions in their chain order. */
  lemma {:induction false} KeptIsSubsequence(values: seq<Option<RawException>>)
    ensures IsSubsequence(Kept(values), Somes(values))
  {
    if |values| > 0 {
      KeptIsSubsequence(values[1..]);
      if values[0].Some? {
        assert Somes(values) == [values[0].value] + Somes(values[1..]);
        if Keep(values[0].value) {
          SubsequenceKeep(Kept(values[1..]), values[0].value, Somes(values[1..]));
        } else {
          SubsequenceSkip(Kept(values[1..]), values[0].value, Somes(values[1..]));
        }
      }
    }
  }

  /**
   * Filtering works element by element: the survivors of a joined chain are
   * the survivors of each part, joined. With the membership clause of `Kept`
   * this fixes every occurrence, so repeated exceptions are never merged.
   */
  lemma {:induction false} KeptConcat(a: seq<Option<RawException>>, b: seq<Option<RawException>>)
    ensures Kept(a + b) == Kept(a) + Kept(b)
  {
    if |a| == 0 {
      assert a + b == b;
    } else {
      assert (a + b)[1..] == a[1..] + b;
      KeptConcat(a[1..], b);
    }
  }

  /** Filtering an already filtered chain changes nothing. */
  lemma {:induction false} KeptIdempotent(values: seq<RawException>)
    requires forall i :: 0 <= i < |values| ==> Keep(values[i])
    ensures Kept(Wrap(values)) == values
  {
    if |values| > 0 {
      assert Wrap(values)[1..] == Wrap(values[1..]);
      KeptIdempotent(values[1..]);
    }
  }

  function Wrap(values: seq<RawException>): (r: seq<Option<RawException>>)
    ensures |r| == |values| && forall i :: 0 <= i < |values| ==> r[i] == Some(values[i])
  {
    seq(|values|, i requires 0 <= i < |values| => Some(values[i]))
  }

  /**
   * Normalises one kept exception: the lenient value becomes a string, the
   * mechanism and stack trace are normalised, nothing else changes.
   */
  function NormalizeException(raw: RawException, serialize: Json -> string): (r: (Exception, seq<ProcessingError>))
    ensures r.0.typeName == raw.typeName && r.0.moduleName == raw.moduleName
    ensures r.0.threadId == raw.threadId && r.0.extra == raw.extra
    ensures r.0.value.Some? <==> HasValue(raw)
    ensures HasValue(raw) ==> r.0.value == Some(LenientString(raw.value.value, serialize))
    ensures r.0.mechanism.Some? <==> raw.mechanism.Some? && raw.mechanism.value.typeName.Some?
    ensures r.0.stacktrace.Some? <==> raw.stacktrace.Some?
    ensures forall e :: e in r.1 ==>
      e.kind == MissingMechanismType || e.kind == ValueTooLong || e.kind == MissingLocation || e.kind == EmptyStacktrace
    ensures (exists e :: e in r.1 && e.kind == MissingMechanismType) <==>
      raw.mechanism.Some? && raw.mechanism.value.typeName.None?
    ensures r.1 == [] <==>
      (raw.mechanism.None? || raw.mechanism.value.typeName.Some?) &&
      (raw.stacktrace.None? || NormalizeStacktrace(raw.stacktrace.value).1 == [])
  {
    var value := if HasValue(raw) then Some(LenientString(raw.value.value, serialize)) else None;
    var mech := MechanismMember(raw.mechanism);
    var st := StacktraceMember(raw.stacktrace);
    MechanismReported(raw, mech.1, st.1);
    (Exception(mech.0, raw.moduleName, st.0, raw.threadId, raw.typeName, value, raw.extra), mech.1 + st.1)
  }

  /** The mechanism of an exception, normalised, with its errors under `mechanism`. */
  function MechanismMember(raw: Option<RawMechanism>): (r: (Option<Mechanism>, seq<ProcessingError>))
    ensures r.0.Some? <==> raw.Some? && raw.value.typeName.Some?
    ensures raw.Some? ==> r.1 == Under(Field("mechanism"), NormalizeMechanism(raw.value).1)
    ensures raw.None? ==> r.1 == []
    ensures r.1 == [] <==> raw.None? || raw.value.typeName.Some?
  {
    match raw
    case Some(m) => var n := NormalizeMechanism(m); (n.0, Under(Field("mechanism"), n.1))
    case None => (None, [])
  }

  /** The stack trace of an exception, normalised, with its errors under `stacktrace`. */
  function StacktraceMember(raw: Option<RawStacktrace>): (r: (Option<Stacktrace>, seq<ProcessingError>))
    ensures r.0.Some? <==> raw.Some?
    ensures forall e :: e in r.1 ==> e.kind == ValueTooLong || e.kind == MissingLocation || e.kind == EmptyStacktrace
    ensures r.1 == [] <==> raw.None? || NormalizeStacktrace(raw.value).1 == []
  {
    match raw
    case Some(s) =>
      var n := NormalizeStacktrace(s);
      UnderKeeps(Field("stacktrace"), n.1, MissingMechanismType);
      (Some(n.0), Under(Field("stacktrace"), n.1))
    case None => (None, [])
  }

  /** The mechanism's report is the only source of `MissingMechanismType`. */
  lemma MechanismReported(raw: RawException, mech: seq<ProcessingError>, st: seq<ProcessingError>)
    requires raw.mechanism.Some? ==> mech == Under(Field("mechanism"), NormalizeMechanism(raw.mechanism.value).1)
    requires raw.mechanism.None? ==> mech == []
    requires forall e :: e in st ==> e.kind != MissingMechanismType
    ensures (exists e :: e in mech + st && e.kind == MissingMechanismType) <==>
      raw.mechanism.Some? && raw.mechanism.value.typeName.None?
  {
    if raw.mechanism.Some? {
      UnderKinds(Field("mechanism"), NormalizeMechanism(raw.mechanism.value).1, MissingMechanismType);
      if raw.mechanism.value.typeName.None? {
        var e :| e in mech && e.kind == MissingMechanismType;
        assert e in mech + st;
      }
    }
  }

  /** A kept exception still has a `type` or a `value` after normalisation. */
  lemma NormalizedKeepsTypeOrValue(raw: RawException, serialize: Json -> string)
    requires Keep(raw)
    ensures NormalizeException(raw, serialize).0.typeName.Some? || NormalizeException(raw, serialize).0.value.Some?
  {
  }

  /**
   * Normalises `exception.values`: nulls are absent, an exception without
   * `type` and `value` is dropped with an error at its index as sent, the
   * rest are normalised and keep their order.
   */
  function NormalizeExceptions(values: seq<Option<RawException>>, serialize: Json -> string): (r: (seq<Exception>, seq<ProcessingError>))
    ensures |r.0| == |Kept(values)|
    ensures forall i :: 0 <= i < |r.0| ==> r.0[i] == NormalizeException(Kept(values)[i], serialize).0
    ensures forall i :: 0 <= i < |r.0| ==> r.0[i].typeName.Some? || r.0[i].value.Some?
    ensures (exists e :: e in r.1 && e.kind == MissingTypeAndValue) <==>
      exists i :: 0 <= i < |values| && values[i].Some? && !Keep(values[i].value)
    ensures forall i {:trigger ReportedUnder(r.1, [Index(i)])} {:trigger Faulty(values[i], serialize)} ::
      0 <= i < |values| ==> (ReportedUnder(r.1, [Index(i)]) <==> Faulty(values[i], serialize))
    ensures r.1 == [] <==> forall i {:trigger Faulty(values[i], serialize)} :: 0 <= i < |values| ==> !Faulty(values[i], serialize)
  {
    var kept := Kept(values);
    KeptNormalizeWithTypeOrValue(kept, serialize);
    (NormalizeEach(kept, serialize), ExceptionErrors(values, 0, serialize))
  }

  /** Each kept exception normalised, in order. */
  function NormalizeEach(kept: seq<RawException>, serialize: Json -> string): (out: seq<Exception>)
    ensures |out| == |kept|
    ensures forall i :: 0 <= i < |kept| ==> out[i] == NormalizeException(kept[i], serialize).0
  {
    seq(|kept|, i requires 0 <= i < |kept| => NormalizeException(kept[i], serialize).0)
  }

  /** A kept exception keeps its `type` or its `value` through normalisation. */
  lemma KeptNormalizeWithTypeOrValue(kept: seq<RawException>, serialize: Json -> string)
    requires forall e :: e in kept ==> Keep(e)
    ensures forall i :: 0 <= i < |kept| ==>
      NormalizeException(kept[i], serialize).0.typeName.Some? || NormalizeException(kept[i], serialize).0.value.Some?
  {
    forall i | 0 <= i < |kept|
      ensures NormalizeException(kept[i], serialize).0.typeName.Some? || NormalizeException(kept[i], serialize).0.value.Some?
    {
      assert kept[i] in kept;
    }
  }

  /** An entry of `exception.values` that draws an error: dropped, or reporting something itself. */
  predicate Faulty(entry: Option<RawException>, serialize: Json -> string) {
    entry.Some? && (!Keep(entry.value) || NormalizeException(entry.value, serialize).1 != [])
  }

  /** The errors of one entry, before they are placed under its index. */
  function EntryErrors(entry: Option<RawException>, serialize: Json -> string): (r: seq<ProcessingError>)
    ensures r != [] <==> Faulty(entry, serialize)
    ensures (exists e :: e in r && e.kind == MissingTypeAndValue) <==> entry.Some? && !Keep(entry.value)
  {
    match entry
    case None => []
    case Some(x) =>
      if Keep(x) then
        var inner := NormalizeException(x, serialize).1;
        assert forall e :: e in inner ==> e.kind != MissingTypeAndValue;
        inner
      else
        var r := [ProcessingError([], MissingTypeAndValue, None)];
        assert r[0] in r;
        r
  }

  /** Drop errors and inner errors of the exceptions from index `from` on. */
  function ExceptionErrors(values: seq<Option<RawException>>, from: nat, serialize: Json -> string): (r: seq<ProcessingError>)
    requires from <= |values|
    ensures forall e :: e in r ==> |e.path| >= 1 && e.path[0].Index? && from <= e.path[0].i < |values|
    ensures (exists e :: e in r && e.kind == MissingTypeAndValue) <==>
      exists i :: from <= i < |values| && values[i].Some? && !Keep(values[i].value)
    ensures forall i {:trigger ReportedUnder(r, [Index(i)])} {:trigger Faulty(values[i], serialize)} ::
      from <= i < |values| ==> (ReportedUnder(r, [Index(i)]) <==> Faulty(values[i], serialize))
    ensures r == [] <==> forall i {:trigger Faulty(values[i], serialize)} :: from <= i < |values| ==> !Faulty(values[i], serialize)
    decreases |values| - from
  {
    if from == |values| then []
    else
      var rest := ExceptionErrors(values, from + 1, serialize);
      var own := EntryErrors(values[from], serialize);
      UnderKinds(Index(from), own, MissingTypeAndValue);
      ReportedAtCons(from, own, rest);
      var r := Under(Index(from), own) + rest;
      EmptyIffNoneReported(r, from, |values|);
      DroppedStep(values, from, Under(Index(from), own), rest);
      r
  }

  /** A drop is reported in the list exactly when entry `from` or a later one is dropped. */
  lemma DroppedStep(values: seq<Option<RawException>>, from: nat, own: seq<ProcessingError>, rest: seq<ProcessingError>)
    requires from < |values|
    requires (exists e :: e in own && e.kind == MissingTypeAndValue) <==> values[from].Some? && !Keep(values[from].value)
    requires (exists e :: e in rest && e.kind == MissingTypeAndValue) <==>
      exists i :: from + 1 <= i < |values| && values[i].Some? && !Keep(values[i].value)
    ensures (exists e :: e in own + rest && e.kind == MissingTypeAndValue) <==>
      exists i :: from <= i < |values| && values[i].Some? && !Keep(values[i].value)
  {
    if exists e :: e in own + rest && e.kind == MissingTypeAndValue {
      var e :| e in own + rest && e.kind == MissingTypeAndValue;
      if e in own {
        assert values[from].Some? && !Keep(values[from].value);
      }
    }
    if exists i :: from <= i < |values| && values[i].Some? && !Keep(values[i].value) {
      var i :| from <= i < |values| && values[i].Some? && !Keep(values[i].value);
      if i == from {
        var e :| e in own && e.kind == MissingTypeAndValue;
        assert e in own + rest;
      } else {
        var e :| e in rest && e.kind == MissingTypeAndValue;
        assert e in own + rest;
      }
    }
  }

  function NoExtra(): Extra {
    map[]
  }

  /** `{"type": null, "value": null}` is dropped; `{"value": "boom"}` is kept. */
  lemma ExampleDropAndKeep(serialize: Json -> string)
    ensures
      var dropped := RawException(None, None, None, None, None, Some(Null), NoExtra());
      var kept := RawException(None, None, None, None, None, Some(String("boom")), NoExtra());
      NormalizeExceptions([Some(dropped), Some(kept)], serialize).0 ==
        [Exception(None, None, None, None, None, Some("boom"), NoExtra())]
  {
    var dropped := RawException(None, None, None, None, None, Some(Null), NoExtra());
    var kept := RawException(None, None, None, None, None, Some(String("boom")), NoExtra());
    var values := [Some(dropped), Some(kept)];
    assert values[1..][1..] == [];
    assert Kept(values) == [kept];
  }

  /** An exception as normalisation leaves it. */
  predicate NormalizedException(e: Exception) {
    (e.typeName.Some? || e.value.Some?) &&
    (e.stacktrace.Some? ==> NormalizedStacktrace(e.stacktrace.value))
  }

  lemma NormalizeExceptionsNormalized(values: seq<Option<RawException>>, serialize: Json -> string)
    ensures forall i :: 0 <= i < |NormalizeExceptions(values, serialize).0| ==>
      NormalizedException(NormalizeExceptions(values, serialize).0[i])
  {
    var es := NormalizeExceptions(values, serialize).0;
    forall i | 0 <= i < |es|
      ensures NormalizedException(es[i])
    {
      var raw := Kept(values)[i];
      if raw.stacktrace.Some? {
        NormalizeStacktraceNormalized(raw.stacktrace.value);
      }
    }
  }

  function MechanismToWire(m: Mechanism): RawMechanism {
    RawMechanism(m.data, m.description, m.handled, m.helpLink, m.meta, m.synthetic, Some(m.typeName), m.extra)
  }

  /** An exception written back: its value as a JSON string. */
  function ExceptionToWire(e: Exception): RawException {
    RawException(
      match e.mechanism case Some(m) => Some(MechanismToWire(m)) case None => None,
      e.moduleName,
      match e.stacktrace case Some(s) => Some(StacktraceToWire(s)) case None => None,
      e.threadId, e.typeName,
      match e.value case Some(v) => Some(String(v)) case None => None,
      e.extra)
  }

  /** A normalised exception is reproduced from its wire rendering. */
  lemma NormalizeExceptionToWire(e: Exception, serialize: Json -> string)
    requires NormalizedException(e)
    ensures Keep(ExceptionToWire(e))
    ensures NormalizeException(ExceptionToWire(e), serialize).0 == e
  {
    if e.stacktrace.Some? {
      NormalizeStacktraceToWire(e.stacktrace.value);
    }
  }

  function ExceptionsToWire(es: seq<Exception>): (r: seq<RawException>)
    ensures |r| == |es| && forall i :: 0 <= i < |es| ==> r[i] == ExceptionToWire(es[i])
  {
    seq(|es|, i requires 0 <= i < |es| => ExceptionToWire(es[i]))
  }

  /** A normalised chain is reproduced from its wire rendering, none dropped. */
  lemma NormalizeExceptionsToWire(es: seq<Exception>, serialize: Json -> string)
    requires forall i :: 0 <= i < |es| ==> NormalizedException(es[i])
    ensures NormalizeExceptions(Wrap(ExceptionsToWire(es)), serialize).0 == es
  {
    var raws := ExceptionsToWire(es);
    forall i | 0 <= i < |es|
      ensures Keep(raws[i]) && NormalizeException(raws[i], serialize).0 == es[i]
    {
      NormalizeExceptionToWire(es[i], serialize);
    }
    KeptIdempotent(raws);
  }

  /** Re-normalising a normalised exception raises annotations only: its mechanism has a type. */
  lemma ExceptionToWireAnnotates(e: Exception, serialize: Json -> string)
    requires NormalizedException(e)
    ensures OnlyAnnotations(NormalizeException(ExceptionToWire(e), serialize).1)
  {
    var raw := ExceptionToWire(e);
    if e.stacktrace.Some? {
      var st := e.stacktrace.value;
      StacktraceToWireAnnotates(st);
      OnlyAnnotationsUnder(Field("stacktrace"), NormalizeStacktrace(StacktraceToWire(st)).1);
    }
  }

  /** The wire rendering of a normalised exception, as an entry of the list, raises annotations only. */
  lemma EntryToWireAnnotates(e: Exception, serialize: Json -> string)
    requires NormalizedException(e)
    ensures OnlyAnnotations(EntryErrors(Some(ExceptionToWire(e)), serialize))
  {
    NormalizeExceptionToWire(e, serialize);
    ExceptionToWireAnnotates(e, serialize);
  }

  lemma {:induction false} ExceptionErrorsAnnotate(values: seq<Option<RawException>>, from: nat, serialize: Json -> string)
    requires from <= |values|
    requires forall i :: from <= i < |values| ==> OnlyAnnotations(EntryErrors(values[i], serialize))
    ensures OnlyAnnotations(ExceptionErrors(values, from, serialize))
    decreases |values| - from
  {
    if from < |values| {
      ExceptionErrorsAnnotate(values, from + 1, serialize);
      var own := EntryErrors(values[from], serialize);
      var rest := ExceptionErrors(values, from + 1, serialize);
      assert ExceptionErrors(values, from, serialize) == Under(Index(from), own) + rest;
      OnlyAnnotationsUnder(Index(from), own);
      OnlyAnnotationsConcat(Under(Index(from), own), rest);
    }
  }

  /** Re-normalising a normalised chain drops nothing and raises annotations only. */
  lemma NormalizeExceptionsToWireAnnotates(es: seq<Exception>, serialize: Json -> string)
    requires forall i :: 0 <= i < |es| ==> NormalizedException(es[i])
    ensures OnlyAnnotations(NormalizeExceptions(Wrap(ExceptionsToWire(es)), serialize).1)
  {
    var values := Wrap(ExceptionsToWire(es));
    forall i | 0 <= i < |values|
      ensures OnlyAnnotations(EntryErrors(values[i], serialize))
    {
      EntryToWireAnnotates(es[i], serialize);
    }
    ExceptionErrorsAnnotate(values, 0, serialize);
  }
}

=== FILE: hex.dfy ===
/**
  Hexadecimal renderings used by the identifiers of the event protocol: the
  32-digit `event_id`, the byte dumps inside native `code_id`/`debug_id`
  values and the printf-style `%08x` / `%X` numerals of a PE `code_id`.
 */
module Hex {
  import opened Wrappers
  import opened Numerals

  type Byte = x: nat | x < 256

  predicate IsLowerHexDigit(c: char) {
    '0' <= c <= '9' || 'a' <= c <= 'f'
  }

  predicate IsUpperHexDigit(c: char) {
    '0' <= c <= '9' || 'A' <= c <= 'F'
  }

  predicate IsHexDigit(c: char) {
    IsLowerHexDigit(c) || IsUpperHexDigit(c)
  }

  predicate IsLowerHex(s: string) {
    forall i :: 0 <= i < |s| ==> IsLowerHexDigit(s[i])
  }

  predicate IsHex(s: string) {
    forall i :: 0 <= i < |s| ==> IsHexDigit(s[i])
  }

  /** The lower-case digit for `d` (what `%x` prints). */
  function LowerDigit(d: nat): (c: char)
    requires d < 16
    ensures IsLowerHexDigit(c)
    ensures d < 10 <==> '0' <= c <= '9'
  {
    if d < 10 then (48 + d) as char else (87 + d) as char
  }

  /** The upper-case digit for `d` (what `%X` prints). */
  function UpperDigit(d: nat): (c: char)
    requires d < 16
    ensures IsUpperHexDigit(c)
    ensures d < 10 <==> '0' <= c <= '9'
  {
    if d < 10 then (48 + d) as char else (55 + d) as char
  }

  /** The value of a digit of either case; the inverse of both renderings. */
  function DigitValue(c: char): (d: nat)
    requires IsHexDigit(c)
    ensures d < 16
    ensures IsLowerHexDigit(c) ==> LowerDigit(d) == c
    ensures IsUpperHexDigit(c) ==> UpperDigit(d) == c
  {
    if c <= '9' then c as nat - 48
    else if c >= 'a' then c as nat - 87
    else c as nat - 55
  }

  lemma DigitValueOfDigit(d: nat)
    requires d < 16
    ensures DigitValue(LowerDigit(d)) == d
    ensures DigitValue(UpperDigit(d)) == d
  {
  }

  function EncodeLower(ds: seq<nat>): (s: string)
    requires AllBelow(ds, 16)
    ensures |s| == |ds| && IsLowerHex(s)
  {
    seq(|ds|, i requires 0 <= i < |ds| => LowerDigit(ds[i]))
  }

  function EncodeUpper(ds: seq<nat>): (s: string)
    requires AllBelow(ds, 16)
    ensures |s| == |ds|
    ensures forall i :: 0 <= i < |s| ==> IsUpperHexDigit(s[i])
  {
    seq(|ds|, i requires 0 <= i < |ds| => UpperDigit(ds[i]))
  }

  function DecodeDigits(s: string): (ds: seq<nat>)
    requires IsHex(s)
    ensures |ds| == |s| && AllBelow(ds, 16)
  {
    seq(|s|, i requires 0 <= i < |s| => DigitValue(s[i]))
  }

  /** Decoding undoes either encoding, and encoding a lower-case numeral undoes decoding. */
  lemma DecodeEncode(ds: seq<nat>)
    requires AllBelow(ds, 16)
    ensures DecodeDigits(EncodeLower(ds)) == ds
    ensures DecodeDigits(EncodeUpper(ds)) == ds
  {
    forall i | 0 <= i < |ds| {
      DigitValueOfDigit(ds[i]);
    }
  }

  lemma EncodeDecode(s: string)
    requires IsLowerHex(s)
    ensures EncodeLower(DecodeDigits(s)) == s
  {
  }

  /** `%0<width>x`: `n` as exactly `width` lower-case digits. */
  function FormatPadded(n: nat, width: nat): string {
    EncodeLower(ToDigits(n, 16, width))
  }

  /** `%x`: `n` as lower-case digits without padding. */
  function FormatLower(n: nat): string {
    EncodeLower(MinimalDigits(n, 16))
  }

  /** `%X`: `n` as upper-case digits without padding. */
  function FormatUpper(n: nat): string {
    EncodeUpper(MinimalDigits(n, 16))
  }

  /** The value of a non-empty hexadecimal numeral of either case. */
  function ParseNumber(s: string): (r: Option<nat>)
    ensures r.Some? <==> 0 < |s| && IsHex(s)
    ensures r.Some? ==> r.value < Pow(16, |s|)
  {
    if 0 < |s| && IsHex(s) then
      FromDigitsBound(DecodeDigits(s), 16);
      Some(FromDigits(DecodeDigits(s), 16))
    else None
  }

  lemma {:induction false} ParseFormatPadded(n: nat, width: nat)
    requires 0 < width && n < Pow(16, width)
    ensures ParseNumber(FormatPadded(n, width)) == Some(n)
  {
    DecodeEncode(ToDigits(n, 16, width));
    FromToDigits(n, 16, width);
  }

  lemma {:induction false} ParseFormatLower(n: nat)
    ensures ParseNumber(FormatLower(n)) == Some(n)
  {
    DecodeEncode(MinimalDigits(n, 16));
  }

  lemma {:induction false} ParseFormatUpper(n: nat)
    ensures ParseNumber(FormatUpper(n)) == Some(n)
  {
    DecodeEncode(MinimalDigits(n, 16));
  }

  /** `%X` never pads: its first digit is `0` only when the whole numeral is "0". */
  lemma FormatUpperUnpadded(n: nat)
    ensures |FormatUpper(n)| >= 1
    ensures FormatUpper(n)[0] == '0' <==> n == 0
  {
    var ds := MinimalDigits(n, 16);
    if |ds| == 1 {
      assert FromDigits(ds, 16) == FromDigits([], 16) * 16 + ds[0];
    }
  }

  /** A byte as two lower-case digits. */
  function FormatByte(b: Byte): (s: string)
    ensures |s| == 2 && IsLowerHex(s)
  {
    FormatPadded(b, 2)
  }

  /** A byte string as lower-case hex, two digits per byte, no separators. */
  function FormatBytes(bs: seq<Byte>): (s: string)
    ensures |s| == 2 * |bs| && IsLowerHex(s)
  {
    seq(2 * |bs|, i requires 0 <= i < 2 * |bs| => FormatByte(bs[i / 2])[i % 2])
  }

  /** Formatting distributes over concatenation. */
  lemma FormatBytesConcat(a: seq<Byte>, b: seq<Byte>)
    ensures FormatBytes(a + b) == FormatBytes(a) + FormatBytes(b)
  {
    var l, r := FormatBytes(a + b), FormatBytes(a) + FormatBytes(b);
    forall i | 0 <= i < |l|
      ensures l[i] == r[i]
    {
      if i >= 2 * |a| {
        assert (a + b)[i / 2] == b[(i - 2 * |a|) / 2];
      }
    }
  }

  /** Formatting characterised digit by digit: the high nibble, then the low one. */
  lemma FormatBytesDigitwise(bs: seq<Byte>, s: string)
    requires |s| == 2 * |bs|
    requires forall i :: 0 <= i < |bs| ==>
      s[2 * i] == LowerDigit(bs[i] / 16) && s[2 * i + 1] == LowerDigit(bs[i] % 16)
    ensures FormatBytes(bs) == s
  {
    var t := FormatBytes(bs);
    forall k | 0 <= k < |s|
      ensures t[k] == s[k]
    {
      var i := k / 2;
      FormatByteDigits(bs[i]);
      assert k == 2 * i || k == 2 * i + 1;
    }
  }

  /** The bytes of an even-length hex string of either case. */
  function ParseBytes(s: string): (r: Option<seq<Byte>>)
    ensures r.Some? <==> |s| % 2 == 0 && IsHex(s)
    ensures r.Some? ==> 2 * |r.value| == |s|
  {
    if |s| % 2 == 0 && IsHex(s) then
      Some(seq(|s| / 2, i requires 0 <= i < |s| / 2 => DigitValue(s[2 * i]) * 16 + DigitValue(s[2 * i + 1])))
    else None
  }

  lemma FormatByteDigits(b: Byte)
    ensures FormatByte(b)[0] == LowerDigit(b / 16)
    ensures FormatByte(b)[1] == LowerDigit(b % 16)
  {
    assert ToDigits(b, 16, 2) == [b / 16 % 16, b % 16];
  }

  /** Parsing undoes formatting ... */
  lemma ParseFormatBytes(bs: seq<Byte>)
    ensures ParseBytes(FormatBytes(bs)) == Some(bs)
  {
    var r := ParseBytes(FormatBytes(bs)).value;
    forall i | 0 <= i < |bs|
      ensures r[i] == bs[i]
    {
      ParseFormatByteAt(bs, i);
    }
    assert r == bs;
  }

  /** The byte read at position `i` of a formatted byte string is the byte formatted there. */
  lemma ParseFormatByteAt(bs: seq<Byte>, i: nat)
    requires i < |bs|
    ensures ParseBytes(FormatBytes(bs)).Some? && |ParseBytes(FormatBytes(bs)).value| == |bs|
    ensures ParseBytes(FormatBytes(bs)).value[i] == bs[i]
  {
    var s := FormatBytes(bs);
    var hi, lo := bs[i] / 16, bs[i] % 16;
    FormatByteDigits(bs[i]);
    assert s[2 * i] == LowerDigit(hi) && s[2 * i + 1] == LowerDigit(lo);
    DigitValueOfDigit(hi);
    DigitValueOfDigit(lo);
    DivModIdentity(bs[i], 16);
  }

  /** ... and formatting undoes parsing of a lower-case string. */
  lemma FormatParseBytes(s: string)
    requires |s| % 2 == 0 && IsLowerHex(s)
    ensures FormatBytes(ParseBytes(s).value) == s
  {
    var bs := ParseBytes(s).value;
    var t := FormatBytes(bs);
    forall i | 0 <= i < |s|
      ensures t[i] == s[i]
    {
      var j := i / 2;
      var hi, lo := DigitValue(s[2 * j]), DigitValue(s[2 * j + 1]);
      DivModOfDigit(hi, lo, 16);
      FormatByteDigits(bs[j]);
    }
  }
}

=== FILE: json.dfy ===
/**
  Loosely typed JSON values: the payload of every `[k: string]: unknown`
  member of the schema, of open context and debug-image variants, and of
  `extra`, `data`, `env` and `params`.
 */
module Json {
  import opened Wrappers

  /** A JSON value. Objects keep their members in document order, duplicates included. */
  datatype Json =
    | Null
    | Bool(b: bool)
    | Number(n: int)
    | String(s: string)
    | Array(items: seq<Json>)
    | Object(members: seq<Member>)

  datatype Member = Member(key: string, value: Json)

  /** The open extension point `[k: string]: unknown` of a record: members outside the schema. */
  type Extra = map<string, Json>

  /** The value of the last member named `key` (JSON parsers keep the last duplicate). */
  function Lookup(members: seq<Member>, key: string): (r: Option<Json>)
    ensures r.Some? <==> exists i :: 0 <= i < |members| && members[i].key == key
    ensures r.Some? ==> exists i :: 0 <= i < |members| && members[i] == Member(key, r.value)
  {
    if |members| == 0 then None
    else
      var last := members[|members| - 1];
      if last.key == key then Some(last.value)
      else
        var r := Lookup(members[..|members| - 1], key);
        assert forall i :: 0 <= i < |members| - 1 ==> members[..|members| - 1][i] == members[i];
        r
  }

  /** The member `key` when it is present and a JSON string; anything else reads as absent. */
  function StringMember(members: seq<Member>, key: string): (r: Option<string>)
    ensures r.Some? ==> Lookup(members, key) == Some(String(r.value))
    ensures r.None? ==> Lookup(members, key).None? || !Lookup(members, key).value.String?
  {
    match Lookup(members, key)
    case Some(String(s)) => Some(s)
    case _ => None
  }
}

=== FILE: levels.dfy ===
/**
  The closed string enumerations of the schema: the severity `Level` of an
  event or breadcrumb and the `EventType`, with the defaults the schema states.
 */
module Levels {
  import opened Wrappers
  import opened Json
  import opened Errors

  datatype Level = Debug | Info | Warning | Error | Fatal

  /** The wire spelling of a level. */
  function LevelName(l: Level): string {
    match l
    case Debug => "debug"
    case Info => "info"
    case Warning => "warning"
    case Error => "error"
    case Fatal => "fatal"
  }

  /** The level a wire string names, if any; spelling is case-sensitive. */
  function ParseLevel(s: string): (r: Option<Level>)
    ensures r.Some? ==> LevelName(r.value) == s
    ensures r.None? ==> forall l :: LevelName(l) != s
  {
    if s == "debug" then Some(Debug)
    else if s == "info" then Some(Info)
    else if s == "warning" then Some(Warning)
    else if s == "error" then Some(Error)
    else if s == "fatal" then Some(Fatal)
    else None
  }

  lemma ParseLevelName(l: Level)
    ensures ParseLevel(LevelName(l)) == Some(l)
  {
  }

  /** An event without a level is an error. */
  const EventLevelDefault: Level := Error

  /** A breadcrumb without a level is informational. */
  const BreadcrumbLevelDefault: Level := Info

  datatype EventType = ErrorEvent | Csp | Hpkp | ExpectCt | ExpectStaple | Transaction | DefaultEvent

  function EventTypeName(t: EventType): string {
    match t
    case ErrorEvent => "error"
    case Csp => "csp"
    case Hpkp => "hpkp"
    case ExpectCt => "expectct"
    case ExpectStaple => "expectstaple"
    case Transaction => "transaction"
    case DefaultEvent => "default"
  }

  function ParseEventType(s: string): (r: Option<EventType>)
    ensures r.Some? ==> EventTypeName(r.value) == s
    ensures r.None? ==> forall t :: EventTypeName(t) != s
  {
    if s == "error" then Some(ErrorEvent)
    else if s == "csp" then Some(Csp)
    else if s == "hpkp" then Some(Hpkp)
    else if s == "expectct" then Some(ExpectCt)
    else if s == "expectstaple" then Some(ExpectStaple)
    else if s == "transaction" then Some(Transaction)
    else if s == "default" then Some(DefaultEvent)
    else None
  }

  lemma ParseEventTypeName(t: EventType)
    ensures ParseEventType(EventTypeName(t)) == Some(t)
  {
  }

  /** Reads the `level` member of a record: the named level, or `default` when it is
      absent; an unknown spelling is replaced by the default and recorded. */
  function NormalizeLevel(raw: Option<string>, default: Level): (r: (Level, seq<ProcessingError>))
    ensures raw.None? ==> r == (default, [])
    ensures raw.Some? && ParseLevel(raw.value).Some? ==> LevelName(r.0) == raw.value && r.1 == []
    ensures raw.Some? && ParseLevel(raw.value).None? ==>
      r.0 == default && r.1 == [At("level", InvalidValue, Some(String(raw.value)))]
  {
    match raw
    case None => (default, [])
    case Some(s) =>
      match ParseLevel(s)
      case Some(l) => (l, [])
      case None => (default, [At("level", InvalidValue, Some(String(s)))])
  }

  /** Reads the event `type`: a known type is kept; an unknown spelling is dropped and recorded. */
  function NormalizeEventType(raw: Option<string>): (r: (Option<EventType>, seq<ProcessingError>))
    ensures r.0.Some? <==> raw.Some? && ParseEventType(raw.value).Some?
    ensures r.0.Some? ==> EventTypeName(r.0.value) == raw.value
    ensures r.1 != [] <==> raw.Some? && r.0.None?
  {
    match raw
    case None => (None, [])
    case Some(s) =>
      match ParseEventType(s)
      case Some(t) => (Some(t), [])
      case None => (None, [At("type", InvalidValue, Some(String(s)))])
  }
}

=== FILE: log_entries.dfy ===
/**
 * Log entries (`logentry`): a message template, its formatted rendering and
 * its parameters. Both texts are capped at 8192 characters; a longer text is
 * cut to the cap and the cut is recorded.
 */
module LogEntries {
  import opened Wrappers
  import opened Json
  import opened Errors
  import Text

  const MessageCap: nat := 8192

  datatype LogEntry = LogEntry(
    formatted: Option<string>,
    message: Option<string>,
    params: Option<Json>,
    extra: Extra)

  predicate FitsCap(s: Option<string>) {
    s.None? || |s.value| <= MessageCap
  }

  predicate WithinCaps(e: LogEntry) {
    FitsCap(e.formatted) && FitsCap(e.message)
  }

  /** One capped text member: the kept prefix and the error for a cut. */
  function CapText(name: string, s: Option<string>): (r: (Option<string>, seq<ProcessingError>))
    ensures r.0.Some? <==> s.Some?
    ensures FitsCap(r.0)
    ensures s.Some? ==> r.0.value <= s.value
    ensures FitsCap(s) ==> r.0 == s && r.1 == []
    ensures !FitsCap(s) ==> |r.0.value| == MessageCap && r.1 == [At(name, ValueTooLong, None)]
  {
    match s
    case None => (None, [])
    case Some(t) =>
      var cut := Text.Truncate(t, MessageCap);
      (Some(cut), if |t| <= MessageCap then [] else [At(name, ValueTooLong, None)])
  }

  /**
   * Caps `formatted` and `message`; `params` and the other members are kept.
   * An error is reported exactly when a text was cut.
   */
  function NormalizeLogEntry(e: LogEntry): (r: (LogEntry, seq<ProcessingError>))
    ensures WithinCaps(r.0)
    ensures r.0.params == e.params && r.0.extra == e.extra
    ensures e.formatted.Some? ==> r.0.formatted.Some? && r.0.formatted.value <= e.formatted.value
    ensures e.message.Some? ==> r.0.message.Some? && r.0.message.value <= e.message.value
    ensures e.formatted.None? ==> r.0.formatted.None?
    ensures e.message.None? ==> r.0.message.None?
    ensures r.1 == [] <==> WithinCaps(e)
    ensures WithinCaps(e) ==> r.0 == e
    ensures forall x :: x in r.1 ==> x.kind == ValueTooLong
  {
    var f := CapText("formatted", e.formatted);
    var m := CapText("message", e.message);
    (LogEntry(f.0, m.0, e.params, e.extra), f.1 + m.1)
  }

  /** Normalising a normalised entry changes nothing and reports nothing. */
  lemma NormalizeLogEntryIdempotent(e: LogEntry)
    ensures NormalizeLogEntry(NormalizeLogEntry(e).0) == (NormalizeLogEntry(e).0, [])
  {
  }

  /** A 8193-character message loses exactly its last character. */
  lemma ExampleCutByOne(s: string, c: char)
    requires |s| == MessageCap
    ensures NormalizeLogEntry(LogEntry(None, Some(s + [c]), None, map[])).0.message == Some(s)
  {
    assert (s + [c])[..MessageCap] == s;
  }
}

=== FILE: numerals.dfy ===
/**
  Positional numerals over an arbitrary base, most significant digit first.
  The hexadecimal and decimal renderings of the schema (`%08x`, `%X`, the
  digit fields of an RFC 3339 timestamp, numeric thread ids) are all built on
  these two directions and the round trips proved here.
 */
module Numerals {

  function Pow(base: nat, e: nat): nat {
    if e == 0 then 1 else base * Pow(base, e - 1)
  }

  /** Every digit of `ds` is a digit of `base`. */
  predicate AllBelow(ds: seq<nat>, base: nat) {
    forall i :: 0 <= i < |ds| ==> ds[i] < base
  }

  /** The value denoted by the digit sequence `ds`. */
  function FromDigits(ds: seq<nat>, base: nat): nat {
    if |ds| == 0 then 0 else FromDigits(ds[..|ds| - 1], base) * base + ds[|ds| - 1]
  }

  /** The `width` least significant digits of `n`, zero-padded on the left. */
  function ToDigits(n: nat, base: nat, width: nat): (ds: seq<nat>)
    requires base >= 2
    ensures |ds| == width
    ensures AllBelow(ds, base)
  {
    if width == 0 then [] else ToDigits(n / base, base, width - 1) + [n % base]
  }

  /** The shortest rendering of `n`: no leading zero except for `n == 0` itself. */
  function MinimalDigits(n: nat, base: nat): (ds: seq<nat>)
    requires base >= 2
    ensures 1 <= |ds|
    ensures AllBelow(ds, base)
    ensures FromDigits(ds, base) == n
    ensures |ds| > 1 ==> ds[0] != 0
  {
    if n < base then [n]
    else
      var hi := MinimalDigits(n / base, base);
      AppendLowDigit(n, base, hi);
      hi + [n % base]
  }

  /** Appending the low digit of `n` to a minimal rendering of `n / base` renders `n` minimally. */
  lemma AppendLowDigit(n: nat, base: nat, hi: seq<nat>)
    requires base >= 2 && n >= base
    requires 1 <= |hi| && AllBelow(hi, base) && FromDigits(hi, base) == n / base
    requires |hi| > 1 ==> hi[0] != 0
    ensures var ds := hi + [n % base];
      AllBelow(ds, base) && FromDigits(ds, base) == n && ds[0] != 0
  {
    var ds := hi + [n % base];
    assert ds[..|ds| - 1] == hi;
    DivModIdentity(n, base);
    if |hi| == 1 {
      assert n / base >= 1;
    }
  }

  lemma DivModIdentity(n: nat, base: nat)
    requires base >= 1
    ensures n == (n / base) * base + n % base
  {
  }

  /** Splitting `q * base + r` with a digit `r` gives back `q` and `r`. */
  lemma DivModOfDigit(q: nat, r: nat, base: nat)
    requires r < base
    ensures (q * base + r) / base == q
    ensures (q * base + r) % base == r
  {
    var n := q * base + r;
    var q', r' := n / base, n % base;
    DivModIdentity(n, base);
    if q' < q {
      MulMono(q' + 1, q, base);
      assert false;
    }
    if q' > q {
      MulMono(q + 1, q', base);
      assert false;
    }
  }

  lemma MulMono(a: nat, b: nat, c: nat)
    requires a <= b
    ensures a * c <= b * c
  {
  }

  /** A value below `base^width` fits in `width` digits. */
  lemma FromToDigits(n: nat, base: nat, width: nat)
    requires base >= 2
    requires n < Pow(base, width)
    ensures FromDigits(ToDigits(n, base, width), base) == n
    decreases width
  {
    if width > 0 {
      var ds := ToDigits(n, base, width);
      assert ds[..|ds| - 1] == ToDigits(n / base, base, width - 1);
      DivModIdentity(n, base);
      if n / base >= Pow(base, width - 1) {
        MulMono(Pow(base, width - 1), n / base, base);
        assert false;
      }
      FromToDigits(n / base, base, width - 1);
    }
  }

  /** Rendering the value of a digit sequence gives the sequence back. */
  lemma {:induction false} ToFromDigits(ds: seq<nat>, base: nat)
    requires base >= 2
    requires AllBelow(ds, base)
    ensures ToDigits(FromDigits(ds, base), base, |ds|) == ds
  {
    if |ds| > 0 {
      var init := ds[..|ds| - 1];
      ToFromDigits(init, base);
      DivModOfDigit(FromDigits(init, base), ds[|ds| - 1], base);
      assert ds == init + [ds[|ds| - 1]];
    }
  }

  /** A digit sequence of length `width` denotes a value below `base^width`. */
  lemma {:induction false} FromDigitsBound(ds: seq<nat>, base: nat)
    requires base >= 2
    requires AllBelow(ds, base)
    ensures FromDigits(ds, base) < Pow(base, |ds|)
  {
    if |ds| > 0 {
      var init := ds[..|ds| - 1];
      FromDigitsBound(init, base);
      var v := FromDigits(init, base);
      MulMono(v + 1, Pow(base, |init|), base);
      assert FromDigits(ds, base) == v * base + ds[|ds| - 1];
      assert FromDigits(ds, base) < (v + 1) * base;
    }
  }

  /** A numeral without a leading zero is at least its leading digit, so it is positive
      whenever it has more than one digit. */
  lemma {:induction false} FromDigitsAtLeastLead(ds: seq<nat>, base: nat)
    requires base >= 2
    requires |ds| >= 1
    ensures FromDigits(ds, base) >= ds[0]
  {
    if |ds| > 1 {
      var init := ds[..|ds| - 1];
      FromDigitsAtLeastLead(init, base);
      MulMono(1, base, FromDigits(init, base));
    }
  }

  /** The minimal rendering is the only rendering without a leading zero. */
  lemma {:induction false} MinimalDigitsUnique(ds: seq<nat>, base: nat)
    requires base >= 2
    requires 1 <= |ds| && AllBelow(ds, base)
    requires |ds| > 1 ==> ds[0] != 0
    ensures MinimalDigits(FromDigits(ds, base), base) == ds
  {
    var n := FromDigits(ds, base);
    var init := ds[..|ds| - 1];
    var last := ds[|ds| - 1];
    DivModOfDigit(FromDigits(init, base), last, base);
    if |ds| == 1 {
      assert init == [];
    } else {
      FromDigitsAtLeastLead(init, base);
      assert n >= base by { MulMono(1, FromDigits(init, base), base); }
      MinimalDigitsUnique(init, base);
      assert ds == init + [last];
    }
  }
}

=== FILE: ordered_maps.dfy ===
/**
 * Ordered maps: the key/value collections (tags, headers, cookies, query
 * strings) that the wire format accepts either as a JSON object or as a
 * list of `[key, value]` tuples. Both forms canonicalise to one sequence of
 * pairs in document order.
 */
module OrderedMaps {
  import opened Wrappers
  import opened Seqs

  /** One canonical entry; the value may be null. */
  datatype Pair = Pair(key: string, value: Option<string>)

  /** One element of the tuple-list form, `[key | null, value | null] | null`. */
  datatype Entry = Entry(key: Option<string>, value: Option<string>)

  /** The two structured wire forms. */
  datatype RawPairs =
    | ObjectForm(members: seq<Pair>)
    | ListForm(entries: seq<Option<Entry>>)

  /** Fields that also accept the unparsed string form (cookies, query string). */
  datatype RawPairsOrText =
    | Structured(pairs: RawPairs)
    | Unparsed(text: string)

  datatype PairsOrText =
    | Parsed(pairs: seq<Pair>)
    | Kept(text: string)

  predicate HasKey(ps: seq<Pair>, k: string) {
    exists i :: 0 <= i < |ps| && ps[i].key == k
  }

  predicate DistinctKeys(ps: seq<Pair>) {
    forall i, j :: 0 <= i < j < |ps| ==> ps[i].key != ps[j].key
  }

  /**
   * The value an object assigns to `k`: that of its last member named `k`,
   * or None when no member has that name. This is the JSON object meaning
   * with the last duplicate winning.
   */
  function LastValue(ps: seq<Pair>, k: string): (r: Option<Option<string>>)
    ensures r.Some? <==> HasKey(ps, k)
  {
    if |ps| == 0 then None
    else if ps[|ps| - 1].key == k then Some(ps[|ps| - 1].value)
    else
      var r := LastValue(ps[..|ps| - 1], k);
      assert HasKey(ps, k) ==> HasKey(ps[..|ps| - 1], k) by {
        if HasKey(ps, k) {
          var i :| 0 <= i < |ps| && ps[i].key == k;
          assert ps[..|ps| - 1][i].key == k;
        }
      }
      r
  }

  /**
   * The object form with duplicate keys resolved: each key keeps only its
   * last member, at the position of that member.
   */
  function LastWins(ps: seq<Pair>): (r: seq<Pair>)
    ensures |r| <= |ps|
  {
    if |ps| == 0 then []
    else if HasKey(ps[1..], ps[0].key) then LastWins(ps[1..])
    else [ps[0]] + LastWins(ps[1..])
  }

  /** How LastValue looks from the front of the sequence. */
  lemma {:induction false} LastValueFront(ps: seq<Pair>, k: string)
    requires |ps| > 0
    ensures LastValue(ps, k) ==
      if HasKey(ps[1..], k) then LastValue(ps[1..], k)
      else if ps[0].key == k then Some(ps[0].value)
      else None
  {
    if |ps| > 1 {
      var init := ps[..|ps| - 1];
      assert init[1..] == ps[1..][..|ps[1..]| - 1];
      if ps[|ps| - 1].key != k {
        LastValueFront(init, k);
        assert HasKey(ps[1..], k) <==> HasKey(init[1..], k) by {
          if HasKey(ps[1..], k) {
            var i :| 0 <= i < |ps[1..]| && ps[1..][i].key == k;
            assert init[1..][i].key == k;
          }
          if HasKey(init[1..], k) {
            var i :| 0 <= i < |init[1..]| && init[1..][i].key == k;
            assert ps[1..][i].key == k;
          }
        }
      } else {
        assert ps[1..][|ps[1..]| - 1].key == k;
      }
    }
  }

  lemma {:induction false} LastWinsKeys(ps: seq<Pair>, k: string)
    ensures HasKey(LastWins(ps), k) <==> HasKey(ps, k)
  {
    if |ps| > 0 {
      LastWinsKeys(ps[1..], k);
      var rest := LastWins(ps[1..]);
      if HasKey(ps, k) && !HasKey(ps[1..], k) {
        assert ps[0].key == k by {
          forall j | 1 <= j < |ps|
            ensures ps[j].key != k
          {
            assert ps[1..][j - 1] == ps[j];
          }
        }
        assert !HasKey(ps[1..], ps[0].key);
        assert LastWins(ps)[0].key == k;
      }
      if HasKey(ps[1..], k) {
        var i :| 0 <= i < |ps[1..]| && ps[1..][i].key == k;
        assert ps[i + 1].key == k;
        if !HasKey(ps[1..], ps[0].key) {
          var j :| 0 <= j < |rest| && rest[j].key == k;
          assert LastWins(ps)[j + 1].key == k;
        }
      }
      if HasKey(LastWins(ps), k) && !HasKey(ps[1..], ps[0].key) {
        var j :| 0 <= j < |LastWins(ps)| && LastWins(ps)[j].key == k;
        if j > 0 { assert rest[j - 1].key == k; }
      }
    }
  }

  /** The canonical object form never repeats a key. */
  lemma {:induction false} LastWinsDistinct(ps: seq<Pair>)
    ensures DistinctKeys(LastWins(ps))
  {
    if |ps| > 0 {
      LastWinsDistinct(ps[1..]);
      if !HasKey(ps[1..], ps[0].key) {
        var rest := LastWins(ps[1..]);
        LastWinsKeys(ps[1..], ps[0].key);
        var r := LastWins(ps);
        forall i, j | 0 <= i < j < |r|
          ensures r[i].key != r[j].key
        {
          if i == 0 {
            assert r[j] == rest[j - 1];
          } else {
            assert r[i] == rest[i - 1] && r[j] == rest[j - 1];
          }
        }
      }
    }
  }

  /** The canonical object form keeps members in their original order. */
  lemma {:induction false} LastWinsOrdered(ps: seq<Pair>)
    ensures IsSubsequence(LastWins(ps), ps)
  {
    if |ps| > 0 {
      LastWinsOrdered(ps[1..]);
      assert [ps[0]] + ps[1..] == ps;
      if HasKey(ps[1..], ps[0].key) {
        SubsequenceSkip(LastWins(ps[1..]), ps[0], ps[1..]);
      } else {
        SubsequenceKeep(LastWins(ps[1..]), ps[0], ps[1..]);
      }
    }
  }

  /** Every key keeps the value its last occurrence gave it. */
  lemma {:induction false} LastWinsMeaning(ps: seq<Pair>, k: string)
    ensures LastValue(LastWins(ps), k) == LastValue(ps, k)
  {
    if |ps| > 0 {
      LastWinsMeaning(ps[1..], k);
      LastValueFront(ps, k);
      var rest := LastWins(ps[1..]);
      if !HasKey(ps[1..], ps[0].key) {
        assert ([ps[0]] + rest)[1..] == rest;
        LastValueFront([ps[0]] + rest, k);
        LastWinsKeys(ps[1..], k);
      }
    }
  }

  /** An object whose keys are already distinct is canonical as it stands. */
  lemma {:induction false} LastWinsIdentity(ps: seq<Pair>)
    requires DistinctKeys(ps)
    ensures LastWins(ps) == ps
  {
    if |ps| > 0 {
      assert !HasKey(ps[1..], ps[0].key) by {
        forall i | 0 <= i < |ps[1..]|
          ensures ps[1..][i].key != ps[0].key
        {
          assert ps[1..][i] == ps[i + 1];
        }
      }
      assert DistinctKeys(ps[1..]) by {
        forall i, j | 0 <= i < j < |ps[1..]|
          ensures ps[1..][i].key != ps[1..][j].key
        {
          assert ps[1..][i] == ps[i + 1] && ps[1..][j] == ps[j + 1];
        }
      }
      LastWinsIdentity(ps[1..]);
      assert [ps[0]] + ps[1..] == ps;
    }
  }

  predicate WellFormedEntry(e: Option<Entry>) {
    e.Some? && e.value.key.Some?
  }

  /** The list form with null tuples and null keys skipped; order and duplicates kept. */
  function FromList(es: seq<Option<Entry>>): (r: seq<Pair>)
    ensures |r| <= |es|
  {
    if |es| == 0 then []
    else
      var rest := FromList(es[1..]);
      if WellFormedEntry(es[0]) then [Pair(es[0].value.key.value, es[0].value.value)] + rest
      else rest
  }

  /** Canonicalising the list form splits over concatenation, so it never reorders. */
  lemma {:induction false} FromListConcat(a: seq<Option<Entry>>, b: seq<Option<Entry>>)
    ensures FromList(a + b) == FromList(a) + FromList(b)
  {
    if |a| > 0 {
      assert (a + b)[1..] == a[1..] + b;
      FromListConcat(a[1..], b);
    } else {
      assert a + b == b;
    }
  }

  /** When every tuple is present and keyed, the list form is kept entry for entry. */
  lemma {:induction false} FromListExact(es: seq<Option<Entry>>)
    requires forall i :: 0 <= i < |es| ==> WellFormedEntry(es[i])
    ensures |FromList(es)| == |es|
    ensures forall i :: 0 <= i < |es| ==>
      WellFormedEntry(es[i]) && FromList(es)[i] == Pair(es[i].value.key.value, es[i].value.value)
  {
    if |es| > 0 {
      FromListExact(es[1..]);
    }
  }

  /** A null tuple or a tuple with a null key contributes nothing. */
  lemma FromListSkipsMalformed(e: Option<Entry>, es: seq<Option<Entry>>)
    requires !WellFormedEntry(e)
    ensures FromList([e] + es) == FromList(es)
  {
    assert ([e] + es)[1..] == es;
  }

  /** The tuple-list form of a sequence of pairs. */
  function ToList(ps: seq<Pair>): (r: seq<Option<Entry>>)
    ensures |r| == |ps|
    ensures forall i :: 0 <= i < |ps| ==> r[i] == Some(Entry(Some(ps[i].key), ps[i].value))
  {
    seq(|ps|, i requires 0 <= i < |ps| => Some(Entry(Some(ps[i].key), ps[i].value)))
  }

  lemma FromToList(ps: seq<Pair>)
    ensures FromList(ToList(ps)) == ps
  {
    FromListExact(ToList(ps));
  }

  /** The canonical form of either structured representation. */
  function Canonical(raw: RawPairs): (r: seq<Pair>)
    ensures raw.ObjectForm? ==> DistinctKeys(r)
  {
    match raw
    case ObjectForm(ps) => LastWinsDistinct(ps); LastWins(ps)
    case ListForm(es) => FromList(es)
  }

  /** Object and tuple forms of the same distinct-keyed pairs canonicalise alike. */
  lemma FormsAgree(ps: seq<Pair>)
    requires DistinctKeys(ps)
    ensures Canonical(ObjectForm(ps)) == Canonical(ListForm(ToList(ps))) == ps
  {
    LastWinsIdentity(ps);
    FromToList(ps);
  }

  /** The unparsed string form is kept verbatim; parsing it is not modelled. */
  function CanonicalOrText(raw: RawPairsOrText): (r: PairsOrText)
    ensures raw.Unparsed? <==> r.Kept?
    ensures raw.Unparsed? ==> r.text == raw.text
    ensures raw.Structured? ==> r.pairs == Canonical(raw.pairs)
  {
    match raw
    case Structured(p) => Parsed(Canonical(p))
    case Unparsed(t) => Kept(t)
  }

  /** The repeated header of the request example survives in the tuple form. */
  lemma ExampleRepeatedHeader()
    ensures
      var es := [Some(Entry(Some("content-type"), Some("application/json"))),
                 Some(Entry(Some("accept"), Some("application/json"))),
                 Some(Entry(Some("accept"), Some("application/xml")))];
      Canonical(ListForm(es)) ==
        [Pair("content-type", Some("application/json")),
         Pair("accept", Some("application/json")),
         Pair("accept", Some("application/xml"))]
  {
    var es := [Some(Entry(Some("content-type"), Some("application/json"))),
               Some(Entry(Some("accept"), Some("application/json"))),
               Some(Entry(Some("accept"), Some("application/xml")))];
    FromListExact(es);
  }

  /** In the object form a repeated key keeps its last value only. */
  lemma ExampleObjectDuplicate()
    ensures
      var ps := [Pair("accept", Some("application/json")),
                 Pair("content-type", Some("text/html")),
                 Pair("accept", Some("application/xml"))];
      Canonical(ObjectForm(ps)) ==
        [Pair("content-type", Some("text/html")), Pair("accept", Some("application/xml"))]
  {
    var ps := [Pair("accept", Some("application/json")),
               Pair("content-type", Some("text/html")),
               Pair("accept", Some("application/xml"))];
    assert ps[1..][1].key == "accept";
    assert HasKey(ps[1..], "accept");
    assert ps[1..][1..] == [ps[2]];
    assert !HasKey(ps[1..][1..], "content-type") by {
      assert "content-type" != "accept" by { assert "content-type"[0] != "accept"[0]; }
    }
    assert LastWins(ps[1..][1..]) == [ps[2]];
  }
}

=== FILE: requests.dfy ===
/**
 * The HTTP request interface. Cookies, headers and the query string are
 * ordered maps; cookies and the query string may also arrive as one
 * unparsed string, which is kept verbatim.
 */
module Requests {
  import opened Wrappers
  import opened Json
  import opened OrderedMaps

  datatype Request = Request(
    cookies: Option<PairsOrText>,
    data: Option<Json>,
    env: Option<Extra>,
    fragment: Option<string>,
    headers: Option<seq<Pair>>,
    inferredContentType: Option<string>,
    httpMethod: Option<string>,
    queryString: Option<PairsOrText>,
    url: Option<string>,
    extra: Extra)

  /** A request as sent: each ordered map in whichever form the client chose. */
  datatype RawRequest = RawRequest(
    cookies: Option<RawPairsOrText>,
    data: Option<Json>,
    env: Option<Extra>,
    fragment: Option<string>,
    headers: Option<RawPairs>,
    inferredContentType: Option<string>,
    httpMethod: Option<string>,
    queryString: Option<RawPairsOrText>,
    url: Option<string>,
    extra: Extra)

  function CanonicalField(raw: Option<RawPairsOrText>): (r: Option<PairsOrText>)
    ensures r.Some? <==> raw.Some?
    ensures raw.Some? && raw.value.Unparsed? ==> r == Some(Kept(raw.value.text))
    ensures raw.Some? && raw.value.Structured? ==> r == Some(Parsed(Canonical(raw.value.pairs)))
  {
    match raw
    case None => None
    case Some(x) => Some(CanonicalOrText(x))
  }

  /**
   * Canonicalises the three ordered maps; every other member is kept as
   * sent. Header names keep their case and repeated headers are not merged.
   */
  function NormalizeRequest(raw: RawRequest): (r: Request)
    ensures r.headers.Some? <==> raw.headers.Some?
    ensures raw.headers.Some? ==> r.headers.value == Canonical(raw.headers.value)
    ensures r.cookies == CanonicalField(raw.cookies)
    ensures r.queryString == CanonicalField(raw.queryString)
    ensures r.data == raw.data && r.env == raw.env && r.fragment == raw.fragment
    ensures r.inferredContentType == raw.inferredContentType && r.httpMethod == raw.httpMethod
    ensures r.url == raw.url && r.extra == raw.extra
  {
    Request(
      CanonicalField(raw.cookies), raw.data, raw.env, raw.fragment,
      match raw.headers case Some(h) => Some(Canonical(h)) case None => None,
      raw.inferredContentType, raw.httpMethod, CanonicalField(raw.queryString), raw.url, raw.extra)
  }

  function ListFormOf(f: PairsOrText): RawPairsOrText {
    match f
    case Parsed(ps) => Structured(ListForm(ToList(ps)))
    case Kept(t) => Unparsed(t)
  }

  /** A normalised request written back with every ordered map in tuple form. */
  function ToWire(r: Request): RawRequest {
    RawRequest(
      match r.cookies case Some(c) => Some(ListFormOf(c)) case None => None,
      r.data, r.env, r.fragment,
      match r.headers case Some(h) => Some(ListForm(ToList(h))) case None => None,
      r.inferredContentType, r.httpMethod,
      match r.queryString case Some(q) => Some(ListFormOf(q)) case None => None,
      r.url, r.extra)
  }

  /** Every normalised request is reproduced from its tuple-form wire rendering. */
  lemma NormalizeToWire(r: Request)
    ensures NormalizeRequest(ToWire(r)) == r
  {
    if r.headers.Some? { FromToList(r.headers.value); }
    if r.cookies.Some? && r.cookies.value.Parsed? { FromToList(r.cookies.value.pairs); }
    if r.queryString.Some? && r.queryString.value.Parsed? { FromToList(r.queryString.value.pairs); }
  }

  /** Normalisation is idempotent through the wire rendering. */
  lemma NormalizeRequestIdempotent(raw: RawRequest)
    ensures NormalizeRequest(ToWire(NormalizeRequest(raw))) == NormalizeRequest(raw)
  {
    NormalizeToWire(NormalizeRequest(raw));
  }

  /** Headers with distinct names mean the same in object and tuple form. */
  lemma HeaderFormsAgree(raw: RawRequest, ps: seq<Pair>)
    requires DistinctKeys(ps)
    ensures NormalizeRequest(raw.(headers := Some(ObjectForm(ps)))) ==
            NormalizeRequest(raw.(headers := Some(ListForm(ToList(ps)))))
  {
    FormsAgree(ps);
  }

  /** The cookie string of the request example is kept as it was sent. */
  lemma ExampleCookieString()
    ensures
      var text := "PHPSESSID=298zf09hf012fh2; csrftoken=u32t4o3tb3gg43; _gat=1;";
      var raw := RawRequest(Some(Unparsed(text)), None, None, None, None, None, Some("POST"), None, Some("http://absolute.uri/foo"), map[]);
      NormalizeRequest(raw).cookies == Some(Kept(text))
  {
  }
}

=== FILE: seqs.dfy ===
/** Order-preserving selection from a sequence. */
module Seqs {
  import opened Wrappers

  /** `a` is `b` with some elements removed and the rest in their original order. */
  predicate IsSubsequence<T(==)>(a: seq<T>, b: seq<T>)
    decreases |b|
  {
    if |a| == 0 then true
    else if |b| == 0 then false
    else if a[0] == b[0] then IsSubsequence(a[1..], b[1..])
    else IsSubsequence(a, b[1..])
  }

  lemma {:induction false} SubsequenceElements<T>(a: seq<T>, b: seq<T>)
    requires IsSubsequence(a, b)
    ensures |a| <= |b|
    ensures forall x :: x in a ==> x in b
    decreases |b|
  {
    if |a| > 0 && |b| > 0 {
      if a[0] == b[0] {
        SubsequenceElements(a[1..], b[1..]);
        assert forall x :: x in a ==> x == a[0] || x in a[1..];
      } else {
        SubsequenceElements(a, b[1..]);
      }
    }
  }

  lemma {:induction false} SubsequenceRefl<T>(a: seq<T>)
    ensures IsSubsequence(a, a)
  {
    if |a| > 0 {
      SubsequenceRefl(a[1..]);
    }
  }

  /** Dropping the first element of the larger sequence after a miss keeps the relation. */
  lemma {:induction false} SubsequenceSkip<T>(a: seq<T>, x: T, b: seq<T>)
    requires IsSubsequence(a, b)
    ensures IsSubsequence(a, [x] + b)
    decreases |b|, 1
  {
    if |a| > 0 && a[0] == x {
      assert ([x] + b)[1..] == b;
      SubsequenceDropFirst(a, b);
    } else {
      assert ([x] + b)[1..] == b;
    }
  }

  lemma {:induction false} SubsequenceDropFirst<T>(a: seq<T>, b: seq<T>)
    requires |a| > 0 && IsSubsequence(a, b)
    ensures IsSubsequence(a[1..], b)
    decreases |b|, 0
  {
    if |b| > 0 {
      if a[0] == b[0] {
        SubsequenceSkip(a[1..], b[0], b[1..]);
        assert [b[0]] + b[1..] == b;
      } else {
        SubsequenceDropFirst(a, b[1..]);
        SubsequenceSkip(a[1..], b[0], b[1..]);
        assert [b[0]] + b[1..] == b;
      }
    }
  }

  /** Keeping the first element on both sides keeps the relation. */
  lemma SubsequenceKeep<T>(a: seq<T>, x: T, b: seq<T>)
    requires IsSubsequence(a, b)
    ensures IsSubsequence([x] + a, [x] + b)
  {
    assert ([x] + a)[1..] == a;
    assert ([x] + b)[1..] == b;
  }

  /** The present elements of a list with null entries, in order. */
  function Somes<T(!new)>(xs: seq<Option<T>>): (r: seq<T>)
    ensures |r| <= |xs|
    ensures forall x :: x in r <==> Some(x) in xs
  {
    if |xs| == 0 then []
    else
      var rest := Somes(xs[1..]);
      assert forall o :: o in xs <==> o == xs[0] || o in xs[1..];
      if xs[0].Some? then [xs[0].value] + rest else rest
  }

  /** Joining is associative; stated once here so that it is proved for any element type. */
  lemma ConcatAssoc<T>(p: seq<T>, q: seq<T>, r: seq<T>)
    ensures p + (q + r) == (p + q) + r
  {
  }

  /** Dropping nulls splits over concatenation, so it keeps the relative order. */
  lemma {:induction false} SomesConcat<T(!new)>(a: seq<Option<T>>, b: seq<Option<T>>)
    ensures Somes(a + b) == Somes(a) + Somes(b)
  {
    if |a| == 0 {
      assert a + b == b;
    } else {
      assert (a + b)[1..] == a[1..] + b;
      SomesConcat(a[1..], b);
    }
  }

  /** A list without nulls loses nothing. */
  lemma {:induction false} SomesAllPresent<T(!new)>(xs: seq<Option<T>>)
    requires forall i :: 0 <= i < |xs| ==> xs[i].Some?
    ensures |Somes(xs)| == |xs|
    ensures forall i :: 0 <= i < |xs| ==> Somes(xs)[i] == xs[i].value
  {
    if |xs| > 0 {
      SomesAllPresent(xs[1..]);
    }
  }
}

=== FILE: stacktraces.dfy ===
/**
 * Stack traces and their frames. Frames are listed from the oldest call to
 * the youngest; a frame should name at least its file, its function or its
 * instruction address.
 */
module Stacktraces {
  import opened Wrappers
  import opened Json
  import opened Errors
  import opened Seqs
  import Text

  /** A stack frame; every member is optional. */
  datatype Frame = Frame(
    absPath: Option<string>,
    addrMode: Option<string>,
    colno: Option<int>,
    contextLine: Option<string>,
    filename: Option<string>,
    functionName: Option<string>,
    imageAddr: Option<string>,
    inApp: Option<bool>,
    instructionAddr: Option<string>,
    lineno: Option<int>,
    moduleName: Option<string>,
    package: Option<string>,
    platform: Option<string>,
    postContext: Option<seq<Option<string>>>,
    preContext: Option<seq<Option<string>>>,
    rawFunction: Option<string>,
    symbol: Option<string>,
    symbolAddr: Option<string>,
    vars: Option<Extra>,
    extra: Extra)

  /** `raw_function` is capped at this many characters. */
  const RawFunctionCap: nat := 256

  /** The soft location rule: a frame names its file, its function or its instruction address. */
  predicate HasLocation(f: Frame) {
    f.filename.Some? || f.functionName.Some? || f.instructionAddr.Some?
  }

  predicate FrameWithinCaps(f: Frame) {
    f.rawFunction.Some? ==> |f.rawFunction.value| <= RawFunctionCap
  }

  /** A frame that breaks no rule: within its caps and with a location. */
  predicate CleanFrame(f: Frame) {
    FrameWithinCaps(f) && HasLocation(f)
  }

  /**
   * Normalises one frame: caps `raw_function` (recording the cut) and
   * annotates a frame without a location. Nothing else changes.
   */
  function NormalizeFrame(f: Frame): (r: (Frame, seq<ProcessingError>))
    ensures FrameWithinCaps(r.0)
    ensures r.0 == f.(rawFunction := r.0.rawFunction)
    ensures f.rawFunction.Some? <==> r.0.rawFunction.Some?
    ensures f.rawFunction.Some? ==> r.0.rawFunction.value <= f.rawFunction.value
    ensures FrameWithinCaps(f) ==> r.0 == f
    ensures r.1 == [] <==> CleanFrame(f)
    ensures forall e :: e in r.1 ==> (e.kind == ValueTooLong || e.kind == MissingLocation)
    ensures (exists e :: e in r.1 && e.kind == ValueTooLong) <==> !FrameWithinCaps(f)
    ensures (exists e :: e in r.1 && e.kind == MissingLocation) <==> !HasLocation(f)
    ensures HasLocation(r.0) <==> HasLocation(f)
  {
    var cut := if FrameWithinCaps(f) then []
      else [At("raw_function", ValueTooLong, Some(String(f.rawFunction.value)))];
    var located := if HasLocation(f) then [] else [ProcessingError([], MissingLocation, None)];
    var raw := match f.rawFunction
      case Some(s) => Some(Text.Truncate(s, RawFunctionCap))
      case None => None;
    assert cut != [] ==> cut[0] in cut + located;
    assert located != [] ==> located[0] in cut + located;
    (f.(rawFunction := raw), cut + located)
  }

  /** Normalising a normalised frame changes nothing and adds no cut. */
  lemma NormalizeFrameIdempotent(f: Frame)
    ensures NormalizeFrame(NormalizeFrame(f).0).0 == NormalizeFrame(f).0
    ensures forall e :: e in NormalizeFrame(NormalizeFrame(f).0).1 ==> e.kind == MissingLocation
  {
  }

  datatype Stacktrace = Stacktrace(
    frames: seq<Frame>,
    lang: Option<string>,
    registers: Option<map<string, Option<string>>>,
    extra: Extra)

  /** The stack trace as sent: `frames` may be null and may hold null entries. */
  datatype RawStacktrace = RawStacktrace(
    frames: Option<seq<Option<Frame>>>,
    lang: Option<string>,
    registers: Option<map<string, Option<string>>>,
    extra: Extra)

  /**
   * Normalises a stack trace: null frames are dropped, the others are
   * normalised in place order, and a trace left without frames is annotated
   * (`frames` is required and non-empty). Errors of a frame sit under
   * `frames` and the frame's index as sent.
   */
  function NormalizeStacktrace(raw: RawStacktrace): (r: (Stacktrace, seq<ProcessingError>))
    ensures |r.0.frames| == |Somes(raw.frames.GetOr([]))|
    ensures forall i :: 0 <= i < |r.0.frames| ==>
      r.0.frames[i] == NormalizeFrame(Somes(raw.frames.GetOr([]))[i]).0
    ensures r.0.lang == raw.lang && r.0.registers == raw.registers && r.0.extra == raw.extra
    ensures (exists e :: e in r.1 && e.kind == EmptyStacktrace) <==> |r.0.frames| == 0
    ensures forall e :: e in r.1 ==> (e.kind == ValueTooLong || e.kind == MissingLocation || e.kind == EmptyStacktrace)
    ensures forall i :: 0 <= i < |raw.frames.GetOr([])| ==>
      (ReportedUnder(r.1, [Field("frames"), Index(i)]) <==>
        raw.frames.GetOr([])[i].Some? && !CleanFrame(raw.frames.GetOr([])[i].value))
    ensures r.1 == [] <==>
      |r.0.frames| > 0 &&
      forall i :: 0 <= i < |raw.frames.GetOr([])| && raw.frames.GetOr([])[i].Some? ==> CleanFrame(raw.frames.GetOr([])[i].value)
  {
    var sent := raw.frames.GetOr([]);
    var present := Somes(sent);
    var frames := seq(|present|, i requires 0 <= i < |present| => NormalizeFrame(present[i]).0);
    (Stacktrace(frames, raw.lang, raw.registers, raw.extra), StacktraceErrors(sent))
  }

  /**
   * The errors of a stack trace's frames as sent: each frame's errors under
   * `frames` and its index, then the annotation of a trace left without frames.
   */
  function StacktraceErrors(sent: seq<Option<Frame>>): (r: seq<ProcessingError>)
    ensures (exists e :: e in r && e.kind == EmptyStacktrace) <==> |Somes(sent)| == 0
    ensures forall e :: e in r ==> (e.kind == ValueTooLong || e.kind == MissingLocation || e.kind == EmptyStacktrace)
    ensures forall i :: 0 <= i < |sent| ==>
      (ReportedUnder(r, [Field("frames"), Index(i)]) <==> sent[i].Some? && !CleanFrame(sent[i].value))
    ensures r == [] <==>
      |Somes(sent)| > 0 && forall i :: 0 <= i < |sent| && sent[i].Some? ==> CleanFrame(sent[i].value)
  {
    var frameErrors := FrameErrors(sent, 0);
    var empty := if |Somes(sent)| == 0 then [At("frames", EmptyStacktrace, None)] else [];
    FramesReported(frameErrors, empty, |sent|);
    Under(Field("frames"), frameErrors) + empty
  }

  /** The frame reports, re-rooted under `frames`, are the only reports at a frame's index. */
  lemma FramesReported(frameErrors: seq<ProcessingError>, empty: seq<ProcessingError>, n: nat)
    requires forall e :: e in empty ==> e.path == [Field("frames")]
    ensures forall i :: 0 <= i < n ==>
      (ReportedUnder(Under(Field("frames"), frameErrors) + empty, [Field("frames"), Index(i)]) <==>
        ReportedUnder(frameErrors, [Index(i)]))
  {
    forall i | 0 <= i < n
      ensures ReportedUnder(Under(Field("frames"), frameErrors) + empty, [Field("frames"), Index(i)]) <==>
        ReportedUnder(frameErrors, [Index(i)])
    {
      ReportedUnderConcat(Under(Field("frames"), frameErrors), empty, [Field("frames"), Index(i)]);
      ReportedUnderUnder(Field("frames"), frameErrors, [Index(i)]);
      assert [Field("frames")] + [Index(i)] == [Field("frames"), Index(i)];
    }
  }

  /** The errors of the frames from index `from` on, each under its index as sent. */
  function FrameErrors(frames: seq<Option<Frame>>, from: nat): (r: seq<ProcessingError>)
    requires from <= |frames|
    ensures forall e :: e in r ==>
      (e.kind == ValueTooLong || e.kind == MissingLocation) && |e.path| >= 1 && e.path[0].Index? &&
      from <= e.path[0].i < |frames| && frames[e.path[0].i].Some?
    ensures forall i :: from <= i < |frames| ==>
      (ReportedUnder(r, [Index(i)]) <==> frames[i].Some? && !CleanFrame(frames[i].value))
    ensures r == [] <==> forall i :: from <= i < |frames| && frames[i].Some? ==> CleanFrame(frames[i].value)
    decreases |frames| - from
  {
    if from == |frames| then []
    else
      var rest := FrameErrors(frames, from + 1);
      var inner := EntryErrors(frames[from]);
      EntryErrorsUnder(frames[from], from);
      ReportedAtCons(from, inner, rest);
      var r := Under(Index(from), inner) + rest;
      EmptyIffNoneReported(r, from, |frames|);
      r
  }

  /** The errors of one entry of `frames`, before they are placed under its index. */
  function EntryErrors(entry: Option<Frame>): (r: seq<ProcessingError>)
    ensures forall e :: e in r ==> entry.Some? && (e.kind == ValueTooLong || e.kind == MissingLocation)
    ensures r != [] <==> entry.Some? && !CleanFrame(entry.value)
  {
    match entry
    case None => []
    case Some(f) => NormalizeFrame(f).1
  }

  lemma EntryErrorsUnder(entry: Option<Frame>, from: nat)
    ensures forall e :: e in Under(Index(from), EntryErrors(entry)) ==>
      entry.Some? && (e.kind == ValueTooLong || e.kind == MissingLocation) && |e.path| >= 1 && e.path[0] == Index(from)
  {
    var inner := EntryErrors(entry);
    forall e | e in Under(Index(from), inner)
      ensures entry.Some? && (e.kind == ValueTooLong || e.kind == MissingLocation) && |e.path| >= 1 && e.path[0] == Index(from)
    {
      var k :| 0 <= k < |inner| && Under(Index(from), inner)[k] == e;
      assert inner[k] in inner;
    }
  }

  /** Frames within their caps draw annotations only. */
  lemma {:induction false} FrameErrorsAnnotate(frames: seq<Option<Frame>>, from: nat)
    requires from <= |frames|
    requires forall i :: from <= i < |frames| && frames[i].Some? ==> FrameWithinCaps(frames[i].value)
    ensures OnlyAnnotations(FrameErrors(frames, from))
    decreases |frames| - from
  {
    if from < |frames| {
      FrameErrorsAnnotate(frames, from + 1);
      var inner := EntryErrors(frames[from]);
      if frames[from].Some? {
        FrameAnnotates(frames[from].value);
      }
      assert FrameErrors(frames, from) == Under(Index(from), inner) + FrameErrors(frames, from + 1);
      OnlyAnnotationsUnder(Index(from), inner);
      OnlyAnnotationsConcat(Under(Index(from), inner), FrameErrors(frames, from + 1));
    }
  }

  lemma FrameAnnotates(f: Frame)
    requires FrameWithinCaps(f)
    ensures OnlyAnnotations(NormalizeFrame(f).1)
  {
    var errors := NormalizeFrame(f).1;
    forall k | 0 <= k < |errors|
      ensures RemediationOf(errors[k].kind) == Annotate
    {
      assert errors[k] in errors;
    }
  }

  /** Re-normalising a normalised stack trace raises annotations only. */
  lemma StacktraceToWireAnnotates(st: Stacktrace)
    requires NormalizedStacktrace(st)
    ensures OnlyAnnotations(NormalizeStacktrace(StacktraceToWire(st)).1)
  {
    var sent := StacktraceToWire(st).frames.value;
    FrameErrorsAnnotate(sent, 0);
    OnlyAnnotationsUnder(Field("frames"), FrameErrors(sent, 0));
    var empty := if |Somes(sent)| == 0 then [At("frames", EmptyStacktrace, None)] else [];
    OnlyAnnotationsConcat(Under(Field("frames"), FrameErrors(sent, 0)), empty);
  }

  /** A stack trace as normalisation leaves it: every frame within its caps. */
  predicate NormalizedStacktrace(st: Stacktrace) {
    forall i :: 0 <= i < |st.frames| ==> FrameWithinCaps(st.frames[i])
  }

  lemma NormalizeStacktraceNormalized(raw: RawStacktrace)
    ensures NormalizedStacktrace(NormalizeStacktrace(raw).0)
  {
  }

  /** A stack trace written back with every frame present. */
  function StacktraceToWire(st: Stacktrace): (raw: RawStacktrace)
    ensures raw.frames.Some? && |raw.frames.value| == |st.frames|
  {
    RawStacktrace(Some(seq(|st.frames|, i requires 0 <= i < |st.frames| => Some(st.frames[i]))),
      st.lang, st.registers, st.extra)
  }

  /** A normalised stack trace is reproduced from its wire rendering. */
  lemma NormalizeStacktraceToWire(st: Stacktrace)
    requires NormalizedStacktrace(st)
    ensures NormalizeStacktrace(StacktraceToWire(st)).0 == st
  {
    SomesAllPresent(StacktraceToWire(st).frames.value);
  }
}

=== FILE: tags.dfy ===
/**
 * Event tags: an ordered map whose keys and values must each stay under
 * 200 characters. A longer key or value is cut to the longest allowed
 * length and the cut is recorded.
 */
module Tags {
  import opened Wrappers
  import opened Json
  import opened Errors
  import opened OrderedMaps
  import Text

  /** Every tag key and value must be shorter than this. */
  const TagLengthBound: nat := 200

  predicate ShortEnough(s: string) {
    |s| < TagLengthBound
  }

  predicate TagWithinLimit(p: Pair) {
    ShortEnough(p.key) && (p.value.Some? ==> ShortEnough(p.value.value))
  }

  predicate AllTagsWithinLimit(ps: seq<Pair>) {
    forall i :: 0 <= i < |ps| ==> TagWithinLimit(ps[i])
  }

  /** The tag cut to the limit: keys and values keep their longest allowed prefix. */
  function CutTag(p: Pair): (r: Pair)
    ensures TagWithinLimit(r)
    ensures TagWithinLimit(p) <==> r == p
    ensures r.key <= p.key
    ensures r.value.Some? <==> p.value.Some?
    ensures p.value.Some? ==> r.value.value <= p.value.value
  {
    Pair(Text.Truncate(p.key, TagLengthBound - 1),
         if p.value.Some? then Some(Text.Truncate(p.value.value, TagLengthBound - 1)) else None)
  }

  /**
   * Canonicalises the tags and cuts every oversized tag, recording a
   * `ValueTooLong` error at its index for each oversized key or value.
   */
  function NormalizeTags(raw: RawPairs): (r: (seq<Pair>, seq<ProcessingError>))
    ensures |r.0| == |Canonical(raw)|
    ensures AllTagsWithinLimit(r.0)
    ensures forall i :: 0 <= i < |r.0| ==> r.0[i] == CutTag(Canonical(raw)[i])
    ensures r.1 == [] <==> AllTagsWithinLimit(Canonical(raw))
    ensures forall e :: e in r.1 ==> e.kind == ValueTooLong && |e.path| == 1 && e.path[0].Index?
  {
    var ps := Canonical(raw);
    (seq(|ps|, i requires 0 <= i < |ps| => CutTag(ps[i])), CutErrors(ps, 0))
  }

  /** A `ValueTooLong` error at tag index `i` that records the oversized string `s`. */
  function CutError(i: nat, s: string): ProcessingError {
    ProcessingError([Index(i)], ValueTooLong, Some(String(s)))
  }

  /** `original` is a string of the tag that exceeds the limit: its key or its value. */
  predicate CutOriginal(p: Pair, original: Option<Json>) {
    (!ShortEnough(p.key) && original == Some(String(p.key))) ||
    (p.value.Some? && !ShortEnough(p.value.value) && original == Some(String(p.value.value)))
  }

  /** The errors for the tag at index `i`: its key first, then its value. */
  function TagCutErrors(p: Pair, i: nat): (r: seq<ProcessingError>)
    ensures r == [] <==> TagWithinLimit(p)
    ensures forall e :: e in r ==> e.kind == ValueTooLong && e.path == [Index(i)] && CutOriginal(p, e.original)
    ensures !ShortEnough(p.key) ==> CutError(i, p.key) in r
    ensures p.value.Some? && !ShortEnough(p.value.value) ==> CutError(i, p.value.value) in r
  {
    (if ShortEnough(p.key) then [] else [CutError(i, p.key)]) +
    (if p.value.Some? && !ShortEnough(p.value.value) then [CutError(i, p.value.value)] else [])
  }

  /** Errors at index `from` put in front of errors at later indices report `from` alone. */
  lemma ReportedAtFront(from: nat, own: seq<ProcessingError>, rest: seq<ProcessingError>)
    requires forall e :: e in own ==> e.path == [Index(from)]
    requires forall e :: e in rest ==> |e.path| >= 1 && e.path[0].Index? && from < e.path[0].i
    ensures forall i: nat :: ReportedUnder(own + rest, [Index(i)]) <==>
      if i == from then own != [] else ReportedUnder(rest, [Index(i)])
  {
    forall i: nat
      ensures ReportedUnder(own + rest, [Index(i)]) <==>
        if i == from then own != [] else ReportedUnder(rest, [Index(i)])
    {
      ReportedUnderConcat(own, rest, [Index(i)]);
      if i == from {
        if own != [] {
          assert own[0] in own;
          assert [Index(i)] <= own[0].path;
        }
        assert !ReportedUnder(rest, [Index(i)]) by {
          forall e | e in rest ensures !([Index(i)] <= e.path) {
            assert e.path[0] != Index(i);
          }
        }
      } else {
        assert !ReportedUnder(own, [Index(i)]) by {
          forall e | e in own ensures !([Index(i)] <= e.path) {
            assert e.path[0] != Index(i);
          }
        }
      }
    }
  }

  /**
   * The errors for the tags from index `from` on: one for every oversized
   * key and one for every oversized value, each recording the string that
   * was cut.
   */
  function CutErrors(ps: seq<Pair>, from: nat): (r: seq<ProcessingError>)
    requires from <= |ps|
    ensures r == [] <==> forall i :: from <= i < |ps| ==> TagWithinLimit(ps[i])
    ensures forall e :: e in r ==>
      e.kind == ValueTooLong && |e.path| == 1 && e.path[0].Index? &&
      from <= e.path[0].i < |ps| && !TagWithinLimit(ps[e.path[0].i]) &&
      CutOriginal(ps[e.path[0].i], e.original)
    ensures forall i :: from <= i < |ps| && !ShortEnough(ps[i].key) ==> CutError(i, ps[i].key) in r
    ensures forall i :: from <= i < |ps| && ps[i].value.Some? && !ShortEnough(ps[i].value.value) ==>
      CutError(i, ps[i].value.value) in r
    ensures forall i :: from <= i < |ps| ==> (ReportedUnder(r, [Index(i)]) <==> !TagWithinLimit(ps[i]))
    decreases |ps| - from
  {
    if from == |ps| then []
    else
      var rest := CutErrors(ps, from + 1);
      var own := TagCutErrors(ps[from], from);
      ReportedAtFront(from, own, rest);
      own + rest
  }

  /** A canonical position is reported exactly when normalising cut the tag there. */
  lemma NormalizeTagsReports(raw: RawPairs)
    ensures forall i :: 0 <= i < |Canonical(raw)| ==>
      (ReportedUnder(NormalizeTags(raw).1, [Index(i)]) <==> NormalizeTags(raw).0[i] != Canonical(raw)[i])
  {
  }

  /** Tags given as an object and as the equivalent tuple list normalise alike. */
  lemma FormsNormalizeAlike(ps: seq<Pair>)
    requires DistinctKeys(ps)
    ensures NormalizeTags(ObjectForm(ps)) == NormalizeTags(ListForm(ToList(ps)))
  {
    FormsAgree(ps);
  }

  /** Tags that already fit are kept exactly, without errors. */
  lemma NormalizeFittingTags(raw: RawPairs)
    requires AllTagsWithinLimit(Canonical(raw))
    ensures NormalizeTags(raw) == (Canonical(raw), [])
  {
    var ps := Canonical(raw);
    var r := NormalizeTags(raw);
    assert forall i :: 0 <= i < |ps| ==> r.0[i] == CutTag(ps[i]) == ps[i];
    assert r.0 == ps;
  }

  /** Normalised tags are already within the limit, so normalising them again changes nothing. */
  lemma NormalizeTagsIdempotent(raw: RawPairs)
    ensures
      var once := NormalizeTags(raw).0;
      NormalizeTags(ListForm(ToList(once))) == (once, [])
  {
    var once := NormalizeTags(raw).0;
    FromToList(once);
    assert Canonical(ListForm(ToList(once))) == once;
    NormalizeFittingTags(ListForm(ToList(once)));
  }

  /** `{"a": "1", "b": "2"}` and `[["a", "1"], ["b", "2"]]` give the same tags. */
  lemma ExampleTags()
    ensures
      NormalizeTags(ObjectForm([Pair("a", Some("1")), Pair("b", Some("2"))])) ==
      NormalizeTags(ListForm([Some(Entry(Some("a"), Some("1"))), Some(Entry(Some("b"), Some("2")))]))
  {
    var ps := [Pair("a", Some("1")), Pair("b", Some("2"))];
    var list := [Some(Entry(Some("a"), Some("1"))), Some(Entry(Some("b"), Some("2")))];
    assert ToList(ps) == list by {
      assert ToList(ps)[0] == list[0] && ToList(ps)[1] == list[1];
    }
    assert NormalizeTags(ObjectForm(ps)) == NormalizeTags(ListForm(ToList(ps))) by {
      assert ps[0].key != ps[1].key;
      FormsNormalizeAlike(ps);
    }
  }
}

=== FILE: text.dfy ===
/** Length caps on strings. */
module Text {

  /** The longest prefix of `s` that is at most `cap` characters long. */
  function Truncate(s: string, cap: nat): (r: string)
    ensures |r| <= cap
    ensures |r| <= |s|
    ensures r == s[..|r|]
    ensures |s| <= cap ==> r == s
    ensures |s| > cap ==> |r| == cap
  {
    if |s| <= cap then s else s[..cap]
  }

  /** Truncating twice with the same cap is truncating once. */
  lemma TruncateIdempotent(s: string, cap: nat)
    ensures Truncate(Truncate(s, cap), cap) == Truncate(s, cap)
  {
  }
}

=== FILE: threads.dfy ===
/**
 * Threads of an event. A thread id is a number or a string and compares by
 * its string form; ids must be unique among the threads, and a repeated id
 * is annotated on the later thread, keeping both.
 */
module Threads {
  import opened Wrappers
  import opened Json
  import opened Errors
  import opened Seqs
  import opened Stacktraces
  import Decimal

  datatype ThreadId = NumericId(n: int) | TextId(s: string)

  /** The string form every id comparison uses; a number is written in decimal. */
  function IdKey(id: ThreadId): string {
    match id
    case NumericId(n) => Decimal.FormatInt(n)
    case TextId(s) => s
  }

  /** Distinct numbers stay distinct ids. */
  lemma NumericIdKeysDistinct(a: int, b: int)
    requires a != b
    ensures IdKey(NumericId(a)) != IdKey(NumericId(b))
  {
    if IdKey(NumericId(a)) == IdKey(NumericId(b)) {
      Decimal.FormatIntInjective(a, b);
    }
  }

  datatype Thread = Thread(
    crashed: bool,
    current: bool,
    id: Option<ThreadId>,
    name: Option<string>,
    stacktrace: Option<Stacktrace>,
    extra: Extra)

  datatype RawThread = RawThread(
    crashed: Option<bool>,
    current: Option<bool>,
    id: Option<ThreadId>,
    name: Option<string>,
    stacktrace: Option<RawStacktrace>,
    extra: Extra)

  /** `crashed` and `current` default to false; the stack trace is normalised. */
  function NormalizeThread(raw: RawThread): (r: (Thread, seq<ProcessingError>))
    ensures r.0.crashed <==> raw.crashed == Some(true)
    ensures r.0.current <==> raw.current == Some(true)
    ensures r.0.id == raw.id && r.0.name == raw.name && r.0.extra == raw.extra
    ensures r.0.stacktrace.Some? <==> raw.stacktrace.Some?
    ensures forall e :: e in r.1 ==> (e.kind == ValueTooLong || e.kind == MissingLocation || e.kind == EmptyStacktrace)
    ensures r.1 == [] <==> raw.stacktrace.None? || NormalizeStacktrace(raw.stacktrace.value).1 == []
  {
    var st := match raw.stacktrace
      case Some(s) => var n := NormalizeStacktrace(s); (Some(n.0), Under(Field("stacktrace"), n.1))
      case None => (None, []);
    (Thread(raw.crashed.GetOr(false), raw.current.GetOr(false), raw.id, raw.name, st.0, raw.extra), st.1)
  }

  /** The id key of each thread, or none for a thread without an id. */
  function Keys(threads: seq<Thread>): (keys: seq<Option<string>>)
    ensures |keys| == |threads|
    ensures forall i :: 0 <= i < |threads| ==>
      keys[i] == if threads[i].id.Some? then Some(IdKey(threads[i].id.value)) else None
  {
    seq(|threads|, i requires 0 <= i < |threads| =>
      if threads[i].id.Some? then Some(IdKey(threads[i].id.value)) else None)
  }

  /** Thread `i` repeats the id of an earlier thread. */
  predicate RepeatsEarlier(keys: seq<Option<string>>, i: nat)
    requires i < |keys|
  {
    keys[i].Some? && exists j :: 0 <= j < i && keys[j] == keys[i]
  }

  /** No id is used by two threads; threads without an id never clash. */
  predicate UniqueIds(keys: seq<Option<string>>) {
    forall i, j :: 0 <= i < j < |keys| && keys[i].Some? ==> keys[i] != keys[j]
  }

  lemma UniqueIffNoRepeats(keys: seq<Option<string>>)
    ensures UniqueIds(keys) <==> forall i :: 0 <= i < |keys| ==> !RepeatsEarlier(keys, i)
  {
    if UniqueIds(keys) {
      forall i | 0 <= i < |keys|
        ensures !RepeatsEarlier(keys, i)
      {
        if keys[i].Some? {
          forall j | 0 <= j < i
            ensures keys[j] != keys[i]
          {
            if keys[j].Some? {
              assert keys[j] != keys[i];
            }
          }
        }
      }
    }
    if forall i :: 0 <= i < |keys| ==> !RepeatsEarlier(keys, i) {
      forall i, j | 0 <= i < j < |keys| && keys[i].Some?
        ensures keys[i] != keys[j]
      {
        assert !RepeatsEarlier(keys, j);
      }
    }
  }

  /**
   * The indices of the threads whose id repeats an earlier thread's, in
   * increasing order, found in one pass with the set of ids seen so far.
   * They are the positions `DuplicateErrors` reports, one for one.
   */
  method FindDuplicates(keys: seq<Option<string>>) returns (dups: seq<nat>)
    ensures forall k :: 0 <= k < |dups| ==> dups[k] < |keys| && RepeatsEarlier(keys, dups[k])
    ensures forall i :: 0 <= i < |keys| && RepeatsEarlier(keys, i) ==> i in dups
    ensures forall a, b :: 0 <= a < b < |dups| ==> dups[a] < dups[b]
    ensures dups == [] <==> UniqueIds(keys)
    ensures forall i :: 0 <= i < |keys| ==> (i in dups <==> ReportedUnder(DuplicateErrors(keys, 0), [Index(i)]))
  {
    var seen: set<string> := {};
    dups := [];
    var i := 0;
    while i < |keys|
      invariant 0 <= i <= |keys|
      invariant forall s :: s in seen <==> exists j :: 0 <= j < i && keys[j] == Some(s)
      invariant forall k :: 0 <= k < |dups| ==> dups[k] < i && RepeatsEarlier(keys, dups[k])
      invariant forall m :: 0 <= m < i && RepeatsEarlier(keys, m) ==> m in dups
      invariant forall a, b :: 0 <= a < b < |dups| ==> dups[a] < dups[b]
    {
      if keys[i].Some? {
        if keys[i].value in seen {
          dups := dups + [i];
        } else {
          seen := seen + {keys[i].value};
        }
      }
      i := i + 1;
    }
    UniqueIffNoRepeats(keys);
    if dups != [] {
      assert RepeatsEarlier(keys, dups[0]);
    }
  }

  /** The annotation of a thread whose id repeats an earlier one. */
  function DuplicateReport(keys: seq<Option<string>>, i: nat): ProcessingError
    requires i < |keys| && keys[i].Some?
  {
    At("id", DuplicateThreadId, Some(String(keys[i].value)))
  }

  /** The duplicate-id annotations from index `from` on, each under its thread's index as sent. */
  function DuplicateErrors(keys: seq<Option<string>>, from: nat): (errors: seq<ProcessingError>)
    requires from <= |keys|
    ensures forall e :: e in errors ==>
      e.kind == DuplicateThreadId && |e.path| == 2 && e.path[0].Index? &&
      from <= e.path[0].i < |keys| && RepeatsEarlier(keys, e.path[0].i)
    ensures forall i {:trigger RepeatsEarlier(keys, i)} :: from <= i < |keys| ==> (ReportedUnder(errors, [Index(i)]) <==> RepeatsEarlier(keys, i))
    ensures errors == [] <==> forall i :: from <= i < |keys| ==> !RepeatsEarlier(keys, i)
    decreases |keys| - from
  {
    if from == |keys| then []
    else
      var rest := DuplicateErrors(keys, from + 1);
      var own := DuplicateEntry(keys, from);
      DuplicateEntryUnder(keys, from);
      ReportedAtCons(from, own, rest);
      var errors := Under(Index(from), own) + rest;
      EmptyIffNoneReported(errors, from, |keys|);
      errors
  }

  /** The annotation of the entry at `at` alone, before it is placed under its index. */
  function DuplicateEntry(keys: seq<Option<string>>, at: nat): (r: seq<ProcessingError>)
    requires at < |keys|
    ensures forall e :: e in r ==> e.kind == DuplicateThreadId && |e.path| == 1 && RepeatsEarlier(keys, at)
    ensures r != [] <==> RepeatsEarlier(keys, at)
  {
    if RepeatsEarlier(keys, at) then [DuplicateReport(keys, at)] else []
  }

  lemma DuplicateEntryUnder(keys: seq<Option<string>>, at: nat)
    requires at < |keys|
    ensures forall e :: e in Under(Index(at), DuplicateEntry(keys, at)) ==>
      e.kind == DuplicateThreadId && |e.path| == 2 && e.path[0] == Index(at) && RepeatsEarlier(keys, at)
  {
    var inner := DuplicateEntry(keys, at);
    forall e | e in Under(Index(at), inner)
      ensures e.kind == DuplicateThreadId && |e.path| == 2 && e.path[0] == Index(at) && RepeatsEarlier(keys, at)
    {
      var k :| 0 <= k < |inner| && Under(Index(at), inner)[k] == e;
      assert inner[k] in inner;
    }
  }

  /** The id key of each entry as sent; null entries and threads without an id have none. */
  function RawKeys(values: seq<Option<RawThread>>): (keys: seq<Option<string>>)
    ensures |keys| == |values|
    ensures forall i :: 0 <= i < |values| ==>
      keys[i] == if values[i].Some? && values[i].value.id.Some? then Some(IdKey(values[i].value.id.value)) else None
  {
    seq(|values|, i requires 0 <= i < |values| =>
      if values[i].Some? && values[i].value.id.Some? then Some(IdKey(values[i].value.id.value)) else None)
  }

  /**
   * Normalises `threads.values`: null entries are dropped, every thread is
   * normalised and kept in order, and each thread repeating an earlier id
   * is annotated under its index as sent.
   */
  function NormalizeThreads(values: seq<Option<RawThread>>): (r: (seq<Thread>, seq<ProcessingError>))
    ensures |r.0| == |Somes(values)|
    ensures forall i :: 0 <= i < |r.0| ==> r.0[i] == NormalizeThread(Somes(values)[i]).0
    ensures (forall e :: e in r.1 ==> e.kind != DuplicateThreadId) <==> UniqueIds(RawKeys(values))
    ensures forall i {:trigger ReportedUnder(r.1, [Index(i)])} {:trigger RepeatsEarlier(RawKeys(values), i)} ::
      0 <= i < |values| ==>
      (ReportedUnder(r.1, [Index(i)]) <==>
        RepeatsEarlier(RawKeys(values), i) || Troubled(values[i]))
    ensures r.1 == [] <==>
      UniqueIds(RawKeys(values)) &&
      forall i {:trigger Troubled(values[i])} :: 0 <= i < |values| ==> !Troubled(values[i])
  {
    (NormalizeEach(Somes(values)), ThreadsErrors(values))
  }

  function NormalizeEach(present: seq<RawThread>): (threads: seq<Thread>)
    ensures |threads| == |present|
    ensures forall i :: 0 <= i < |present| ==> threads[i] == NormalizeThread(present[i]).0
  {
    seq(|present|, i requires 0 <= i < |present| => NormalizeThread(present[i]).0)
  }

  /** The duplicate-id reports first, then the errors from inside each thread. */
  function ThreadsErrors(values: seq<Option<RawThread>>): (errors: seq<ProcessingError>)
    ensures (forall e :: e in errors ==> e.kind != DuplicateThreadId) <==> UniqueIds(RawKeys(values))
    ensures forall i {:trigger ReportedUnder(errors, [Index(i)])} {:trigger RepeatsEarlier(RawKeys(values), i)} ::
      0 <= i < |values| ==>
      (ReportedUnder(errors, [Index(i)]) <==>
        RepeatsEarlier(RawKeys(values), i) || Troubled(values[i]))
    ensures errors == [] <==>
      UniqueIds(RawKeys(values)) &&
      forall i {:trigger Troubled(values[i])} :: 0 <= i < |values| ==> !Troubled(values[i])
  {
    var inner := ThreadErrors(values, 0);
    DuplicatesIffNotUnique(RawKeys(values), inner);
    ThreadsReported(RawKeys(values), inner, |values|);
    DuplicateErrors(RawKeys(values), 0) + inner
  }

  /** A thread is reported when it repeats an id or its own normalisation reports something. */
  lemma ThreadsReported(keys: seq<Option<string>>, inner: seq<ProcessingError>, n: nat)
    requires n == |keys|
    ensures forall i :: 0 <= i < n ==>
      (ReportedUnder(DuplicateErrors(keys, 0) + inner, [Index(i)]) <==>
        RepeatsEarlier(keys, i) || ReportedUnder(inner, [Index(i)]))
  {
    forall i | 0 <= i < n
      ensures ReportedUnder(DuplicateErrors(keys, 0) + inner, [Index(i)]) <==>
        RepeatsEarlier(keys, i) || ReportedUnder(inner, [Index(i)])
    {
      ReportedUnderConcat(DuplicateErrors(keys, 0), inner, [Index(i)]);
    }
  }

  /** Errors of other kinds appended after the duplicate reports do not change whether there are any. */
  lemma DuplicatesIffNotUnique(keys: seq<Option<string>>, inner: seq<ProcessingError>)
    requires forall e :: e in inner ==> e.kind != DuplicateThreadId
    ensures (forall e :: e in DuplicateErrors(keys, 0) + inner ==> e.kind != DuplicateThreadId) <==> UniqueIds(keys)
  {
    var dups := DuplicateErrors(keys, 0);
    UniqueIffNoRepeats(keys);
    if UniqueIds(keys) {
      assert dups == [];
      assert dups + inner == inner;
    } else {
      assert dups != [];
      assert dups[0] in dups + inner;
    }
  }

  /** The errors from inside each thread, under its index as sent. */
  function ThreadErrors(values: seq<Option<RawThread>>, from: nat): (errors: seq<ProcessingError>)
    requires from <= |values|
    ensures forall e :: e in errors ==>
      e.kind != DuplicateThreadId && |e.path| >= 1 && e.path[0].Index? && from <= e.path[0].i < |values|
    ensures forall i :: from <= i < |values| ==>
      (ReportedUnder(errors, [Index(i)]) <==> Troubled(values[i]))
    ensures errors == [] <==>
      forall i :: from <= i < |values| ==> !Troubled(values[i])
    decreases |values| - from
  {
    if from == |values| then []
    else
      var rest := ThreadErrors(values, from + 1);
      var own := EntryErrors(values[from]);
      UnderKeeps(Index(from), own, DuplicateThreadId);
      ReportedAtCons(from, own, rest);
      var errors := Under(Index(from), own) + rest;
      EmptyIffNoneReported(errors, from, |values|);
      errors
  }

  /** An entry of `threads.values` whose own normalisation reports something. */
  predicate Troubled(entry: Option<RawThread>) {
    entry.Some? && NormalizeThread(entry.value).1 != []
  }

  /** The errors of one entry of `threads.values`, before they are placed under its index. */
  function EntryErrors(entry: Option<RawThread>): (r: seq<ProcessingError>)
    ensures forall e :: e in r ==> e.kind != DuplicateThreadId
    ensures r != [] <==> Troubled(entry)
  {
    match entry
    case None => []
    case Some(t) => NormalizeThread(t).1
  }

  predicate NormalizedThread(t: Thread) {
    t.stacktrace.Some? ==> NormalizedStacktrace(t.stacktrace.value)
  }

  /** Every thread of a list is in normal form. */
  predicate AllNormalized(ts: seq<Thread>) {
    forall i :: 0 <= i < |ts| ==> NormalizedThread(ts[i])
  }

  /** A thread written back with its flags spelled out. */
  function ThreadToWire(t: Thread): RawThread {
    RawThread(Some(t.crashed), Some(t.current), t.id, t.name,
      match t.stacktrace case Some(s) => Some(StacktraceToWire(s)) case None => None,
      t.extra)
  }

  /** Spelling out the defaults changes nothing: a normalised thread is a fixed point. */
  lemma NormalizeThreadToWire(t: Thread)
    requires NormalizedThread(t)
    ensures NormalizeThread(ThreadToWire(t)).0 == t
  {
    if t.stacktrace.Some? {
      NormalizeStacktraceToWire(t.stacktrace.value);
    }
  }

  /** The threads written back, each present. */
  function ThreadsToWire(ts: seq<Thread>): (r: seq<Option<RawThread>>)
    ensures |r| == |ts| && forall i :: 0 <= i < |ts| ==> r[i] == Some(ThreadToWire(ts[i]))
  {
    seq(|ts|, i requires 0 <= i < |ts| => Some(ThreadToWire(ts[i])))
  }

  lemma NormalizeThreadsToWire(ts: seq<Thread>)
    requires AllNormalized(ts)
    ensures NormalizeThreads(ThreadsToWire(ts)).0 == ts
  {
    SomesAllPresent(ThreadsToWire(ts));
    NormalizeEachToWire(ts);
  }

  lemma NormalizeEachToWire(ts: seq<Thread>)
    requires AllNormalized(ts)
    ensures NormalizeEach(Somes(ThreadsToWire(ts))) == ts
  {
    SomesAllPresent(ThreadsToWire(ts));
    forall i | 0 <= i < |ts| {
      NormalizeThreadToWire(ts[i]);
    }
  }

  /** Re-normalising normalised threads raises annotations only: stack-trace and duplicate-id notes. */
  lemma NormalizeThreadsToWireAnnotates(ts: seq<Thread>)
    requires AllNormalized(ts)
    ensures OnlyAnnotations(NormalizeThreads(ThreadsToWire(ts)).1)
  {
    var values := ThreadsToWire(ts);
    forall i | 0 <= i < |values|
      ensures OnlyAnnotations(EntryErrors(values[i]))
    {
      ThreadToWireAnnotates(ts[i]);
    }
    DuplicatesAnnotate(RawKeys(values), 0);
    ThreadErrorsAnnotate(values, 0);
    OnlyAnnotationsConcat(DuplicateErrors(RawKeys(values), 0), ThreadErrors(values, 0));
  }

  lemma DuplicatesAnnotate(keys: seq<Option<string>>, from: nat)
    requires from <= |keys|
    ensures OnlyAnnotations(DuplicateErrors(keys, from))
  {
    var errors := DuplicateErrors(keys, from);
    assert forall e :: e in errors ==> e.kind == DuplicateThreadId;
    AnnotatingKinds(errors);
  }

  lemma {:induction false} ThreadErrorsAnnotate(values: seq<Option<RawThread>>, from: nat)
    requires from <= |values|
    requires forall i :: from <= i < |values| ==> OnlyAnnotations(EntryErrors(values[i]))
    ensures OnlyAnnotations(ThreadErrors(values, from))
    decreases |values| - from
  {
    if from < |values| {
      ThreadErrorsAnnotate(values, from + 1);
      var own := EntryErrors(values[from]);
      var rest := ThreadErrors(values, from + 1);
      assert ThreadErrors(values, from) == Under(Index(from), own) + rest;
      OnlyAnnotationsUnder(Index(from), own);
      OnlyAnnotationsConcat(Under(Index(from), own), rest);
    }
  }

  lemma ThreadToWireAnnotates(t: Thread)
    requires NormalizedThread(t)
    ensures OnlyAnnotations(NormalizeThread(ThreadToWire(t)).1)
  {
    if t.stacktrace.Some? {
      var st := t.stacktrace.value;
      StacktraceToWireAnnotates(st);
      OnlyAnnotationsUnder(Field("stacktrace"), NormalizeStacktrace(StacktraceToWire(st)).1);
    }
  }

  lemma NormalizeThreadsNormalized(values: seq<Option<RawThread>>)
    ensures AllNormalized(NormalizeThreads(values).0)
  {
    NormalizeEachNormalized(Somes(values));
  }

  lemma NormalizeEachNormalized(present: seq<RawThread>)
    ensures forall i :: 0 <= i < |NormalizeEach(present)| ==> NormalizedThread(NormalizeEach(present)[i])
  {
    var ts := NormalizeEach(present);
    forall i | 0 <= i < |ts|
      ensures NormalizedThread(ts[i])
    {
      if present[i].stacktrace.Some? {
        NormalizeStacktraceNormalized(present[i].stacktrace.value);
      }
    }
  }

  /**
   * The schema's example thread (`"id": "0"`, crashed, `"stacktrace": {}`)
   * is kept crashed and not current; its empty stack trace is annotated.
   */
  lemma ExampleCrashedMainThread()
    ensures
      var raw := RawThread(Some(true), None, Some(TextId("0")), Some("main"), Some(RawStacktrace(None, None, None, map[])), map[]);
      var r := NormalizeThread(raw);
      r.0.crashed && !r.0.current && r.0.stacktrace.Some? && r.0.stacktrace.value.frames == [] &&
      exists e :: e in r.1 && e.kind == EmptyStacktrace
  {
    var st := NormalizeStacktrace(RawStacktrace(None, None, None, map[]));
    assert |st.0.frames| == 0;
    var e :| e in st.1 && e.kind == EmptyStacktrace;
    var raw := RawThread(Some(true), None, Some(TextId("0")), Some("main"), Some(RawStacktrace(None, None, None, map[])), map[]);
    var outer := NormalizeThread(raw).1;
    assert outer == Under(Field("stacktrace"), st.1);
    var k :| 0 <= k < |st.1| && st.1[k] == e;
    assert outer[k] in outer;
  }

  /** Thread ids 0 and "0" clash: the second thread is a duplicate. */
  lemma ExampleNumericAndTextClash()
    ensures
      var a := RawThread(None, None, Some(NumericId(0)), None, None, map[]);
      var b := RawThread(None, None, Some(TextId("0")), None, None, map[]);
      !UniqueIds(RawKeys([Some(a), Some(b)]))
  {
    var a := RawThread(None, None, Some(NumericId(0)), None, None, map[]);
    var b := RawThread(None, None, Some(TextId("0")), None, None, map[]);
    var keys := RawKeys([Some(a), Some(b)]);
    assert Decimal.FormatInt(0) == "0";
    assert keys[0] == Some("0") == keys[1];
  }
}

=== FILE: timestamps.dfy ===
/**
  Timestamps. The schema accepts a point in time either as a number of
  seconds since the Unix epoch or as an RFC 3339 string, and all timestamps
  of the protocol use that dual form. Both normalise to one comparable
  representation: integer seconds since 1970-01-01T00:00:00Z.

  The date arithmetic counts days with a closed formula for the proleptic
  Gregorian calendar; `NextDayCounts` proves that the formula advances by
  exactly one from each calendar day to the next, so together with
  `EpochDayIsZero` it numbers the days consecutively from the epoch.
 */
module Timestamps {
  import opened Wrappers
  import opened Numerals
  import opened Decimal
  import opened Json
  import opened Errors

  /** The wire form `number | string`. Numbers are whole seconds here. */
  datatype Timestamp = Seconds(seconds: int) | Text(text: string)

  datatype DateTime = DateTime(year: nat, month: nat, day: nat, hour: nat, minute: nat, second: nat)

  /** The RFC 3339 `time-offset`: `Z`, or a signed `hh:mm` distance from UTC. */
  datatype Offset = Utc | East(hours: nat, minutes: nat) | West(hours: nat, minutes: nat)

  predicate IsLeapYear(y: int) {
    y % 4 == 0 && (y % 100 != 0 || y % 400 == 0)
  }

  function DaysInMonth(y: int, m: nat): nat
    requires 1 <= m <= 12
  {
    if m == 2 then (if IsLeapYear(y) then 29 else 28)
    else if m == 4 || m == 6 || m == 9 || m == 11 then 30
    else 31
  }

  predicate ValidDate(y: int, m: nat, d: nat) {
    1 <= m <= 12 && 1 <= d <= DaysInMonth(y, m)
  }

  /** The ranges of RFC 3339 `full-date` and `partial-time` with whole seconds (no leap second). */
  predicate ValidDateTime(t: DateTime) {
    && t.year <= 9999
    && ValidDate(t.year, t.month, t.day)
    && t.hour < 24 && t.minute < 60 && t.second < 60
  }

  predicate ValidOffset(o: Offset) {
    match o
    case Utc => true
    case East(h, m) => h < 24 && m < 60
    case West(h, m) => h < 24 && m < 60
  }

  /** The number of leap years in 1..y (a floor count, so it is also defined for y <= 0). */
  function LeapYearsThrough(y: int): int {
    y / 4 - y / 100 + y / 400
  }

  /** Days from 1970-01-01 to the first of January of year `y`. */
  function DaysBeforeYear(y: int): int {
    365 * (y - 1970) + LeapYearsThrough(y - 1) - LeapYearsThrough(1969)
  }

  /** Days from the first of January to the first of month `m`. */
  function DaysBeforeMonth(y: int, m: nat): nat
    requires 1 <= m <= 12
  {
    var common := [0, 31, 59, 90, 120, 151, 181, 212, 243, 273, 304, 334][m - 1];
    if m > 2 && IsLeapYear(y) then common + 1 else common
  }

  /** Days from 1970-01-01 to the given date; negative before the epoch. */
  function DayNumber(y: int, m: nat, d: nat): int
    requires ValidDate(y, m, d)
  {
    DaysBeforeYear(y) + DaysBeforeMonth(y, m) + d - 1
  }

  /** The calendar day after a valid date. */
  function NextDay(y: int, m: nat, d: nat): (r: (int, nat, nat))
    requires ValidDate(y, m, d)
    ensures ValidDate(r.0, r.1, r.2)
  {
    if d < DaysInMonth(y, m) then (y, m, d + 1)
    else if m < 12 then (y, m + 1, 1)
    else (y + 1, 1, 1)
  }

  lemma DivStep(y: int)
    ensures y / 4 - (y - 1) / 4 == (if y % 4 == 0 then 1 else 0)
    ensures y / 100 - (y - 1) / 100 == (if y % 100 == 0 then 1 else 0)
    ensures y / 400 - (y - 1) / 400 == (if y % 400 == 0 then 1 else 0)
  {
  }

  /** The leap-year count grows by one exactly at leap years. */
  lemma LeapStep(y: int)
    ensures LeapYearsThrough(y) - LeapYearsThrough(y - 1) == (if IsLeapYear(y) then 1 else 0)
  {
    DivStep(y);
  }

  lemma EpochDayIsZero()
    ensures DayNumber(1970, 1, 1) == 0
  {
  }

  /** Day numbers are consecutive: the day after any valid date has the next number. */
  lemma NextDayCounts(y: int, m: nat, d: nat)
    requires ValidDate(y, m, d)
    ensures var (y', m', d') := NextDay(y, m, d); DayNumber(y', m', d') == DayNumber(y, m, d) + 1
  {
    if d == DaysInMonth(y, m) && m == 12 {
      LeapStep(y);
    }
  }

  function OffsetSeconds(o: Offset): int {
    match o
    case Utc => 0
    case East(h, m) => h * 3600 + m * 60
    case West(h, m) => -(h * 3600 + m * 60)
  }

  /** Seconds since the epoch of a local date and time at offset `o` from UTC. */
  function EpochSeconds(t: DateTime, o: Offset): int
    requires ValidDate(t.year, t.month, t.day)
  {
    DayNumber(t.year, t.month, t.day) * 86400 + t.hour * 3600 + t.minute * 60 + t.second - OffsetSeconds(o)
  }

  /** The RFC 3339 `time-offset` production: `Z` (either case) or `+hh:mm` / `-hh:mm`. */
  function ParseOffset(s: string): (r: Option<Offset>)
    ensures r.Some? ==> ValidOffset(r.value)
  {
    if s == "Z" || s == "z" then Some(Utc)
    else if |s| == 6 && (s[0] == '+' || s[0] == '-') && s[3] == ':' then
      var h :- ParseNat(s[1..3]);
      var m :- ParseNat(s[4..6]);
      if h < 24 && m < 60 then Some(if s[0] == '+' then East(h, m) else West(h, m)) else None
    else None
  }

  /** The number of decimal digits at the start of `s`. */
  function DigitRun(s: string): (n: nat)
    ensures n <= |s|
    ensures forall i :: 0 <= i < n ==> IsDigit(s[i])
    ensures n < |s| ==> !IsDigit(s[n])
  {
    if |s| > 0 && IsDigit(s[0]) then 1 + DigitRun(s[1..]) else 0
  }

  /**
   * Where the offset of a date-time starts: right after the seconds, or
   * after the RFC 3339 `time-secfrac` (a `.` and one or more digits) when
   * there is one.
   */
  function OffsetStart(s: string): (k: nat)
    requires |s| >= 19
    ensures 19 <= k <= |s|
    ensures k == 19 <==> !(|s| > 20 && s[19] == '.' && IsDigit(s[20]))
    ensures k > 19 ==> IsDigits(s[20..k]) && (k < |s| ==> !IsDigit(s[k]))
  {
    if |s| > 20 && s[19] == '.' && IsDigit(s[20]) then
      var k := 20 + DigitRun(s[20..]);
      assert forall j :: 0 <= j < k - 20 ==> s[20..k][j] == s[20..][j];
      k
    else 19
  }

  /** RFC 3339 `date-time`: `yyyy-mm-ddThh:mm:ss`, an optional fraction of a
      second, then an offset. The `T` may be lower case. The fraction is
      read and floored: the instant keeps its whole second. */
  function ParseDateTime(s: string): (r: Option<(DateTime, Offset)>)
    ensures r.Some? ==> ValidDateTime(r.value.0) && ValidOffset(r.value.1)
  {
    if |s| < 20 then None
    else if !(s[4] == '-' && s[7] == '-' && (s[10] == 'T' || s[10] == 't') && s[13] == ':' && s[16] == ':') then None
    else
      var year :- ParseNat(s[0..4]);
      var month :- ParseNat(s[5..7]);
      var day :- ParseNat(s[8..10]);
      var hour :- ParseNat(s[11..13]);
      var minute :- ParseNat(s[14..16]);
      var second :- ParseNat(s[17..19]);
      var offset :- ParseOffset(s[OffsetStart(s)..]);
      var t := DateTime(year, month, day, hour, minute, second);
      if ValidDateTime(t) then Some((t, offset)) else None
  }

  function FormatOffset(o: Offset): string {
    match o
    case Utc => "Z"
    case East(h, m) => "+" + FormatPadded(h, 2) + ":" + FormatPadded(m, 2)
    case West(h, m) => "-" + FormatPadded(h, 2) + ":" + FormatPadded(m, 2)
  }

  /** `yyyy-mm-dd` */
  function FormatDate(t: DateTime): (s: string)
    ensures |s| == 10
  {
    FormatPadded(t.year, 4) + "-" + FormatPadded(t.month, 2) + "-" + FormatPadded(t.day, 2)
  }

  /** `hh:mm:ss` */
  function FormatTime(t: DateTime): (s: string)
    ensures |s| == 8
  {
    FormatPadded(t.hour, 2) + ":" + FormatPadded(t.minute, 2) + ":" + FormatPadded(t.second, 2)
  }

  /** The canonical RFC 3339 rendering `yyyy-mm-ddThh:mm:ss` followed by the offset. */
  function FormatDateTime(t: DateTime, o: Offset): string {
    FormatDate(t) + "T" + FormatTime(t) + FormatOffset(o)
  }

  /** Reading a two-digit field back from `c` + two digits + `:` + two digits. */
  lemma ParseFormatPair(c: char, a: nat, b: nat)
    requires a < 100 && b < 100
    ensures var s := [c] + FormatPadded(a, 2) + ":" + FormatPadded(b, 2);
      |s| == 6 && s[0] == c && s[3] == ':' && ParseNat(s[1..3]) == Some(a) && ParseNat(s[4..6]) == Some(b)
  {
    var s := [c] + FormatPadded(a, 2) + ":" + FormatPadded(b, 2);
    assert s[1..3] == FormatPadded(a, 2);
    assert s[4..6] == FormatPadded(b, 2);
    ParseFormatPadded(a, 2);
    ParseFormatPadded(b, 2);
  }

  lemma ParseFormatOffset(o: Offset)
    requires ValidOffset(o)
    ensures ParseOffset(FormatOffset(o)) == Some(o)
  {
    match o
    case Utc =>
    case East(h, m) =>
      ParseFormatPair('+', h, m);
    case West(h, m) =>
      ParseFormatPair('-', h, m);
  }

  lemma ParseFormatDate(t: DateTime)
    requires ValidDateTime(t)
    ensures var s := FormatDate(t);
      && s[4] == '-' && s[7] == '-'
      && ParseNat(s[0..4]) == Some(t.year)
      && ParseNat(s[5..7]) == Some(t.month)
      && ParseNat(s[8..10]) == Some(t.day)
  {
    var s := FormatDate(t);
    assert s[0..4] == FormatPadded(t.year, 4);
    assert s[5..7] == FormatPadded(t.month, 2);
    assert s[8..10] == FormatPadded(t.day, 2);
    ParseFormatPadded(t.year, 4);
    ParseFormatPadded(t.month, 2);
    ParseFormatPadded(t.day, 2);
  }

  lemma ParseFormatTime(t: DateTime)
    requires ValidDateTime(t)
    ensures var s := FormatTime(t);
      && s[2] == ':' && s[5] == ':'
      && ParseNat(s[0..2]) == Some(t.hour)
      && ParseNat(s[3..5]) == Some(t.minute)
      && ParseNat(s[6..8]) == Some(t.second)
  {
    var s := FormatTime(t);
    assert s[0..2] == FormatPadded(t.hour, 2);
    assert s[3..5] == FormatPadded(t.minute, 2);
    assert s[6..8] == FormatPadded(t.second, 2);
    ParseFormatPadded(t.hour, 2);
    ParseFormatPadded(t.minute, 2);
    ParseFormatPadded(t.second, 2);
  }

  /** Parsing reads back every valid date, time and offset that formatting writes. */
  lemma ParseFormatDateTime(t: DateTime, o: Offset)
    requires ValidDateTime(t) && ValidOffset(o)
    ensures ParseDateTime(FormatDateTime(t, o)) == Some((t, o))
  {
    var d, h, z := FormatDate(t), FormatTime(t), FormatOffset(o);
    var s := FormatDateTime(t, o);
    ParseFormatDate(t);
    ParseFormatTime(t);
    ParseFormatOffset(o);
    assert s[0..4] == d[0..4] && s[5..7] == d[5..7] && s[8..10] == d[8..10];
    assert s[11..13] == h[0..2] && s[14..16] == h[3..5] && s[17..19] == h[6..8];
    assert s[19..] == z;
    assert s[19] == z[0];
  }

  /** A fraction of a second is read and floored: the text with a fraction
      denotes the same date, time and offset as the text without. */
  lemma ParseFractionalDateTime(t: DateTime, o: Offset, fraction: string)
    requires ValidDateTime(t) && ValidOffset(o)
    requires |fraction| > 0 && IsDigits(fraction)
    ensures ParseDateTime(FormatDate(t) + "T" + FormatTime(t) + "." + fraction + FormatOffset(o)) == Some((t, o))
  {
    var whole := FormatDateTime(t, o);
    var z := FormatOffset(o);
    var head := FormatDate(t) + "T" + FormatTime(t);
    var s := head + "." + fraction + z;
    ParseFormatDateTime(t, o);
    assert s[..19] == whole[..19];
    assert !IsDigit(z[0]);
    FractionOffsetStart(head, fraction, z);
    assert s[20 + |fraction|..] == z == whole[19..];
    SameFields(s, whole);
  }

  /** The offset of a text with a fraction starts right after the fraction's digits. */
  lemma FractionOffsetStart(head: string, fraction: string, z: string)
    requires |head| == 19 && |fraction| > 0 && IsDigits(fraction)
    requires |z| > 0 && !IsDigit(z[0])
    ensures OffsetStart(head + "." + fraction + z) == 20 + |fraction|
  {
    var s := head + "." + fraction + z;
    assert s[19] == '.' && s[20] == fraction[0];
    assert s[20..] == fraction + z;
    DigitRunPrefix(fraction, z);
  }

  /** Two texts with the same first 19 characters and the same offset text read alike. */
  lemma SameFields(s: string, w: string)
    requires |s| >= 20 && |w| >= 20 && s[..19] == w[..19]
    requires s[OffsetStart(s)..] == w[OffsetStart(w)..]
    ensures ParseDateTime(s) == ParseDateTime(w)
  {
    assert s[0..4] == w[0..4] && s[5..7] == w[5..7] && s[8..10] == w[8..10];
    assert s[11..13] == w[11..13] && s[14..16] == w[14..16] && s[17..19] == w[17..19];
    assert s[4] == w[4] && s[7] == w[7] && s[10] == w[10] && s[13] == w[13] && s[16] == w[16];
  }

  /** The digit run of digits followed by an offset is exactly the digits. */
  lemma {:induction false} DigitRunPrefix(digits: string, z: string)
    requires IsDigits(digits) && (|z| > 0 ==> !IsDigit(z[0]))
    ensures DigitRun(digits + z) == |digits|
  {
    if |digits| > 0 {
      assert (digits + z)[1..] == digits[1..] + z;
      DigitRunPrefix(digits[1..], z);
    } else {
      assert digits + z == z;
    }
  }

  /** The instant a timestamp denotes, in whole seconds since the epoch; `None` when
      the string form is not an RFC 3339 date-time. */
  function ToEpochSeconds(ts: Timestamp): Option<int> {
    match ts
    case Seconds(n) => Some(n)
    case Text(s) =>
      match ParseDateTime(s)
      case Some((t, o)) => Some(EpochSeconds(t, o))
      case None => None
  }

  /** Reads a timestamp member: an unreadable value is dropped and recorded. */
  function NormalizeTimestamp(name: string, raw: Option<Timestamp>): (r: (Option<int>, seq<ProcessingError>))
    ensures raw.None? ==> r == (None, [])
    ensures raw.Some? ==> r.0 == ToEpochSeconds(raw.value)
    ensures r.1 != [] <==> raw.Some? && r.0.None?
  {
    match raw
    case None => (None, [])
    case Some(ts) =>
      match ToEpochSeconds(ts)
      case Some(n) => (Some(n), [])
      case None => (None, [At(name, InvalidTimestamp, Some(String(ts.text)))])
  }

  lemma ExampleDateText(y: string, m: string, d: string)
    requires y == "2011" && m == "05" && d == "02"
    ensures y + "-" + m + "-" + d == "2011-05-02"
  {
  }

  lemma ExampleDate()
    ensures FormatDate(DateTime(2011, 5, 2, 17, 41, 36)) == "2011-05-02"
  {
    ExampleDateText(FormatPadded(2011, 4), FormatPadded(5, 2), FormatPadded(2, 2));
  }

  lemma ExampleTimeText(h: string, m: string, s: string)
    requires h == "17" && m == "41" && s == "36"
    ensures h + ":" + m + ":" + s == "17:41:36"
  {
  }

  lemma ExampleTime()
    ensures FormatTime(DateTime(2011, 5, 2, 17, 41, 36)) == "17:41:36"
  {
    ExampleTimeText(FormatPadded(17, 2), FormatPadded(41, 2), FormatPadded(36, 2));
  }

  lemma ExampleRendering()
    ensures FormatDateTime(DateTime(2011, 5, 2, 17, 41, 36), Utc) == "2011-05-02T17:41:36Z"
  {
    ExampleDate();
    ExampleTime();
  }

  lemma ExampleInstant()
    ensures EpochSeconds(DateTime(2011, 5, 2, 17, 41, 36), Utc) == 1304358096
  {
    assert DaysBeforeYear(2011) == 14975;
    assert DaysBeforeMonth(2011, 5) == 120;
  }

  /** The schema's two example timestamps denote the same instant. */
  lemma ExampleTimestampsAgree()
    ensures ToEpochSeconds(Text("2011-05-02T17:41:36Z")) == Some(1304358096)
    ensures ToEpochSeconds(Seconds(1304358096)) == Some(1304358096)
  {
    var t := DateTime(2011, 5, 2, 17, 41, 36);
    var s := FormatDateTime(t, Utc);
    ParseFormatDateTime(t, Utc);
    ExampleInstant();
    assert ToEpochSeconds(Text(s)) == Some(1304358096);
    ExampleRendering();
  }

  /**
   * A timestamp need not be in UTC: text read at any offset is converted
   * to the UTC epoch second, without an error.
   */
  lemma OffsetConverted(s: string, t: DateTime, o: Offset)
    requires ParseDateTime(s) == Some((t, o))
    ensures ToEpochSeconds(Text(s)) == Some(EpochSeconds(t, Utc) - OffsetSeconds(o))
  {
    EpochSecondsShift(t, o);
  }

  lemma EpochSecondsShift(t: DateTime, o: Offset)
    requires ValidDateTime(t)
    ensures EpochSeconds(t, o) == EpochSeconds(t, Utc) - OffsetSeconds(o)
  {
  }

  /** A date and time without an offset names no instant, so the text is unreadable. */
  lemma MissingOffsetUnreadable(t: DateTime)
    ensures ToEpochSeconds(Text(FormatDate(t) + "T" + FormatTime(t))) == None
  {
  }

  lemma ExampleBreadcrumbDateText(y: string, m: string, d: string)
    requires y == "2016" && m == "04" && d == "20"
    ensures y + "-" + m + "-" + d == "2016-04-20"
  {
  }

  lemma ExampleBreadcrumbDate()
    ensures FormatDate(DateTime(2016, 4, 20, 20, 55, 53)) == "2016-04-20"
  {
    ExampleBreadcrumbDateText(FormatPadded(2016, 4), FormatPadded(4, 2), FormatPadded(20, 2));
  }

  lemma ExampleBreadcrumbTimeText(h: string, m: string, s: string)
    requires h == "20" && m == "55" && s == "53"
    ensures h + ":" + m + ":" + s == "20:55:53"
  {
  }

  lemma ExampleBreadcrumbTime()
    ensures FormatTime(DateTime(2016, 4, 20, 20, 55, 53)) == "20:55:53"
  {
    ExampleBreadcrumbTimeText(FormatPadded(20, 2), FormatPadded(55, 2), FormatPadded(53, 2));
  }

  lemma ExampleFractionalText(d: string, t: string, z: string)
    requires d == "2016-04-20" && t == "20:55:53" && z == "Z"
    ensures d + "T" + t + "." + "845" + z == "2016-04-20T20:55:53.845Z"
  {
  }

  /** The schema's breadcrumb timestamp `2016-04-20T20:55:53.845Z` is read, its
      fraction floored to the whole second. */
  lemma ExampleFractionalTimestamp()
    ensures ToEpochSeconds(Text("2016-04-20T20:55:53.845Z")) ==
      Some(EpochSeconds(DateTime(2016, 4, 20, 20, 55, 53), Utc))
  {
    var t := DateTime(2016, 4, 20, 20, 55, 53);
    ExampleBreadcrumbDate();
    ExampleBreadcrumbTime();
    ParseFractionalDateTime(t, Utc, "845");
    ExampleFractionalText(FormatDate(t), FormatTime(t), FormatOffset(Utc));
  }
}

=== FILE: wrappers.dfy ===
/** Failure-compatible wrapper types shared by every module of the model. */
module Wrappers {

  /** A value that may be missing. The schema's `field?: T | null` (absent or
      explicitly null) is modelled as `None`. */
  datatype Option<+T> = None | Some(value: T) {

    predicate IsFailure() {
      None?
    }

    function PropagateFailure<U>(): Option<U>
      requires None?
    {
      None
    }

    function Extract(): T
      requires Some?
    {
      value
    }

    /** The carried value, or `default` when there is none. */
    function GetOr(default: T): T {
      match this
      case Some(v) => v
      case None => default
    }
  }
}
